=== FILE: README.md ===
# Precedent retrieval and answer normalisation, modelled in Dafny

The `precedent` package of the jeonse-fraud assistant backend does five things:

- **Finds the statute articles** closest to a tenant's description of their case (`precedent/app/laws_search_topk.py`).
  - TF-IDF and BM25 scores are min-max normalised.
  - They are mixed with five rule-based signals: the risk-keyword share, risk phrases, a core-statute title bonus, a focus-word soft boost and a procedural-text penalty.
  - The weighted sum is clipped to [0, 100]; the best `top_k` articles above a cut-off are kept and formatted for display.
- **Finds court precedents** in a FAISS index. There are two near-duplicate front ends, the web service (`precedent/app/case_search_topk.py`) and the command-line tool (`precedent/src/search_topk.py`).
  - Both walk the candidates in order.
  - They filter by court and by an inclusive date window.
  - They summarise a decision from its first non-blank column, cut at sentence boundaries.
- **Normalises the JSON** a language model returns when it classifies a document (`precedent/app/gpt.py`). Each field is stripped or given a default, the kind is validated and the rating label is mapped to a code `B`/`M`/`G`.
- **Extracts risky sentences** from uploaded files (`precedent/app/gpt_risk.py`).
  - It removes the code fences around the model's answer.
  - It infers a document category from the file name.
  - It rebuilds a rating with its defaults and cleans the list of risky sentences, with an error entry when a file fails.
- **Labels training texts weakly** (`precedent/src/train_sbert.py`, `precedent/src/train_multilabel_baseline.py`). A category is given when one of its keywords occurs in the text, with or without white space counted; otherwise the label is `기타`.

## Project layout

- `pystr.dfy` (`PyStr`): the Python string operations the code relies on:
  - `strip()` and `\s`, using the `str.isspace` set;
  - `lower()`, `in` on strings, `startswith`/`endswith`;
  - `re.sub(r"\s+", …)`, `sep.join`, `split`, slicing and `str(int)`.
- `pyjson.dfy` (`PyJson`): decoded JSON values and the dict idioms used on them:
  - truthiness and `a or b`;
  - `d.get`, and `d[k] = v` with Python's insertion order;
  - iteration, `[x for x in xs if x]` and `xs[:n]`;
  - the exceptions (`TypeError`, `AttributeError`, `IndexError`, `ValueError`) as an `Outcome` value.
- `law_search.dfy` (`LawSearch`):
  - tokenisation, alias expansion and the five signals;
  - min-max normalisation, the composite score, partial top-n selection, the cut-off and display formatting;
  - the class `LawRetriever`, whose constructor builds the corpus and whose `ScoreDocuments`, `Search` and `Pretty` methods run the loops of `search` and `pretty`.
- `case_text.dfy` (`CaseText`): `_parse_date` with `strptime`'s `%Y`, `%m` and `%d`; the sentence splitter; `_smart_summary`. These helpers are textually identical in both case-search files.
- `case_scan.dfy` (`CaseScan`): what the two case-search loops share:
  - Python list indexing with negative indices;
  - the `row or meta` fallback, the date guard and the court test;
  - the candidate loop that stops after `k` hits or at the first exception (`Scan`), with the lemmas that carry it as a loop invariant.
- `case_search_app.dfy` (`CaseSearchApp`): the class `CaseIndex`, which holds the module-level state of the web service (`_READY`, `ids_arr`, `metas`, `row_map`, `body_map`), with `search_topk` and `get_case`.
- `case_search_src.dfy` (`CaseSearchSrc`): `load_dataframe` and `search` of the command-line tool.
- `gpt_normalize.dfy` (`GptNormalize`): `_nz`, `_validate_kind`, the label/code maps and `_normalize_rating_and_kind`. The latter is a method of the class `Parsed`, because it writes into the dict it is given. The file also holds the modality rule.
- `gpt_risk.dfy` (`GptRisk`): `_json_only`, `_infer_category`, the rating repair of `_analyze_from_text`/`_analyze_from_image`, and the risky-sentence loop of `extract_risks`.
- `weak_labels.dfy` (`WeakLabels`): both `weak_labels` functions, as loops, against one specification `Labelled`.

Where a function of the source only computes, the model is a Dafny function, and lemmas state what it means. Where the source loops or writes into a dict or an object, the model is a method. Each such method's `ensures` ties its result or new state to a specification function, and the lemmas are about that function.

## Model

| member | source | states |
|---|---|---|
| PyStr.Strip | precedent/app/case_search_topk.py:25 | `s.strip()` has no leading or trailing white space and is no longer than `s` |
| PyStr.StripUnique | precedent/app/case_search_topk.py:25 | stripping a stripped string placed between two runs of white space gives that string back |
| PyStr.StripIdempotent | precedent/app/case_search_topk.py:37-39 | stripping twice is stripping once |
| PyStr.CollapseSpace | precedent/app/case_search_topk.py:37 | `re.sub(r"\s+", " ", s)` leaves no two spaces in a row and only `' '` as space, is empty only for empty text, keeps whether the text starts and ends with space, and changes nothing but white space (the text without spaces is the same) |
| PyStr.CollapseKeepsText | precedent/app/case_search_topk.py:37 | collapsing the runs of spaces from any position on leaves the non-space characters as they were |
| PyStr.RemoveSpaceStrip | precedent/app/case_search_topk.py:35-37 | `strip()` removes white space only: the text without spaces is the same before and after |
| PyStr.RemoveSpaceConcat | precedent/src/train_sbert.py:13 | removing white space works piece by piece |
| PyStr.RemoveSpaceInsert | precedent/src/train_sbert.py:13 | a white-space character inserted anywhere is removed again |
| PyStr.ContainsTransitive | precedent/app/laws_search_topk.py:183-184 | a substring of a substring is a substring |
| PyStr.SplitOn | precedent/app/case_search_topk.py:112 | `s.split(",")` gives at least one piece, no piece holds the separator, and joining the pieces with the separator gives back `s` |
| PyStr.SplitJoin | precedent/app/case_search_topk.py:112 | splitting `",".join(names)` gives back `names` when no name holds a comma |
| PyStr.PyPrefix | precedent/app/case_search_topk.py:47 | `s[:n]` is a prefix of `s`, of length `min(n, len(s))` for `n >= 0` and `max(len(s) + n, 0)` for negative `n` |
| PyJson.Put | precedent/app/gpt_risk.py:126-131 | `d[k] = v`: `k` then maps to `v`, and every other key keeps its value |
| PyJson.PutSame | precedent/app/gpt_risk.py:130-131 | writing back the value a key already holds leaves the dict unchanged |
| PyJson.PutNew | precedent/app/gpt_risk.py:126-131 | writing a key that is absent appends it |
| PyJson.GetPut | precedent/app/gpt.py:77-78 | writing one key leaves every other key's value alone |
| PyJson.StripOrEmpty | precedent/app/gpt_risk.py:259-261 | `(v or "").strip()` raises exactly when `v` is truthy and not a string; a falsy value gives `""`, and a string gives its stripped text |
| PyJson.TruthyOnly | precedent/app/gpt_risk.py:128 | the comprehension holds only truthy entries, every truthy entry of the list is in it, and it is no longer than the list; order and multiplicity are given by `TruthyOnlyPositions` |
| PyJson.TruthyPositions | precedent/app/gpt_risk.py:128 | the positions of the list's truthy entries: strictly increasing, each holding a truthy entry, and every truthy entry's position among them |
| PyJson.TruthyOnlyPositions | precedent/app/gpt_risk.py:128 | `[r for r in xs if r]` is `xs` read at the truthy positions, so it keeps each truthy entry once and in its order |
| PyJson.TruthyOnlyKeeps | precedent/app/gpt.py:89-90 | a list whose entries are all truthy is kept whole |
| PyJson.Take | precedent/app/gpt_risk.py:256 | `xs[:n]` is the prefix of length `min(n, len(xs))` |
| LawSearch.Tokenize | precedent/app/laws_search_topk.py:69-71 | every token is a non-empty run of Hangul syllables, ASCII letters or digits, and together the tokens hold exactly the token characters of the text, in order |
| LawSearch.TokenizeLaws | precedent/app/laws_search_topk.py:69-71 | no text gives no token; a run of token characters is one token; a separator splits the token list in two |
| LawSearch.ExpandSpec | precedent/app/laws_search_topk.py:86-92 | the expansion keeps every input token and adds every word of each group that an input token triggers, and nothing else |
| LawSearch.ExpandIdempotent | precedent/app/laws_search_topk.py:86-92 | with pairwise disjoint groups, expanding an expanded set adds nothing |
| LawSearch.AliasesDisjoint | precedent/app/laws_search_topk.py:39-45 | the shipped alias groups share no word |
| LawSearch.ExpandedIdempotent | precedent/app/laws_search_topk.py:39-45 | with the shipped aliases, `expand(expand(x)) == expand(x)` |
| LawSearch.ExpandQueryTokens | precedent/app/laws_search_topk.py:86-92 | the group-by-group loop returns the specified expansion |
| LawSearch.Share | precedent/app/laws_search_topk.py:168-172 | the share lies in [0, 1]; for a non-empty query side it is `|Q∩T| / |Q|`; it is 0 exactly when the two sides share nothing, and 1 exactly when the non-empty query side lies wholly in the text |
| LawSearch.KeywordBonus | precedent/app/laws_search_topk.py:168-172 | `_keyword_bonus` is `|Q∩T| / |Q|`, with Q the risk keywords in the query and T those in the law text; it is 0 when the query has none and lies in [0, 1] |
| LawSearch.KeywordBonusMeaning | precedent/app/laws_search_topk.py:168-172 | the bonus is 0 exactly when no query keyword is in the text, and 1 exactly when every one is |
| LawSearch.PhraseHits | precedent/app/laws_search_topk.py:175-180 | `hits` is the number of positions in the phrase list whose phrase occurs in the text or in the query; it is at most the number of phrases, and 0 exactly when none occurs |
| LawSearch.PhraseBonus | precedent/app/laws_search_topk.py:174-181 | `_phrase_bonus` is a third of the number of phrases found in the text or in the query, and 1 from three found on |
| LawSearch.PhraseShare | precedent/app/laws_search_topk.py:174-181 | the phrase share lies in [0, 1], is 0 for no hit and 1 from three hits on |
| LawSearch.TitleBonus | precedent/app/laws_search_topk.py:183-184 | the title bonus is exactly 1 or 0, and 1 exactly when the law name contains a core statute name |
| LawSearch.TitleBonusOfCoreName | precedent/app/laws_search_topk.py:183-184 | any name containing a core statute name gets the bonus |
| LawSearch.DownPenalty | precedent/app/laws_search_topk.py:186-188 | the penalty is exactly 1 or 0, and 1 exactly when the text contains a procedural word |
| LawSearch.DownPenaltyOfProcedure | precedent/app/laws_search_topk.py:186-188 | every text mentioning a procedural word is penalised, and a text gets no penalty exactly when it mentions none |
| LawSearch.SoftBoost | precedent/app/laws_search_topk.py:217-218 | the soft boost is 1 exactly when the text contains one of the focus words among the expanded query tokens, else 0 |
| LawSearch.MinMaxNormalize | precedent/app/laws_search_topk.py:195-199 | every normalised entry lies in [0, 1) |
| LawSearch.MinMaxKeepsOrder | precedent/app/laws_search_topk.py:195-199 | normalisation keeps the order between any two entries |
| LawSearch.MinMaxMinIsZero | precedent/app/laws_search_topk.py:195-199 | a minimal entry becomes 0 |
| LawSearch.NormalizeIfPositive | precedent/app/laws_search_topk.py:220-223 | the second pass keeps the length, and entries in [0, 1] stay in [0, 1] |
| LawSearch.NormalizeKeepsOrder | precedent/app/laws_search_topk.py:220-223 | the conditional pass keeps the order of the entries |
| LawSearch.AllOnesNormalizeToZero | precedent/app/laws_search_topk.py:220-223 | when every document carries the signal, the normalised signal is 0 everywhere |
| LawSearch.Composite | precedent/app/laws_search_topk.py:226-235 | the weighted sum of the seven signals, clipped and scaled, lies in [0, 100] |
| LawSearch.CompositeMonotone | precedent/app/laws_search_topk.py:226-235 | raising a positive signal, or lowering the penalty, never lowers the score |
| LawSearch.CompositeExtremes | precedent/app/laws_search_topk.py:226-235 | full marks on every positive signal give 100 whatever the penalty; no signal at all gives 0 |
| LawSearch.Combine | precedent/app/laws_search_topk.py:226-235 | tuple `i` belongs to document `i` and carries that document's seven signals and score |
| LawSearch.ScoreAllRanges | precedent/app/laws_search_topk.py:191-235 | tuple `i` is document `i`; every signal lies in [0, 1] and every score in [0, 100] |
| LawSearch.PartialTopStep | precedent/app/laws_search_topk.py:237-239 | appending the best document left keeps a selection distinct and sorted with nothing better left behind |
| LawSearch.FindBest | precedent/app/laws_search_topk.py:237-239 | the index found is not yet taken and scores at least as well as every index not taken |
| LawSearch.SelectTop | precedent/app/laws_search_topk.py:237-239 | returns `n` distinct documents, best first, with none left out scoring higher than one kept |
| LawSearch.CutOff | precedent/app/laws_search_topk.py:247-248 | the cut-off keeps only hits of the list scoring at least the threshold, and is no longer than the list |
| LawSearch.CutOffPrefix | precedent/app/laws_search_topk.py:247-248 | on a sorted list the cut-off keeps a prefix |
| LawSearch.CutOffNone | precedent/app/laws_search_topk.py:247-248 | on a sorted list whose best score is below the threshold, nothing is kept |
| LawSearch.CutOffMonotone | precedent/app/laws_search_topk.py:237-248 | a higher threshold over the same ranked list keeps a prefix of the earlier result |
| LawSearch.RankedHits | precedent/app/laws_search_topk.py:237-248 | the cut-off of a top-`k` selection has at most `k` hits, non-increasing in score, of distinct documents, each with every signal in range and a score of at least the cut-off |
| LawSearch.PrettyArticle | precedent/app/laws_search_topk.py:253-264 | an article number is shown as `제…조` unless it already starts with `제`; an empty one stays empty |
| LawSearch.PrettyArticleIdempotent | precedent/app/laws_search_topk.py:253-264 | formatting a displayed article again changes nothing |
| LawSearch.Render | precedent/app/laws_search_topk.py:250-265 | one display entry per hit, in order: rank `a + 1`, the hit's score, its law name, its formatted article and its text |
| LawSearch.RenderHits | precedent/app/laws_search_topk.py:250-265 | the loop of `pretty` returns `Render` of the hits: ranks from 1, non-increasing scores within [min_score·100, 100] |
| LawSearch.RowSignals | precedent/app/laws_search_topk.py:211-218 | one document's keyword, phrase, title, penalty and soft signals are the bonus functions of its name and text |
| LawSearch.Signals | precedent/app/laws_search_topk.py:211-218 | the signal loop returns, for each signal, the vector of that signal over the documents, in document order |
| LawSearch.NormalizeRow | precedent/app/laws_search_topk.py:119-141 | row `i` has index `i`; the corpus entry's own law name and text win over the meta entry's; a missing law name falls back to the meta entry; a non-dict entry is the text itself, and a falsy one gives an empty text |
| LawSearch.BodyMapLastWins | precedent/app/laws_search_topk.py:144-146 | every row's key is in the body map and maps to the text of the last row with that key |
| LawSearch.BodyMapKeys | precedent/app/laws_search_topk.py:144-146 | the body map's keys are exactly the rows' `(law_name, article_no)` pairs |
| LawSearch.MetasOf | precedent/app/laws_search_topk.py:106-110 | the metadata list, or one empty dict per corpus row when there is none |
| LawSearch.LawRetriever.constructor | precedent/app/laws_search_topk.py:95-154 | the corpus is truncated to `min(len(meta), len(corpus))` normalised rows with `idx == i`, and the documents, token lists and body map are built from them |
| LawSearch.LawRetriever.ScoreDocuments | precedent/app/laws_search_topk.py:191-235 | returns `ScoreAll` for the query: every document scored, all signals in [0, 1], all scores in [0, 100] |
| LawSearch.LawRetriever.Search | precedent/app/laws_search_topk.py:191-248 | at most `min(top_k, N)` distinct hits, sorted by score, each within [min_score·100, 100]; the cut-off of the top-n selection |
| LawSearch.LawRetriever.Pretty | precedent/app/laws_search_topk.py:250-265 | the rendered hits of `Search`, ranked from 1, non-increasing in score |
| CaseText.Strptime | precedent/app/case_search_topk.py:22-31 | a date `strptime` reads with `%Y`, `%m`, `%d` and a separator is a real calendar date, and the text spells that date: four year digits, the separator, a `%m` form of the month, the separator and a `%d` form of the day |
| CaseText.StrptimeComplete | precedent/app/case_search_topk.py:22-31 | every spelling of a valid date with a non-digit separator is read back as that date |
| CaseText.StrptimeMeaning | precedent/app/case_search_topk.py:22-31 | with a non-digit separator, `strptime` returns a date exactly when the text spells it, and fails exactly when the text spells no date |
| CaseText.ParseDate | precedent/app/case_search_topk.py:22-31 | a non-string gives `None`; a date it returns is valid and spelled by the stripped text as `%Y.%m.%d` or `%Y-%m-%d` |
| CaseText.ParseDateMeaning | precedent/app/case_search_topk.py:22-31 | `_parse_date` of a string returns a date exactly when the stripped text spells it in one of the two formats, and `None` exactly when it spells no date in either |
| CaseText.StrptimeFormat | precedent/app/case_search_topk.py:22-31 | reading back the zero-padded form of a valid date gives the date |
| CaseText.ParseDateFormat | precedent/app/case_search_topk.py:22-31 | `_parse_date` reads back the zero-padded form in either format |
| CaseText.ParseDateFormatted | precedent/app/case_search_topk.py:22-31 | white space around a date does not stop `_parse_date` |
| CaseText.ParseDateSameStrip | precedent/app/case_search_topk.py:22-31 | `_parse_date` only looks at the stripped text |
| CaseText.ParseDateShort | precedent/app/case_search_topk.py:22-31 | one-digit month and day are accepted too |
| CaseText.SplitFrom | precedent/app/case_search_topk.py:33-38 | the split pieces are non-empty and join back to the text; each piece but the last ends in `.`, `!` or `?`; pieces of single-spaced text are single-spaced |
| CaseText.SplitFromBoundaries | precedent/app/case_search_topk.py:33-38 | with no boundary skipped so far, the first piece starts where the scan started, every later piece starts with the space, quote or bracket that follows a sentence end, and no piece holds a boundary inside it |
| CaseText.SentSplitMeaning | precedent/app/case_search_topk.py:33-38 | `SENT_SPLIT.split(t)` cuts `t` at its boundaries and nowhere else: the pieces join back to `t`, each but the last ends in `.`, `!` or `?`, each but the first starts with a space, quote or bracket, and no piece holds a boundary |
| CaseText.Sentences | precedent/app/case_search_topk.py:33-39 | the sentences are non-empty, stripped, single-spaced, and all but the last end in `.`, `!` or `?`; for a string, the sentences together hold exactly its non-space characters, in order |
| CaseText.CleanKeepsText | precedent/app/case_search_topk.py:39 | stripping the pieces and dropping the empty ones removes white space only |
| CaseText.SentencesEmptyIff | precedent/app/case_search_topk.py:33-39 | there is no sentence exactly when the input is not a string or is blank |
| CaseText.Truncate | precedent/app/case_search_topk.py:47 | a text within the limit is kept; a longer one is cut to the limit plus `…`, so it is at most one longer than the limit |
| CaseText.FromColumn | precedent/app/case_search_topk.py:41-48 | the summary comes from the first column that holds a non-blank string |
| CaseText.SmartSummary | precedent/app/case_search_topk.py:41-48 | `None` exactly when none of `판결요지`, `판시사항`, `본문` holds a non-blank string; otherwise the truncated summary of the first that does |
| CaseText.SummaryOfSentences | precedent/app/case_search_topk.py:41-48 | a usable column's summary is its first 3 (or 2) sentences joined by spaces, and never empty |
| CaseScan.PyIndex | precedent/app/case_search_topk.py:120-121 | `xs[i]` gives the entry for `0 <= i < len`, counts from the end for negative `i`, and raises `IndexError` out of range |
| CaseScan.Scan | precedent/app/case_search_topk.py:116-151 | a successful loop returns at most `k` hits |
| CaseScan.ScanTakesKept | precedent/app/case_search_topk.py:116-151 | with no exception, the loop returns the first `k` kept candidates in candidate order |
| CaseScan.ScanFrom | precedent/app/case_search_topk.py:116-151 | every hit returned was yielded by some candidate |
| CaseScan.ScanRaisedFrom | precedent/app/case_search_topk.py:116-151 | an exception out of the loop is some candidate's exception |
| CaseScan.RowOrMeta | precedent/app/case_search_topk.py:137-140 | the row's value when truthy, the metadata's otherwise |
| CaseScan.DateOf | precedent/app/case_search_topk.py:130 | a parsed date comes from a string and is a valid date |
| CaseScan.DateOfIsParseDate | precedent/app/case_search_topk.py:130 | the truthiness guard in front of `_parse_date` changes nothing |
| CaseScan.BeforeIsStrictOrder | precedent/app/case_search_topk.py:131-132 | date comparison is irreflexive, transitive and total |
| CaseScan.InRangeMeaning | precedent/app/case_search_topk.py:131-132 | without bounds every date passes; with a bound a missing date never does; both bounds are inclusive; an empty window admits nothing |
| CaseScan.CourtPasses | precedent/app/case_search_topk.py:124-127 | without a court set every row passes; with one, the test raises exactly for a truthy non-string, a string court passes exactly when its stripped text is in the set, and a falsy court exactly when `""` is |
| CaseSearchApp.ZipMap | precedent/app/case_search_topk.py:80-81 | the keys of `dict(zip(keys, vals))` are exactly the keys given |
| CaseSearchApp.ZipMapLastWins | precedent/app/case_search_topk.py:80-81 | a key maps to the value at its last occurrence |
| CaseSearchApp.CourtSet | precedent/app/case_search_topk.py:112 | no court text gives the empty set, which switches the filter off; otherwise a name is in the set exactly when it is a non-empty stripped piece of the comma-split text |
| CaseSearchApp.CourtSetNames | precedent/app/case_search_topk.py:112 | every name in the set is stripped, non-empty and contains no comma |
| CaseSearchApp.CourtSetOfNames | precedent/app/case_search_topk.py:112 | for non-empty, stripped, comma-free names, the court set of `",".join(names)` is exactly the set of those names |
| CaseSearchApp.SummaryField | precedent/app/case_search_topk.py:143 | the non-empty smart summary when there is one; the metadata's `본문요약` (or `""`) when there is none |
| CaseSearchApp.CaseIndex.constructor | precedent/app/case_search_topk.py:73-90 | after a successful load the index is ready and holds the ids, metadata and both maps; after a failure it is not ready and holds nothing |
| CaseSearchApp.CaseIndex.SearchTopk | precedent/app/case_search_topk.py:96-157 | an index that is not ready answers with the error and nothing else; a ready one answers with the scan of the candidates |
| CaseSearchApp.CaseIndex.GetCase | precedent/app/case_search_topk.py:160-186 | an index that is not ready answers with the error; a ready one answers with the detail record of the id |
| CaseSearchApp.Step | precedent/app/case_search_topk.py:117-149 | the `-1` sentinel is skipped and a metadata index out of range raises; for a candidate whose id and metadata resolve, a court that is not text raises, and otherwise the candidate is kept exactly when it passes both filters; a kept item carries the candidate's id and score, the title, court, date and case number from the row or else the metadata, the summary when asked for, and the stored body when asked for and non-empty |
| CaseSearchApp.CollectHits | precedent/app/case_search_topk.py:116-151 | the loop returns the scan of the candidate outcomes |
| CaseSearchApp.DetailOf | precedent/app/case_search_topk.py:164-186 | raises exactly when the id is found at a position past the metadata; otherwise the record has the requested id, its title, court, date and case number come from the row or else the metadata at the id's first position (an empty object for an unknown id), the summary is present exactly when asked for, and the body is the row's `본문` or else the stored body, present when asked for and non-empty |
| CaseSearchApp.FirstIndex | precedent/app/case_search_topk.py:166 | the first position of the id, `None` exactly when it is absent |
| CaseSearchApp.SearchItemsAdmitted | precedent/app/case_search_topk.py:116-151 | every item passes the court and date filters and comes from a non-sentinel candidate with that id and score |
| CaseSearchApp.SearchKeepsOrder | precedent/app/case_search_topk.py:116-151 | with no exception, the answer is the first `k` items kept by `Step`, in candidate order |
| CaseSearchSrc.LoadDataframe | precedent/src/search_topk.py:89-95 | raises `ValueError` exactly when the `판례일련번호` column is missing; otherwise the table is unchanged |
| CaseSearchSrc.Loc | precedent/src/search_topk.py:141-144 | `None` exactly when no row has the id; otherwise a row with that id |
| CaseSearchSrc.CourtFilterSet | precedent/src/search_topk.py:127 | the names as given; no list switches the filter off |
| CaseSearchSrc.CourtFilterOff | precedent/src/search_topk.py:127 | the filter is off exactly when no name is given |
| CaseSearchSrc.PaddedCourtNeverMatches | precedent/src/search_topk.py:127-151 | a filter whose names all carry surrounding white space admits no row |
| CaseSearchSrc.Content | precedent/src/search_topk.py:161-166 | the key is `본문` exactly for `return_full`; the summary value is `None` exactly when there is no summary |
| CaseSearchSrc.Step | precedent/src/search_topk.py:133-176 | the sentinel is skipped and an id missing from the table is skipped; for a candidate found in the table, a court that is not text raises, and otherwise the candidate is kept exactly when it passes both filters; a hit carries the id, score, title, court, date and case number from the row or else the metadata, and the full text or the summary as asked |
| CaseSearchSrc.Need | precedent/src/search_topk.py:178-179 | the loop stops at `topk` hits, and at the first hit when `topk < 1` |
| CaseSearchSrc.Search | precedent/src/search_topk.py:101-181 | raises `ValueError` without the id column; otherwise returns the scan of the candidate outcomes |
| CaseSearchSrc.SearchHitsAdmitted | precedent/src/search_topk.py:147-176 | every hit passes both filters, is in the table, carries the requested content key and comes from a non-sentinel candidate with its score |
| CaseSearchSrc.SearchKeepsOrder | precedent/src/search_topk.py:132-181 | with no exception, the hits are the first `topk` hits kept by `Step`, in candidate order |
| GptNormalize.CodeToLabelInverse | precedent/app/gpt.py:29-30 | `CODE_TO_LABEL` is the exact inverse of `LABEL_TO_CODE` |
| GptNormalize.LabelCodesAre | precedent/app/gpt.py:29 | the codes are exactly `B`, `M`, `G`, one for each Korean label |
| GptNormalize.Nz | precedent/app/gpt.py:67-69 | raises exactly for a truthy non-string; otherwise the stripped text when non-empty, the fallback otherwise |
| GptNormalize.NzKeeps | precedent/app/gpt.py:67-69 | a non-empty stripped text passes through unchanged |
| GptNormalize.ValidateKind | precedent/app/gpt.py:71-73 | the result is always a valid kind; raises exactly for a truthy non-string |
| GptNormalize.ValidateKindMeaning | precedent/app/gpt.py:71-73 | a text is accepted as kind `k` exactly when its stripped lower-cased form is `k`; any other text is `other` |
| GptNormalize.ValidateKindKeeps | precedent/app/gpt.py:71-73 | a valid kind passes through unchanged |
| GptNormalize.LabelCode | precedent/app/gpt.py:82-84 | a code is kept, a Korean label is mapped, anything else is `M`; the result is always a code |
| GptNormalize.LabelCodes | precedent/app/gpt.py:82-84 | the three labels get `B`, `M` and `G` |
| GptNormalize.ReasonsOf | precedent/app/gpt.py:86-93 | one to three truthy reasons, or a `TypeError` |
| GptNormalize.ReasonsMeaning | precedent/app/gpt.py:86-93 | a string becomes a one-element list, falsy entries are dropped, at most three are kept, and none left gives exactly the three defaults |
| GptNormalize.ReasonsKeep | precedent/app/gpt.py:86-93 | one to three truthy reasons are kept as they are |
| GptNormalize.StringReason | precedent/app/gpt.py:86-88 | a single non-empty string reason is the only reason |
| GptNormalize.RatingOf | precedent/app/gpt.py:81-93 | the rating has a code and one to three truthy reasons |
| GptNormalize.RatingMeaning | precedent/app/gpt.py:81-93 | the rating raises exactly when its value is truthy and not a dict, or its parts raise; a falsy rating gets code `M` and the defaults |
| GptNormalize.Normalize | precedent/app/gpt.py:75-100 | a valid kind, non-empty stripped `law_input`/`case_input`, a code and one to three truthy reasons |
| GptNormalize.NormalizeRaises | precedent/app/gpt.py:75-100 | raises exactly when `law_input`, `case_input` or `kind` is truthy and not text, or the rating raises |
| GptNormalize.NormalizeEmpty | precedent/app/gpt.py:75-100 | an empty answer gets every default |
| GptNormalize.ToJsonGets | precedent/app/gpt.py:95-100 | the returned dict holds exactly the four normalised parts |
| GptNormalize.RatingKeeps | precedent/app/gpt.py:81-99 | a normalised rating is read back unchanged |
| GptNormalize.NormalizeIdempotent | precedent/app/gpt.py:75-100 | normalising a normalised answer gives it back unchanged |
| GptNormalize.Written | precedent/app/gpt.py:77-78 | the writes into `parsed` touch only `law_input` and `case_input`, and only as far as their `_nz` calls succeed |
| GptNormalize.Parsed.constructor | precedent/app/gpt.py:75 | the object holds the parsed dict |
| GptNormalize.Parsed.NormalizeRatingAndKind | precedent/app/gpt.py:75-100 | returns `Normalize` of the dict it started with and leaves the dict as `Written` of it |
| GptNormalize.Modality | precedent/app/gpt.py:226 | `image` exactly for an image type, `pdf` exactly for another type mentioning `pdf`, `other` otherwise |
| GptNormalize.ModalityAgrees | precedent/app/gpt.py:139-156 | the order in which `_analyze_bytes` tests the type agrees with the `modality` reported at line 226 |
| GptRisk.DropOpening | precedent/app/gpt_risk.py:60-61 | an opening fence and the white space after it are dropped; nothing changes without the fence |
| GptRisk.DropClosing | precedent/app/gpt_risk.py:62 | a closing fence and the white space before it are dropped; nothing changes without the fence |
| GptRisk.UnfencedIsStripped | precedent/app/gpt_risk.py:58-62 | an answer without fences is only stripped |
| GptRisk.UnfenceRoundTrip | precedent/app/gpt_risk.py:58-62 | a stripped body inside a `json` fence, with white space around, is recovered exactly |
| GptRisk.JsonOnly | precedent/app/gpt_risk.py:58-66 | the parsed value when the unfenced text parses, `{"parse_error": True, "raw": …}` otherwise |
| GptRisk.CategoryMeaning | precedent/app/gpt_risk.py:68-79 | rule `i` decides exactly when one of its patterns matches and no pattern of an earlier rule does |
| GptRisk.CategoryOther | precedent/app/gpt_risk.py:68-79 | the category is `기타` exactly when no pattern matches |
| GptRisk.CategoryIsLabel | precedent/app/gpt_risk.py:68-79 | the category is `기타` or one of the rule labels |
| GptRisk.FirstMatch | precedent/app/gpt_risk.py:75-79 | the nested loops return the category of the rules |
| GptRisk.InferCategory | precedent/app/gpt_risk.py:73-79 | the category of the lower-cased file name |
| GptRisk.CatRulesDistinct | precedent/app/gpt_risk.py:68-72 | the three labels are distinct and none is `기타` |
| GptRisk.FixedRating | precedent/app/gpt_risk.py:122-129 | rebuilding the rating raises only a `TypeError`; what it builds is given by `FixedRatingShape` |
| GptRisk.FixedRatingShape | precedent/app/gpt_risk.py:122-129 | the rebuilt label is the old one when truthy and `괜찮아요` otherwise; the reasons are the three defaults when no old reason is truthy, and otherwise the truthy ones in order, all of them or the first three |
| GptRisk.FixedRatingRaises | precedent/app/gpt_risk.py:123-128 | rebuilding raises exactly when the reasons are a truthy number or boolean |
| GptRisk.FixedRatingKeeps | precedent/app/gpt_risk.py:122-129 | a well-formed rating is rebuilt unchanged |
| GptRisk.FilledGets | precedent/app/gpt_risk.py:126-131 | after the writes `rating` holds the new rating, `law_input` and `case_input` hold their old values when truthy and their defaults otherwise, and every other key is as before |
| GptRisk.FilledNew | precedent/app/gpt_risk.py:126-131 | on a dict without the three keys, the writes append them in order |
| GptRisk.FilledSame | precedent/app/gpt_risk.py:126-131 | the writes change nothing on a dict that already holds the rating and truthy texts |
| GptRisk.FixAnalysisRaises | precedent/app/gpt_risk.py:121-132 | the repair raises exactly when the answer is not a dict, its rating is truthy and not a dict, or the reasons are a truthy number or boolean |
| GptRisk.FixAnalysis | precedent/app/gpt_risk.py:121-132 | a repair that raises raises `TypeError` exactly when the answer and its rating are dicts (the reasons cannot be iterated) and `AttributeError` otherwise; a repaired analysis has a well-formed rating, and `law_input` and `case_input` are their old values when truthy and their defaults otherwise |
| GptRisk.FixAnalysisShape | precedent/app/gpt_risk.py:121-132 | a repaired analysis has a well-formed rating, `law_input` and `case_input` are their old values when truthy and their defaults otherwise, and every other key is as before |
| GptRisk.FixAnalysisIdempotent | precedent/app/gpt_risk.py:121-132 | repairing twice gives what repairing once gave |
| GptRisk.UnparsedAnswer | precedent/app/gpt_risk.py:121-132 | an answer that does not parse yields the `parse_error` record followed by the default rating, `law_input` and `case_input` |
| GptRisk.CleanRisk | precedent/app/gpt_risk.py:259-266 | raises exactly when a field is truthy and not text; otherwise every field is non-empty and stripped, and a missing label is `중간` |
| GptRisk.CleanRiskFields | precedent/app/gpt_risk.py:259-266 | a cleaned dict holds each field's stripped text when that is non-empty, and otherwise its default (a blank or missing label is `중간`) |
| GptRisk.RiskList | precedent/app/gpt_risk.py:251-256 | a list gives its first twenty entries and a single dict is wrapped in a list; raises exactly for a non-dict answer or a truthy number or boolean value |
| GptRisk.RiskSteps | precedent/app/gpt_risk.py:256-266 | one outcome per entry, in order |
| GptRisk.CleanRisks | precedent/app/gpt_risk.py:251-266 | the loop returns the cleaned list of the answer |
| GptRisk.KeptLength | precedent/app/gpt_risk.py:255-266 | no more entries are kept than were examined |
| GptRisk.RisksInOrder | precedent/app/gpt_risk.py:255-266 | with no field raising, the cleaned list is every dict among the first twenty entries, cleaned, in order |
| GptRisk.RisksFromDicts | precedent/app/gpt_risk.py:255-266 | every cleaned entry comes from a dict among the first twenty entries |
| GptRisk.RisksAtMostTwenty | precedent/app/gpt_risk.py:256 | a cleaned list never holds more than twenty entries |
| GptRisk.FileRisks | precedent/app/gpt_risk.py:239-283 | the item keeps the file name; it holds the cleaned list, or the one error entry when anything raised |
| GptRisk.FileRisksFilled | precedent/app/gpt_risk.py:259-283 | every entry has a non-empty sentence and label, and a non-empty reason unless it is the error entry |
| GptRisk.ExtractRisks | precedent/app/gpt_risk.py:235-283 | one item per file, in upload order, each the item of that file |
| WeakLabels.Hits | precedent/src/train_sbert.py:14-18 | no more categories than keys |
| WeakLabels.Labelled | precedent/src/train_sbert.py:19 | the result is never empty |
| WeakLabels.HitPositions | precedent/src/train_sbert.py:15-18 | the categories found are keys taken in strictly increasing key order, each with a matching keyword |
| WeakLabels.HitsMember | precedent/src/train_sbert.py:15-18 | a key is a hit exactly when some entry with that key has a keyword found in the text |
| WeakLabels.HitsDistinct | precedent/src/train_sbert.py:16-18 | with distinct keys each category appears at most once |
| WeakLabels.LabelledMember | precedent/src/train_sbert.py:15-19 | a category is in the labels exactly when one of its keywords matches, and `기타` exactly when that holds or nothing matched |
| WeakLabels.LabelledOther | precedent/src/train_sbert.py:19 | nothing matched gives exactly `["기타"]`; when `기타` is not a key, `["기타"]` means nothing matched |
| WeakLabels.SquashedIgnoresTextSpace | precedent/src/train_sbert.py:13 | inserting one white-space character anywhere in the text does not change the squashed labels |
| WeakLabels.SquashedIgnoresWordSpace | precedent/src/train_sbert.py:17 | inserting one white-space character into one keyword does not change the squashed labels |
| WeakLabels.WeakLabelsSquashed | precedent/src/train_sbert.py:12-19 | the loop returns the labels with white space removed from text and keywords |
| WeakLabels.WeakLabelsPlain | precedent/src/train_multilabel_baseline.py:11-17 | the loop returns the labels with white space significant |
| WeakLabels.BaselineSeesSpace | precedent/src/train_multilabel_baseline.py:12-15 | the two variants differ: keyword `ab` misses `a b` in the baseline and is found in the squashed variant |

## Left out

- Floating point: scores are real numbers. `float32` storage, `1e-9` rounding and `round(score, 1)` in `pretty` are not modelled.
- `str.lower()` is modelled on ASCII letters only; other characters are kept. The regular expressions' Unicode `\d` is modelled as ASCII digits.
- The learned models are parameters: the TF-IDF cosine similarities, BM25 scores, FAISS candidates and sentence embeddings.
- LawSearch.SelectTop: `np.argpartition` followed by a stable sort of the chosen indices. Among documents with equal scores the model picks the lowest index; numpy's tie order is not specified.
- LawSearch.LawRetriever.constructor: it requires each row within the common length to have a string or falsy law name and text and a string, number, boolean or falsy article number, after the meta fallback; a non-dict corpus entry must be such a scalar. A list- or dict-valued entry, which Python would turn into text with `str`, is not modelled. A meta entry that is not a dict counts as `{}`. An empty corpus is allowed here; `Search` requires at least one row and `top_k >= 1`, since the source fails on an empty corpus (`sims.min()`) and does not mean a `top_k` below 1. Reading the JSON files is outside the model.
- The source loads the lexicon (risk keywords, phrases, core names, focus and procedural words, aliases) as module constants. The model takes them as a parameter, with the shipped alias groups given as `SHIPPED`.
- File I/O, `pdfplumber`, base64 encoding, the HTTP client and every language-model call are outside the model. The model's answer is an input value; `json.loads` is the parameter `parse` of `GptRisk.JsonOnly`.
- GptRisk.FileRisks: the text of an exception (`str(e)`) is the parameter `errorText` of an upload; which exception text appears is not modelled.
- The `/analyze` endpoint's item assembly in `gpt_risk.py` (lines 184-220) is not modelled beyond its modality rule. Nor are the URL download loop of `gpt.py` or the message building of `_analyze_bytes`; only the order of its type tests is, as `GptNormalize.PromptKind`.
- `datetime.fromisoformat` for the request's date bounds is not modelled; the bounds are given already parsed.
- The `$` of `\s*```$` also matches before a final newline. Since the text was stripped first, no newline can end it, so the model reads `$` as the end of the text.
- CaseSearchSrc.Loc: `df.loc` on a duplicated index returns several rows. The model takes the first row with the id.
- `NaN` values read from parquet are not modelled. A missing cell is `None`.
- JSON numbers are integers in the model. A fractional number, and the rendering `str` gives a float (`12.0` for an `article_no` of 12.0), are not modelled.
- GptNormalize.Parsed.NormalizeRatingAndKind: the parsed answer is assumed to be a dict; the source calls `.get` on it without a check.
- WeakLabels: `str(text)` of a non-string is not modelled; the text is a string. The keyword dictionary is a list of key/words pairs in insertion order, and every word is a string.
- The code and the written description of the system disagree in a few places. The model follows the code:
  - neither case-search loop removes duplicate ids;
  - `LawRetriever` truncates to the shorter of metadata and corpus and does not pad the metadata;
  - `search()` in `src/search_topk.py` builds its court set as `set(court_filter)` without stripping the names (`CaseSearchSrc.PaddedCourtNeverMatches`); the command-line `main`, which is not part of this model, strips them before the call;
  - in the hit loop of `search()`, a `topk` below 1 still stops after one hit (`CaseSearchSrc.Need`); the FAISS call `index.search(q, topk * 5)` before the loop is a parameter, the candidate list, so what it returns for such a `topk` is not modelled.
- WeakLabels.LabelledOther: `["기타"]` from a keyword category also named `기타` cannot be told apart from "nothing matched"; the lemma states the converse only when `기타` is not a key.

=== FILE: case_scan.dfy ===
/**
 * The candidate loop shared by the two case searches: FAISS hands back
 * `(score, ridx)` pairs best first, and each pair is skipped, kept as a hit
 * or raises; the loop stops as soon as enough hits are kept. This module
 * also holds the court and date filters both loops apply.
 */
module CaseScan {
  import opened PyStr
  import opened PyJson
  import opened CaseText

  /** `xs[i]` for a Python list or array: a negative `i` counts from the end. */
  function PyIndex<T>(xs: seq<T>, i: int): (r: Outcome<T>)
    ensures 0 <= i < |xs| ==> r == Ok(xs[i])
    ensures r.Raised? <==> !(-|xs| <= i < |xs|)
    ensures r.Raised? ==> r.error == IndexError
  {
    if 0 <= i < |xs| then Ok(xs[i])
    else if -|xs| <= i < 0 then Ok(xs[|xs| + i])
    else Raised(IndexError)
  }

  /** One FAISS result: the similarity and the row of the index, `-1` when
      the index had fewer vectors than were asked for. */
  datatype Candidate = Candidate(score: real, ridx: int)

  /** `h + v` for a finished scan; an exception passes through. */
  function Prepend<I>(h: seq<I>, r: Outcome<seq<I>>): Outcome<seq<I>> {
    match r
    case Ok(v) => Ok(h + v)
    case Raised(e) => Raised(e)
  }

  /** The hit loop over the outcomes of the candidates in order: a `None` is
      a `continue`, a `Some` is appended, and once `need` hits are held the
      loop breaks; an exception ends the call. */
  function Scan<I>(outs: seq<Outcome<Option<I>>>, need: nat): (r: Outcome<seq<I>>)
    requires need >= 1
    ensures r.Ok? ==> |r.value| <= need
  {
    if outs == [] then Ok([])
    else
      match outs[0]
      case Raised(e) => Raised(e)
      case Ok(None) => Scan(outs[1..], need)
      case Ok(Some(x)) => if need == 1 then Ok([x]) else Prepend([x], Scan(outs[1..], need - 1))
  }

  /** Every value the candidates yield, in candidate order. */
  function Kept<I>(outs: seq<Outcome<Option<I>>>): seq<I> {
    if outs == [] then []
    else if outs[0].Ok? && outs[0].value.Some? then [outs[0].value.value] + Kept(outs[1..])
    else Kept(outs[1..])
  }

  predicate NoneRaises<I>(outs: seq<Outcome<Option<I>>>) {
    forall i :: 0 <= i < |outs| ==> outs[i].Ok?
  }

  /** When no candidate raises, the loop returns the first `need` kept
      values in candidate order. */
  lemma {:induction false} ScanTakesKept<I>(outs: seq<Outcome<Option<I>>>, need: nat)
    requires need >= 1 && NoneRaises(outs)
    ensures Scan(outs, need) == Ok(Take(Kept(outs), need))
  {
    if outs != [] {
      assert NoneRaises(outs[1..]) by {
        forall i | 0 <= i < |outs| - 1 ensures outs[1..][i].Ok? { assert outs[1..][i] == outs[i + 1]; }
      }
      if outs[0].value.Some? && need > 1 {
        ScanTakesKept(outs[1..], need - 1);
        var ks := Kept(outs[1..]);
        assert Take([outs[0].value.value] + ks, need) == [outs[0].value.value] + Take(ks, need - 1);
      } else if outs[0].value.None? {
        ScanTakesKept(outs[1..], need);
      }
    }
  }

  /** Every hit returned was yielded by some candidate. */
  lemma {:induction false} ScanFrom<I>(outs: seq<Outcome<Option<I>>>, need: nat, x: I)
    requires need >= 1 && Scan(outs, need).Ok? && x in Scan(outs, need).value
    ensures exists i :: 0 <= i < |outs| && outs[i] == Ok(Some(x))
  {
    assert outs != [];
    if outs[0] != Ok(Some(x)) {
      if outs[0].value.None? {
        ScanFrom(outs[1..], need, x);
      } else {
        ScanFrom(outs[1..], need - 1, x);
      }
      var i :| 0 <= i < |outs[1..]| && outs[1..][i] == Ok(Some(x));
      assert outs[i + 1] == Ok(Some(x));
    }
  }

  /** An exception out of the loop is the exception of some candidate. */
  lemma {:induction false} ScanRaisedFrom<I>(outs: seq<Outcome<Option<I>>>, need: nat)
    requires need >= 1 && Scan(outs, need).Raised?
    ensures exists i :: 0 <= i < |outs| && outs[i] == Raised(Scan(outs, need).error)
  {
    assert outs != [];
    if outs[0].Ok? {
      var n := if outs[0].value.None? then need else need - 1;
      ScanRaisedFrom(outs[1..], n);
      var i :| 0 <= i < |outs[1..]| && outs[1..][i] == Raised(Scan(outs[1..], n).error);
      assert outs[i + 1] == outs[1..][i];
    }
  }

  /** One turn of the loop at position `i`, for the loop invariant. */
  lemma ScanStep<I>(outs: seq<Outcome<Option<I>>>, i: nat, need: nat)
    requires i < |outs| && need >= 1
    ensures outs[i].Raised? ==> Scan(outs[i..], need) == Raised(outs[i].error)
    ensures outs[i] == Ok(None) ==> Scan(outs[i..], need) == Scan(outs[i + 1..], need)
    ensures outs[i].Ok? && outs[i].value.Some? ==>
      Scan(outs[i..], need) ==
        if need == 1 then Ok([outs[i].value.value])
        else Prepend([outs[i].value.value], Scan(outs[i + 1..], need - 1))
  {
    assert outs[i..][0] == outs[i];
    assert outs[i..][1..] == outs[i + 1..];
  }

  /** The invariant of the hit loop: `hits` were kept before position `i`,
      and the rest of the scan finishes the call. */
  ghost predicate LoopAt<I>(outs: seq<Outcome<Option<I>>>, need: nat, hits: seq<I>, i: nat) {
    i <= |outs| && |hits| < need && Scan(outs, need) == Prepend(hits, Scan(outs[i..], need - |hits|))
  }

  lemma LoopStart<I>(outs: seq<Outcome<Option<I>>>, need: nat)
    requires need >= 1
    ensures LoopAt(outs, need, [], 0)
  {
    assert outs[0..] == outs;
    PrependNothing(Scan(outs, need));
  }

  /** A skipped candidate leaves the hits as they are. */
  lemma LoopSkip<I>(outs: seq<Outcome<Option<I>>>, need: nat, hits: seq<I>, i: nat)
    requires LoopAt(outs, need, hits, i) && i < |outs| && outs[i] == Ok(None)
    ensures LoopAt(outs, need, hits, i + 1)
  {
    ScanStep(outs, i, need - |hits|);
  }

  /** A kept candidate that does not fill the quota is appended. */
  lemma LoopKeep<I>(outs: seq<Outcome<Option<I>>>, need: nat, hits: seq<I>, i: nat, x: I)
    requires LoopAt(outs, need, hits, i) && i < |outs| && outs[i] == Ok(Some(x)) && |hits| + 1 < need
    ensures LoopAt(outs, need, hits + [x], i + 1)
  {
    ScanStep(outs, i, need - |hits|);
    PrependPrepend(hits, x, Scan(outs[i + 1..], need - |hits| - 1));
  }

  /** A kept candidate that fills the quota ends the loop. */
  lemma LoopFull<I>(outs: seq<Outcome<Option<I>>>, need: nat, hits: seq<I>, i: nat, x: I)
    requires LoopAt(outs, need, hits, i) && i < |outs| && outs[i] == Ok(Some(x)) && |hits| + 1 >= need
    ensures Scan(outs, need) == Ok(hits + [x])
  {
    ScanStep(outs, i, need - |hits|);
  }

  /** An exception ends the loop with that exception. */
  lemma LoopRaise<I>(outs: seq<Outcome<Option<I>>>, need: nat, hits: seq<I>, i: nat, e: PyError)
    requires LoopAt(outs, need, hits, i) && i < |outs| && outs[i] == Raised(e)
    ensures Scan(outs, need) == Raised(e)
  {
    ScanStep(outs, i, need - |hits|);
  }

  /** Running out of candidates returns the hits held. */
  lemma LoopEnd<I>(outs: seq<Outcome<Option<I>>>, need: nat, hits: seq<I>)
    requires LoopAt(outs, need, hits, |outs|)
    ensures Scan(outs, need) == Ok(hits)
  {
    assert outs[|outs|..] == [];
    assert hits + [] == hits;
  }

  lemma PrependNothing<I>(r: Outcome<seq<I>>)
    ensures Prepend([], r) == r
  {
    if r.Ok? {
      assert [] + r.value == r.value;
    }
  }

  lemma PrependPrepend<I>(h: seq<I>, x: I, r: Outcome<seq<I>>)
    ensures Prepend(h, Prepend([x], r)) == Prepend(h + [x], r)
  {
    if r.Ok? {
      assert h + ([x] + r.value) == (h + [x]) + r.value;
    }
  }

  // ===================== filters =====================

  /** `a.get(ka) or b.get(kb)`: the row's value, else the metadata's. */
  function RowOrMeta(row: seq<(string, Json)>, rowKey: string, meta: seq<(string, Json)>, metaKey: string): (r: Json)
    ensures Truthy(Get(row, rowKey)) ==> r == Get(row, rowKey)
    ensures !Truthy(Get(row, rowKey)) ==> r == Get(meta, metaKey)
  {
    Or(Get(row, rowKey), Get(meta, metaKey))
  }

  /** `_parse_date(raw) if raw else None`. */
  function DateOf(raw: Json): (r: Option<Date>)
    ensures r.Some? ==> raw.JStr? && ValidDate(r.value)
  {
    if Truthy(raw) then ParseDate(raw) else None
  }

  /** A falsy value never parses, so the guard in front of `_parse_date`
      changes nothing. */
  lemma DateOfIsParseDate(raw: Json)
    ensures DateOf(raw) == ParseDate(raw)
  {
    if raw.JStr? && raw.s == [] {
      assert Strip(raw.s) == [];
      assert |Strip(raw.s)| < 5;
    }
  }

  /** The inclusive date window: a bound that is given excludes a missing
      date and a date on the wrong side of it. */
  predicate InRange(dt: Option<Date>, from: Option<Date>, to: Option<Date>) {
    && (from.None? || (dt.Some? && !Before(dt.value, from.value)))
    && (to.None? || (dt.Some? && !Before(to.value, dt.value)))
  }

  /** `Before` is the strict calendar order: irreflexive, transitive and total. */
  lemma BeforeIsStrictOrder(a: Date, b: Date, c: Date)
    ensures !Before(a, a)
    ensures Before(a, b) && Before(b, c) ==> Before(a, c)
    ensures a != b ==> Before(a, b) || Before(b, a)
    ensures !(Before(a, b) && Before(b, a))
  {
  }

  /** Without bounds everything passes; with a bound a missing date never
      does; both bounds are inclusive. */
  lemma InRangeMeaning(dt: Option<Date>, from: Option<Date>, to: Option<Date>, d: Date)
    ensures InRange(dt, None, None)
    ensures dt.None? && (from.Some? || to.Some?) ==> !InRange(dt, from, to)
    ensures InRange(Some(d), Some(d), Some(d))
    ensures from.Some? && to.Some? && Before(to.value, from.value) ==> !InRange(dt, from, to)
  {
    if from.Some? && to.Some? && Before(to.value, from.value) && dt.Some? {
      BeforeIsStrictOrder(to.value, from.value, dt.value);
      BeforeIsStrictOrder(dt.value, to.value, from.value);
    }
  }

  /** `(court_value or "").strip()` followed by the membership test: with
      an empty set there is no court filter. An exception when the court
      value is truthy but not a string. */
  function CourtPasses(courts: set<string>, court: Json): (r: Outcome<bool>)
    ensures courts == {} ==> r == Ok(true)
    ensures courts != {} ==> (r.Raised? <==> Truthy(court) && !court.JStr?)
    ensures r == Ok(true) && courts != {} ==> StripOrEmpty(court).Ok? && StripOrEmpty(court).value in courts
    ensures courts != {} && court.JStr? ==> r == Ok(Strip(court.s) in courts)
    ensures courts != {} && !Truthy(court) ==> r == Ok([] in courts)
  {
    if courts == {} then Ok(true)
    else
      match StripOrEmpty(court)
      case Raised(e) => Raised(e)
      case Ok(name) => Ok(name in courts)
  }

  /** What every hit satisfies: its court, stripped, is in the court set
      when there is one, and its decision date lies in the window. */
  predicate Admitted(courts: set<string>, from: Option<Date>, to: Option<Date>, court: Json, date: Json) {
    && CourtPasses(courts, court) == Ok(true)
    && InRange(DateOf(date), from, to)
  }
}

=== FILE: case_search_app.dfy ===
/**
 * The case search service (`precedent/app/case_search_topk.py`): an index
 * loaded once when the module is imported, a similarity search with court
 * and date filters over FAISS candidates, and the detail record of one case.
 *
 * Loading the FAISS index, the metadata file, the embedding model and the
 * parquet table is outside the model: the constructor receives what was
 * loaded, or `None` when any step of the load raised.
 */
module CaseSearchApp {
  import opened PyStr
  import opened PyJson
  import opened CaseText
  import opened CaseScan

  /** What the load produces: the vector ids in index order, one metadata
      object per line of the metadata file, and per table row its key (the
      `판례일련번호` column as a string), the row itself and its `본문`. */
  datatype Loaded = Loaded(ids: seq<int>, metas: seq<Fields>, keys: seq<string>, rows: seq<Fields>, bodies: seq<Json>)

  /** `dict(zip(keys, vals))`: every key maps to the value at its last
      occurrence. */
  function ZipMap<V>(keys: seq<string>, vals: seq<V>): (m: map<string, V>)
    requires |keys| == |vals|
    ensures m.Keys == set i | 0 <= i < |keys| :: keys[i]
  {
    if keys == [] then map[]
    else
      var n := |keys| - 1;
      ZipMap(keys[..n], vals[..n])[keys[n] := vals[n]]
  }

  /** The value a key maps to is the one at its last occurrence. */
  lemma {:induction false} ZipMapLastWins<V>(keys: seq<string>, vals: seq<V>, i: nat)
    requires |keys| == |vals| && i < |keys|
    requires forall j :: i < j < |keys| ==> keys[j] != keys[i]
    ensures keys[i] in ZipMap(keys, vals) && ZipMap(keys, vals)[keys[i]] == vals[i]
  {
    var n := |keys| - 1;
    if i < n {
      ZipMapLastWins(keys[..n], vals[..n], i);
    }
  }

  /** One hit of the search: the fields the response carries. `summary` and
      `body` are `None` when the key is absent from the item. */
  datatype CaseItem = CaseItem(docId: int, score: real, title: Json, court: Json, date: Json,
                               caseNo: Json, summary: Option<Json>, body: Option<Json>)

  /** The detail record of `get_case`. */
  datatype CaseDetail = CaseDetail(docId: int, title: Json, court: Json, date: Json,
                                   caseNo: Json, summary: Option<Json>, body: Option<Json>)

  /** A reply of the service: the "cases index not initialized" error, or
      an answer. */
  datatype Reply<T> = NotInitialized | Answer(answer: T)

  datatype SearchResult = SearchResult(query: string, count: int, items: seq<CaseItem>)

  /** `set([c.strip() for c in court.split(",") if c.strip()]) if court else None`,
      with the empty set standing for `None`: both switch the filter off. */
  function CourtSet(court: Option<string>): (r: set<string>)
    ensures court.None? ==> r == {}
    ensures court.Some? ==> forall c :: c in r <==> c != [] && exists p :: p in SplitOn(court.value, ',') && Strip(p) == c
  {
    if court.None? || court.value == [] then {}
    else set p | p in SplitOn(court.value, ',') && Strip(p) != [] :: Strip(p)
  }

  /** The names in the court set are stripped, non-empty and contain no comma. */
  lemma CourtSetNames(court: Option<string>, c: string)
    requires c in CourtSet(court)
    ensures c != [] && IsStripped(c)
    ensures ',' !in c
  {
    var p :| p in SplitOn(court.value, ',') && Strip(p) == c;
    var pre, post := StripSplits(p);
    forall k | 0 <= k < |c|
      ensures c[k] != ','
    {
      assert c[k] == p[|pre| + k];
    }
  }

  /** A comma-joined list of clean court names filters on exactly those names. */
  lemma CourtSetOfNames(names: seq<string>)
    requires forall k :: 0 <= k < |names| ==> names[k] != [] && IsStripped(names[k]) && ',' !in names[k]
    ensures CourtSet(Some(Join(",", names))) == set n | n in names
  {
    if names != [] {
      var joined := Join(",", names);
      assert joined != [] by {
        if |names| > 1 {
          assert joined == names[0] + "," + Join(",", names[1..]);
        }
      }
      SplitJoin(names, ',');
      assert [','] == ",";
      forall n | n in names
        ensures Strip(n) == n
      {
        StripStripped(n);
      }
    }
  }

  /** `_smart_summary(row, 700) or meta.get("본문요약", "")`. */
  function SummaryField(row: Fields, meta: Fields): (r: Json)
    ensures SmartSummary(row, 700).Some? && SmartSummary(row, 700).value != [] ==> r == JStr(SmartSummary(row, 700).value)
    ensures SmartSummary(row, 700).None? ==> r == GetOr(meta, "본문요약", JStr([]))
  {
    match SmartSummary(row, 700)
    case Some(s) => if s != [] then JStr(s) else GetOr(meta, "본문요약", JStr([]))
    case None => GetOr(meta, "본문요약", JStr([]))
  }

  /** An optional key holding `v` only when `v` is truthy. */
  function IfTruthy(v: Json): (r: Option<Json>)
    ensures r.Some? <==> Truthy(v)
    ensures r.Some? ==> r.value == v
  {
    if Truthy(v) then Some(v) else None
  }

  /** The structures loaded at import time. */
  datatype Tables = Tables(ids: seq<int>, metas: seq<Fields>, rowMap: map<string, Fields>, bodyMap: map<string, Json>)

  class CaseIndex {
    var ready: bool
    var ids: seq<int>
    var metas: seq<Fields>
    var rowMap: map<string, Fields>
    var bodyMap: map<string, Json>

    /** The module-level load: on success every structure is filled and the
        index is ready; on failure everything is empty and it is not. */
    constructor (loaded: Option<Loaded>)
      requires loaded.Some? ==> |loaded.value.keys| == |loaded.value.rows| == |loaded.value.bodies|
      ensures ready <==> loaded.Some?
      ensures loaded.None? ==> ids == [] && metas == [] && rowMap == map[] && bodyMap == map[]
      ensures loaded.Some? ==> ids == loaded.value.ids && metas == loaded.value.metas
      ensures loaded.Some? ==> rowMap == ZipMap(loaded.value.keys, loaded.value.rows)
      ensures loaded.Some? ==> bodyMap == ZipMap(loaded.value.keys, loaded.value.bodies)
    {
      match loaded
      case None =>
        ready, ids, metas, rowMap, bodyMap := false, [], [], map[], map[];
      case Some(l) =>
        ready, ids, metas := true, l.ids, l.metas;
        rowMap := ZipMap(l.keys, l.rows);
        bodyMap := ZipMap(l.keys, l.bodies);
    }

    function Loaded(): Tables
      reads this
    {
      Tables(ids, metas, rowMap, bodyMap)
    }

    /** `search_topk`: the error reply when the index did not load; otherwise
        the first `k` admitted candidates in candidate order, counted.
        `from` and `to` are the already-parsed bounds. */
    method SearchTopk(q: string, k: int, withSummary: bool, withBody: bool, court: Option<string>,
                      from: Option<Date>, to: Option<Date>, cands: seq<Candidate>)
      returns (r: Outcome<Reply<SearchResult>>)
      requires 1 <= k
      ensures !ready ==> r == Ok(NotInitialized)
      ensures ready ==> r == Respond(q, Scan(Steps(Loaded(), cands, CourtSet(court), from, to, withSummary, withBody), k))
    {
      if !ready {
        return Ok(NotInitialized);
      }
      var hits := CollectHits(Loaded(), cands, CourtSet(court), from, to, withSummary, withBody, k);
      r := Respond(q, hits);
    }

    /** `get_case`: the detail record of `docId`, with an empty metadata
        object when the id is not in the index. */
    method GetCase(docId: int, withSummary: bool, withBody: bool) returns (r: Outcome<Reply<CaseDetail>>)
      ensures !ready ==> r == Ok(NotInitialized)
      ensures ready ==> r == DetailOf(Loaded(), docId, withSummary, withBody)
    {
      if !ready {
        return Ok(NotInitialized);
      }
      r := DetailOf(Loaded(), docId, withSummary, withBody);
    }
  }

  /** One turn of the `search_topk` loop: `None` for a `continue`, the item
      for an append, or the exception raised on the way. */
  function Step(t: Tables, c: Candidate, courts: set<string>, from: Option<Date>, to: Option<Date>,
                withSummary: bool, withBody: bool): (r: Outcome<Option<CaseItem>>)
    ensures c.ridx == -1 ==> r == Ok(None)
    ensures 0 <= c.ridx < |t.ids| && c.ridx >= |t.metas| ==> r == Raised(IndexError)
    ensures r.Ok? && r.value.Some? ==>
      && c.ridx != -1 && PyIndex(t.ids, c.ridx) == Ok(r.value.value.docId) && r.value.value.score == c.score
      && Admitted(courts, from, to, r.value.value.court, r.value.value.date)
      && (r.value.value.summary.Some? <==> withSummary)
      && (r.value.value.body.Some? ==> withBody && Truthy(r.value.value.body.value))
    ensures c.ridx != -1 && PyIndex(t.ids, c.ridx).Ok? && PyIndex(t.metas, c.ridx).Ok? ==>
      var id := PyIndex(t.ids, c.ridx).value;
      var meta := PyIndex(t.metas, c.ridx).value;
      var row := RowOf(t, id);
      var key := IntToString(id);
      var court := RowOrMeta(row, "법원명", meta, "법원");
      var date := RowOrMeta(row, "선고일자", meta, "선고일자");
      && (CourtPasses(courts, court).Raised? ==> r == Raised(CourtPasses(courts, court).error))
      && (CourtPasses(courts, court).Ok? ==> r.Ok? && (r.value.Some? <==> Admitted(courts, from, to, court, date)))
      && (r.Ok? && r.value.Some? ==>
            && r.value.value.title == RowOrMeta(row, "사건명", meta, "제목")
            && r.value.value.court == court && r.value.value.date == date
            && r.value.value.caseNo == RowOrMeta(row, "사건번호", meta, "사건번호")
            && (withSummary ==> r.value.value.summary == Some(SummaryField(row, meta)))
            && (withBody && key in t.bodyMap && Truthy(t.bodyMap[key]) ==> r.value.value.body == Some(t.bodyMap[key])))
  {
    if c.ridx == -1 then Ok(None)
    else
      match PyIndex(t.ids, c.ridx)
      case Raised(e) => Raised(e)
      case Ok(id) =>
        match PyIndex(t.metas, c.ridx)
        case Raised(e) => Raised(e)
        case Ok(meta) =>
          var key := IntToString(id);
          var row := if key in t.rowMap then t.rowMap[key] else [];
          var court := RowOrMeta(row, "법원명", meta, "법원");
          match CourtPasses(courts, court)
          case Raised(e) => Raised(e)
          case Ok(pass) =>
            var date := RowOrMeta(row, "선고일자", meta, "선고일자");
            if !pass || !InRange(DateOf(date), from, to) then Ok(None)
            else
              Ok(Some(CaseItem(
                id, c.score, RowOrMeta(row, "사건명", meta, "제목"), court, date,
                RowOrMeta(row, "사건번호", meta, "사건번호"),
                if withSummary then Some(SummaryField(row, meta)) else None,
                if withBody && key in t.bodyMap then IfTruthy(t.bodyMap[key]) else None)))
  }

  /** The outcomes of every candidate, in candidate order. */
  function Steps(t: Tables, cands: seq<Candidate>, courts: set<string>, from: Option<Date>, to: Option<Date>,
                 withSummary: bool, withBody: bool): (r: seq<Outcome<Option<CaseItem>>>)
    ensures |r| == |cands|
    ensures forall i :: 0 <= i < |cands| ==> r[i] == Step(t, cands[i], courts, from, to, withSummary, withBody)
  {
    if cands == [] then []
    else [Step(t, cands[0], courts, from, to, withSummary, withBody)] + Steps(t, cands[1..], courts, from, to, withSummary, withBody)
  }

  /** The loop of `search_topk` over the FAISS candidates. */
  method CollectHits(t: Tables, cands: seq<Candidate>, courts: set<string>, from: Option<Date>, to: Option<Date>,
                     withSummary: bool, withBody: bool, k: int) returns (r: Outcome<seq<CaseItem>>)
    requires 1 <= k
    ensures r == Scan(Steps(t, cands, courts, from, to, withSummary, withBody), k)
  {
    ghost var outs := Steps(t, cands, courts, from, to, withSummary, withBody);
    var hits: seq<CaseItem> := [];
    var i := 0;
    LoopStart(outs, k);
    while i < |cands|
      invariant i <= |cands| && LoopAt(outs, k, hits, i)
    {
      var o := Step(t, cands[i], courts, from, to, withSummary, withBody);
      assert outs[i] == o;
      match o {
        case Raised(e) =>
          LoopRaise(outs, k, hits, i, e);
          return Raised(e);
        case Ok(None) =>
          LoopSkip(outs, k, hits, i);
        case Ok(Some(item)) =>
          if |hits| + 1 >= k {
            LoopFull(outs, k, hits, i, item);
            return Ok(hits + [item]);
          }
          LoopKeep(outs, k, hits, i, item);
          hits := hits + [item];
      }
      i := i + 1;
    }
    LoopEnd(outs, k, hits);
    return Ok(hits);
  }

  /** The record `get_case` builds for a ready index. */
  function DetailOf(t: Tables, docId: int, withSummary: bool, withBody: bool): (r: Outcome<Reply<CaseDetail>>)
    ensures r.Raised? <==> FirstIndex(t.ids, docId).Some? && FirstIndex(t.ids, docId).value >= |t.metas|
    ensures r.Raised? ==> r.error == IndexError
    ensures r.Ok? ==> r.value.Answer? && r.value.answer.docId == docId
    ensures r.Ok? ==> (r.value.answer.summary.Some? <==> withSummary)
    ensures r.Ok? && r.value.answer.body.Some? ==> withBody && Truthy(r.value.answer.body.value)
    ensures r.Ok? && docId !in t.ids && Truthy(Get(RowOf(t, docId), "사건명")) ==>
      r.value.answer.title == Get(RowOf(t, docId), "사건명")
    ensures r.Ok? && docId !in t.ids && !Truthy(Get(RowOf(t, docId), "사건명")) ==> r.value.answer.title == JNull
    ensures r.Ok? ==>
      var found := FirstIndex(t.ids, docId);
      var meta := if found.Some? && found.value < |t.metas| then t.metas[found.value] else [];
      var row := RowOf(t, docId);
      var key := IntToString(docId);
      var body := Or(Get(row, "본문"), if key in t.bodyMap then t.bodyMap[key] else JNull);
      && r.value.answer.title == RowOrMeta(row, "사건명", meta, "제목")
      && r.value.answer.court == RowOrMeta(row, "법원명", meta, "법원")
      && r.value.answer.date == RowOrMeta(row, "선고일자", meta, "선고일자")
      && r.value.answer.caseNo == RowOrMeta(row, "사건번호", meta, "사건번호")
      && (withSummary ==> r.value.answer.summary == Some(SummaryField(row, meta)))
      && (withBody && Truthy(body) ==> r.value.answer.body == Some(body))
  {
    var found := FirstIndex(t.ids, docId);
    if found.Some? && found.value >= |t.metas| then Raised(IndexError)
    else
      var meta := if found.Some? then t.metas[found.value] else [];
      var key := IntToString(docId);
      var row := RowOf(t, docId);
      var stored := if key in t.bodyMap then t.bodyMap[key] else JNull;
      Ok(Answer(CaseDetail(
        docId, RowOrMeta(row, "사건명", meta, "제목"), RowOrMeta(row, "법원명", meta, "법원"),
        RowOrMeta(row, "선고일자", meta, "선고일자"), RowOrMeta(row, "사건번호", meta, "사건번호"),
        if withSummary then Some(SummaryField(row, meta)) else None,
        if withBody then IfTruthy(Or(Get(row, "본문"), stored)) else None)))
  }

  /** `row_map.get(str(doc_id), {})`. */
  function RowOf(t: Tables, docId: int): Fields {
    var key := IntToString(docId);
    if key in t.rowMap then t.rowMap[key] else []
  }

  /** The response `search_topk` builds from the hits, `count` being their
      number. */
  function Respond(q: string, hits: Outcome<seq<CaseItem>>): Outcome<Reply<SearchResult>> {
    match hits
    case Ok(items) => Ok(Answer(SearchResult(q, |items|, items)))
    case Raised(e) => Raised(e)
  }

  /** `list(ids).index(x)`: the first position of `x`, `None` for the
      `ValueError`. */
  function FirstIndex(xs: seq<int>, x: int): (r: Option<nat>)
    ensures r.None? <==> x !in xs
    ensures r.Some? ==> r.value < |xs| && xs[r.value] == x && forall j :: 0 <= j < r.value ==> xs[j] != x
  {
    if xs == [] then None
    else if xs[0] == x then Some(0)
    else
      match FirstIndex(xs[1..], x)
      case None => None
      case Some(i) => Some(i + 1)
  }

  /** Every item of a search answer comes from a candidate that is not the
      `-1` sentinel, carries that candidate's id and score, and passes the
      court and date filters. */
  lemma SearchItemsAdmitted(t: Tables, cands: seq<Candidate>, courts: set<string>, from: Option<Date>,
                            to: Option<Date>, withSummary: bool, withBody: bool, k: nat, it: CaseItem)
    requires k >= 1
    requires Scan(Steps(t, cands, courts, from, to, withSummary, withBody), k).Ok?
    requires it in Scan(Steps(t, cands, courts, from, to, withSummary, withBody), k).value
    ensures Admitted(courts, from, to, it.court, it.date)
    ensures exists i :: 0 <= i < |cands| && cands[i].ridx != -1
                        && PyIndex(t.ids, cands[i].ridx) == Ok(it.docId) && it.score == cands[i].score
  {
    var outs := Steps(t, cands, courts, from, to, withSummary, withBody);
    ScanFrom(outs, k, it);
    var i :| 0 <= i < |outs| && outs[i] == Ok(Some(it));
    assert outs[i] == Step(t, cands[i], courts, from, to, withSummary, withBody);
  }

  /** With no exception on the way, the answer is the first `k` admitted
      candidates in candidate order, and the count is at most `k`. */
  lemma SearchKeepsOrder(t: Tables, cands: seq<Candidate>, courts: set<string>, from: Option<Date>,
                         to: Option<Date>, withSummary: bool, withBody: bool, k: nat)
    requires k >= 1
    requires NoneRaises(Steps(t, cands, courts, from, to, withSummary, withBody))
    ensures Scan(Steps(t, cands, courts, from, to, withSummary, withBody), k)
            == Ok(Take(Kept(Steps(t, cands, courts, from, to, withSummary, withBody)), k))
  {
    ScanTakesKept(Steps(t, cands, courts, from, to, withSummary, withBody), k);
  }
}

=== FILE: case_search_src.dfy ===
/**
 * The command-line case search (`precedent/src/search_topk.py`): every call
 * loads the index, the metadata, the model and the parquet table, then walks
 * the FAISS candidates with a court filter taken verbatim from the caller,
 * the date window, and a lookup of each candidate in the table indexed by
 * `판례일련번호`. A hit carries either the full text or a summary.
 *
 * The FAISS search and the embedding are outside the model: the candidates
 * are a parameter, as are the loaded ids and metadata and the table.
 */
module CaseSearchSrc {
  import opened PyStr
  import opened PyJson
  import opened CaseText
  import opened CaseScan

  /** The column the table is indexed by. */
  const ID_COLUMN: string := "판례일련번호"

  /** A table read from parquet: its column names and its rows, each row a
      dict over the columns. */
  datatype Frame = Frame(columns: set<string>, rows: seq<Fields>)

  /** One hit: `contentKey` is `본문` or `본문요약` and `content` its value. */
  datatype Hit = Hit(docId: int, score: real, title: Json, court: Json, date: Json, caseNo: Json,
                     contentKey: string, content: Json)

  /** `load_dataframe`: a `ValueError` when the id column is missing; the
      index keeps the column (`drop=False`), so the rows are unchanged. */
  function LoadDataframe(f: Frame): (r: Outcome<Frame>)
    ensures r.Raised? <==> ID_COLUMN !in f.columns
    ensures r.Raised? ==> r.error == ValueError
    ensures r.Ok? ==> r.value == f
  {
    if ID_COLUMN !in f.columns then Raised(ValueError) else Ok(f)
  }

  /** `doc_id in df.index` and `df.loc[doc_id]`: the first row whose id
      column holds the number `id`, `None` when there is none. */
  function Loc(rows: seq<Fields>, id: int): (r: Option<Fields>)
    ensures r.None? <==> forall i :: 0 <= i < |rows| ==> Get(rows[i], ID_COLUMN) != JNum(id)
    ensures r.Some? ==> exists i :: 0 <= i < |rows| && rows[i] == r.value && Get(r.value, ID_COLUMN) == JNum(id)
  {
    if rows == [] then None
    else if Get(rows[0], ID_COLUMN) == JNum(id) then Some(rows[0])
    else
      var r := Loc(rows[1..], id);
      assert forall i :: 1 <= i < |rows| ==> rows[i] == rows[1..][i - 1];
      r
  }

  /** `set(court_filter) if court_filter else None`, the empty set standing
      for `None`. The names are taken as given, without stripping. */
  function CourtFilterSet(courtFilter: Option<seq<string>>): (r: set<string>)
    ensures courtFilter.None? ==> r == {}
    ensures courtFilter.Some? ==> forall c :: c in r <==> c in courtFilter.value
  {
    if courtFilter.None? || courtFilter.value == [] then {} else set c | c in courtFilter.value
  }

  /** The filter is switched off exactly when no name is given. */
  lemma CourtFilterOff(courtFilter: Option<seq<string>>)
    ensures CourtFilterSet(courtFilter) == {} <==> courtFilter.None? || courtFilter.value == []
  {
    if courtFilter.Some? && courtFilter.value != [] {
      assert courtFilter.value[0] in CourtFilterSet(courtFilter);
    }
  }

  /** A filter name with leading or trailing white space never matches,
      because the court it is compared with is stripped. */
  lemma PaddedCourtNeverMatches(courtFilter: seq<string>, court: Json)
    requires courtFilter != [] && forall i :: 0 <= i < |courtFilter| ==> !IsStripped(courtFilter[i])
    ensures CourtPasses(CourtFilterSet(Some(courtFilter)), court) != Ok(true)
  {
    var courts := CourtFilterSet(Some(courtFilter));
    assert courtFilter[0] in courts;
    if StripOrEmpty(court).Ok? {
      StripOrEmptyStripped(court);
      assert StripOrEmpty(court).value !in courts;
    }
  }

  /** `.strip()` leaves a stripped string. */
  lemma StripOrEmptyStripped(v: Json)
    requires StripOrEmpty(v).Ok?
    ensures IsStripped(StripOrEmpty(v).value)
  {
  }

  /** The content of a hit: the `본문` column for `return_full`, otherwise
      the summary of `_smart_summary`, `None` when it has none. */
  function Content(row: Fields, full: bool, summaryLen: int): (r: (string, Json))
    ensures full ==> r == ("본문", Get(row, "본문"))
    ensures !full ==> r.0 == "본문요약" && (r.1 == JNull <==> SmartSummary(row, summaryLen).None?)
    ensures !full && SmartSummary(row, summaryLen).Some? ==> r.1 == JStr(SmartSummary(row, summaryLen).value)
  {
    if full then ("본문", Get(row, "본문"))
    else
      match SmartSummary(row, summaryLen)
      case Some(s) => ("본문요약", JStr(s))
      case None => ("본문요약", JNull)
  }

  /** One turn of the loop of `search`: `None` for a `continue`, the hit
      for an append, or the exception raised on the way. */
  function Step(ids: seq<int>, metas: seq<Fields>, f: Frame, c: Candidate, courts: set<string>,
                from: Option<Date>, to: Option<Date>, full: bool, summaryLen: int): (r: Outcome<Option<Hit>>)
    ensures c.ridx == -1 ==> r == Ok(None)
    ensures r.Raised? ==> r.error == IndexError || r.error == AttributeError
    ensures r.Ok? && r.value.Some? ==>
      && c.ridx != -1 && PyIndex(ids, c.ridx) == Ok(r.value.value.docId) && r.value.value.score == c.score
      && Loc(f.rows, r.value.value.docId).Some?
      && Admitted(courts, from, to, r.value.value.court, r.value.value.date)
      && r.value.value.contentKey == (if full then "본문" else "본문요약")
    ensures c.ridx != -1 && PyIndex(ids, c.ridx).Ok? && PyIndex(metas, c.ridx).Ok? ==>
      var id := PyIndex(ids, c.ridx).value;
      var meta := PyIndex(metas, c.ridx).value;
      && (Loc(f.rows, id).None? ==> r == Ok(None))
      && (Loc(f.rows, id).Some? ==>
            var row := Loc(f.rows, id).value;
            var court := RowOrMeta(row, "법원명", meta, "법원");
            var date := RowOrMeta(row, "선고일자", meta, "선고일자");
            && (CourtPasses(courts, court).Raised? ==> r == Raised(CourtPasses(courts, court).error))
            && (CourtPasses(courts, court).Ok? ==> r.Ok? && (r.value.Some? <==> Admitted(courts, from, to, court, date)))
            && (r.Ok? && r.value.Some? ==>
                  && r.value.value.title == RowOrMeta(row, "사건명", meta, "제목")
                  && r.value.value.court == court && r.value.value.date == date
                  && r.value.value.caseNo == RowOrMeta(row, "사건번호", meta, "사건번호")
                  && (r.value.value.contentKey, r.value.value.content) == Content(row, full, summaryLen)))
  {
    if c.ridx == -1 then Ok(None)
    else
      match PyIndex(ids, c.ridx)
      case Raised(e) => Raised(e)
      case Ok(id) =>
        match PyIndex(metas, c.ridx)
        case Raised(e) => Raised(e)
        case Ok(meta) =>
          match Loc(f.rows, id)
          case None => Ok(None)
          case Some(row) =>
            var court := RowOrMeta(row, "법원명", meta, "법원");
            match CourtPasses(courts, court)
            case Raised(e) => Raised(e)
            case Ok(pass) =>
              var date := RowOrMeta(row, "선고일자", meta, "선고일자");
              if !pass || !InRange(DateOf(date), from, to) then Ok(None)
              else
                var content := Content(row, full, summaryLen);
                Ok(Some(Hit(
                  id, c.score, RowOrMeta(row, "사건명", meta, "제목"), court, date,
                  RowOrMeta(row, "사건번호", meta, "사건번호"), content.0, content.1)))
  }

  /** The outcomes of every candidate, in candidate order. */
  function Steps(ids: seq<int>, metas: seq<Fields>, f: Frame, cands: seq<Candidate>, courts: set<string>,
                 from: Option<Date>, to: Option<Date>, full: bool, summaryLen: int): (r: seq<Outcome<Option<Hit>>>)
    ensures |r| == |cands|
    ensures forall i :: 0 <= i < |cands| ==> r[i] == Step(ids, metas, f, cands[i], courts, from, to, full, summaryLen)
  {
    if cands == [] then []
    else [Step(ids, metas, f, cands[0], courts, from, to, full, summaryLen)]
         + Steps(ids, metas, f, cands[1..], courts, from, to, full, summaryLen)
  }

  /** The number of hits that ends the loop: the check `len(hits) >= topk`
      comes after an append, so a `topk` below 1 stops at the first hit. */
  function Need(topk: int): (n: nat)
    ensures n >= 1 && n >= topk
    ensures topk >= 1 ==> n == topk
  {
    if topk < 1 then 1 else topk
  }

  /** `search` after the loads: the table check, the court set, then the
      hit loop. `from` and `to` are the already-parsed bounds. */
  method Search(ids: seq<int>, metas: seq<Fields>, frame: Frame, cands: seq<Candidate>, topk: int,
                summaryLen: int, full: bool, courtFilter: Option<seq<string>>,
                from: Option<Date>, to: Option<Date>) returns (r: Outcome<seq<Hit>>)
    ensures ID_COLUMN !in frame.columns ==> r == Raised(ValueError)
    ensures ID_COLUMN in frame.columns ==>
      r == Scan(Steps(ids, metas, frame, cands, CourtFilterSet(courtFilter), from, to, full, summaryLen), Need(topk))
  {
    var loaded := LoadDataframe(frame);
    if loaded.Raised? {
      return Raised(loaded.error);
    }
    var f := loaded.value;
    var courts := CourtFilterSet(courtFilter);
    ghost var outs := Steps(ids, metas, f, cands, courts, from, to, full, summaryLen);
    var hits: seq<Hit> := [];
    var i := 0;
    LoopStart(outs, Need(topk));
    while i < |cands|
      invariant i <= |cands| && LoopAt(outs, Need(topk), hits, i)
    {
      var o := Step(ids, metas, f, cands[i], courts, from, to, full, summaryLen);
      assert outs[i] == o;
      match o {
        case Raised(e) =>
          LoopRaise(outs, Need(topk), hits, i, e);
          return Raised(e);
        case Ok(None) =>
          LoopSkip(outs, Need(topk), hits, i);
        case Ok(Some(hit)) =>
          if |hits| + 1 >= topk {
            LoopFull(outs, Need(topk), hits, i, hit);
            return Ok(hits + [hit]);
          }
          LoopKeep(outs, Need(topk), hits, i, hit);
          hits := hits + [hit];
      }
      i := i + 1;
    }
    LoopEnd(outs, Need(topk), hits);
    return Ok(hits);
  }

  /** Every hit comes from a candidate that is not the `-1` sentinel and
      whose id is in the table, carries that candidate's score, passes the
      court and date filters, and carries the content key asked for. */
  lemma SearchHitsAdmitted(ids: seq<int>, metas: seq<Fields>, f: Frame, cands: seq<Candidate>, courts: set<string>,
                           from: Option<Date>, to: Option<Date>, full: bool, summaryLen: int, need: nat, h: Hit)
    requires need >= 1
    requires Scan(Steps(ids, metas, f, cands, courts, from, to, full, summaryLen), need).Ok?
    requires h in Scan(Steps(ids, metas, f, cands, courts, from, to, full, summaryLen), need).value
    ensures Admitted(courts, from, to, h.court, h.date) && Loc(f.rows, h.docId).Some?
    ensures h.contentKey == (if full then "본문" else "본문요약")
    ensures exists i :: 0 <= i < |cands| && cands[i].ridx != -1
                        && PyIndex(ids, cands[i].ridx) == Ok(h.docId) && h.score == cands[i].score
  {
    var outs := Steps(ids, metas, f, cands, courts, from, to, full, summaryLen);
    ScanFrom(outs, need, h);
    var i :| 0 <= i < |outs| && outs[i] == Ok(Some(h));
    assert outs[i] == Step(ids, metas, f, cands[i], courts, from, to, full, summaryLen);
  }

  /** With no exception on the way, `search` returns the first `topk`
      admitted candidates in candidate order (at least one when `topk` is
      below 1 and some candidate is admitted). */
  lemma SearchKeepsOrder(ids: seq<int>, metas: seq<Fields>, f: Frame, cands: seq<Candidate>, courts: set<string>,
                         from: Option<Date>, to: Option<Date>, full: bool, summaryLen: int, topk: int)
    requires NoneRaises(Steps(ids, metas, f, cands, courts, from, to, full, summaryLen))
    ensures Scan(Steps(ids, metas, f, cands, courts, from, to, full, summaryLen), Need(topk))
            == Ok(Take(Kept(Steps(ids, metas, f, cands, courts, from, to, full, summaryLen)), Need(topk)))
  {
    ScanTakesKept(Steps(ids, metas, f, cands, courts, from, to, full, summaryLen), Need(topk));
  }
}

=== FILE: case_text.dfy ===
/**
 * The text utilities of the case search: reading a decision date, cutting a
 * decision into sentences and building the short summary shown with a hit.
 * `precedent/app/case_search_topk.py` and `precedent/src/search_topk.py` carry
 * the same three functions; this module models both.
 */
module CaseText {
  import opened PyStr
  import opened PyJson

  // ===================== dates =====================

  /** A `datetime` at midnight, the only kind `strptime` yields for these formats. */
  datatype Date = Date(year: int, month: int, day: int)

  predicate IsLeap(y: int) {
    y % 4 == 0 && (y % 100 != 0 || y % 400 == 0)
  }

  function DaysIn(y: int, m: int): (n: int)
    requires 1 <= m <= 12
    ensures 28 <= n <= 31
  {
    if m == 2 then (if IsLeap(y) then 29 else 28)
    else if m == 4 || m == 6 || m == 9 || m == 11 then 30
    else 31
  }

  /** A date `datetime` accepts: years 1 to 9999 and a day that exists in the month. */
  predicate ValidDate(d: Date) {
    && 1 <= d.year <= 9999
    && 1 <= d.month <= 12
    && 1 <= d.day <= DaysIn(d.year, d.month)
  }

  /** `a < b` on datetimes: the order of the calendar. */
  predicate Before(a: Date, b: Date) {
    || a.year < b.year
    || (a.year == b.year && a.month < b.month)
    || (a.year == b.year && a.month == b.month && a.day < b.day)
  }

  predicate IsDigit(c: char) {
    '0' <= c <= '9'
  }

  function DigitValue(c: char): (n: int)
    requires IsDigit(c)
    ensures 0 <= n <= 9
  {
    c as int - '0' as int
  }

  /** The directive `%m` at the start of `s`: the alternatives `1[0-2]`,
      `0[1-9]` and `[1-9]`, tried in this order; the value and the length
      matched. The separator that must follow is not a digit, so taking the
      first alternative that matches gives the same overall match as
      backtracking would. */
  function MatchMonth(s: string): (r: Option<(int, nat)>)
    ensures r.Some? ==> 1 <= r.value.0 <= 12 && 1 <= r.value.1 <= 2 && r.value.1 <= |s|
  {
    if |s| >= 2 && s[0] == '1' && '0' <= s[1] <= '2' then Some((10 + DigitValue(s[1]), 2))
    else if |s| >= 2 && s[0] == '0' && '1' <= s[1] <= '9' then Some((DigitValue(s[1]), 2))
    else if |s| >= 1 && '1' <= s[0] <= '9' then Some((DigitValue(s[0]), 1))
    else None
  }

  /** The directive `%d` at the start of `s`: `3[01]`, `[12]\d`, `0[1-9]`,
      `[1-9]` and ` [1-9]`, tried in this order. `%d` ends the format, so the
      first alternative that matches is the match, and whatever follows it is
      "unconverted data". */
  function MatchDay(s: string): (r: Option<(int, nat)>)
    ensures r.Some? ==> 1 <= r.value.0 <= 31 && 1 <= r.value.1 <= 2 && r.value.1 <= |s|
  {
    if |s| >= 2 && s[0] == '3' && '0' <= s[1] <= '1' then Some((30 + DigitValue(s[1]), 2))
    else if |s| >= 2 && '1' <= s[0] <= '2' && IsDigit(s[1]) then Some((10 * DigitValue(s[0]) + DigitValue(s[1]), 2))
    else if |s| >= 2 && s[0] == '0' && '1' <= s[1] <= '9' then Some((DigitValue(s[1]), 2))
    else if |s| >= 1 && '1' <= s[0] <= '9' then Some((DigitValue(s[0]), 1))
    else if |s| >= 2 && s[0] == ' ' && '1' <= s[1] <= '9' then Some((DigitValue(s[1]), 2))
    else None
  }

  /** `datetime.strptime(s, "%Y" + sep + "%m" + sep + "%d")`, with `None` for
      the `ValueError` it raises: four digits of year, the separator, a month,
      the separator and a day that must end the string, forming a real date. */
  function Strptime(s: string, sep: char): (r: Option<Date>)
    ensures r.Some? ==> ValidDate(r.value)
    ensures r.Some? ==> Spells(s, sep, r.value)
  {
    if |s| < 5 || !IsDigit(s[0]) || !IsDigit(s[1]) || !IsDigit(s[2]) || !IsDigit(s[3]) || s[4] != sep then None
    else
      var y := 1000 * DigitValue(s[0]) + 100 * DigitValue(s[1]) + 10 * DigitValue(s[2]) + DigitValue(s[3]);
      match MatchMonth(s[5..])
      case None => None
      case Some(mm) =>
        var rest := s[5 + mm.1..];
        if rest == [] || rest[0] != sep then None
        else
          match MatchDay(rest[1..])
          case None => None
          case Some(dd) =>
            if dd.1 != |rest| - 1 then None
            else if ValidDate(Date(y, mm.0, dd.0)) then
              SpellsOfParts(s, sep, Date(y, mm.0, dd.0), mm.1);
              Some(Date(y, mm.0, dd.0))
            else None
  }

  /** The four digits `%Y` reads for a year. */
  function YearText(y: int): (r: string)
    requires 0 <= y <= 9999
    ensures |r| == 4
  {
    TwoDigits(y / 100) + TwoDigits(y % 100)
  }

  /** The ways `%m` may spell a month: two digits, or one for months below 10. */
  function MonthForms(m: int): set<string>
    requires 1 <= m <= 12
  {
    {TwoDigits(m)} + (if m <= 9 then {[DigitChar(m)]} else {})
  }

  /** The ways `%d` may spell a day: two digits, or for days below 10 one
      digit alone or after a space. */
  function DayForms(d: int): set<string>
    requires 1 <= d <= 31
  {
    {TwoDigits(d)} + (if d <= 9 then {[DigitChar(d)], [' ', DigitChar(d)]} else {})
  }

  /** `s` is the date `d` written as `%Y<sep>%m<sep>%d`. */
  predicate Spells(s: string, sep: char, d: Date) {
    && ValidDate(d)
    && exists mt, dt :: mt in MonthForms(d.month) && dt in DayForms(d.day) &&
         s == YearText(d.year) + [sep] + mt + [sep] + dt
  }

  lemma DigitCharValue(c: char)
    requires IsDigit(c)
    ensures DigitChar(DigitValue(c)) == c
  {
  }

  /** Two digits read as a number are that number's zero-padded form. */
  lemma TwoDigitsOf(a: char, b: char)
    requires IsDigit(a) && IsDigit(b)
    ensures TwoDigits(10 * DigitValue(a) + DigitValue(b)) == [a, b]
  {
    DivMod10(DigitValue(a), DigitValue(b));
    DigitCharValue(a);
    DigitCharValue(b);
  }

  /** Division by 10 undoes `10 * q + r` for a digit `r`. */
  lemma DivMod10(q: int, r: int)
    requires 0 <= r < 10
    ensures (10 * q + r) / 10 == q && (10 * q + r) % 10 == r
  {
  }

  /** Division by 100 undoes `100 * q + r` for `r` below 100. */
  lemma DivMod100(q: int, r: int)
    requires 0 <= r < 100
    ensures (100 * q + r) / 100 == q && (100 * q + r) % 100 == r
  {
  }

  /** Whatever `%m` matches is a spelling of the month it reads. */
  lemma MonthSound(t: string)
    requires MatchMonth(t).Some?
    ensures t[..MatchMonth(t).value.1] in MonthForms(MatchMonth(t).value.0)
  {
    var mm := MatchMonth(t).value;
    if mm.1 == 2 {
      TwoDigitsOf(t[0], t[1]);
      assert t[..2] == [t[0], t[1]];
    } else {
      DigitCharValue(t[0]);
      assert t[..1] == [t[0]];
    }
  }

  /** Whatever `%d` matches is a spelling of the day it reads. */
  lemma DaySound(t: string)
    requires MatchDay(t).Some?
    ensures t[..MatchDay(t).value.1] in DayForms(MatchDay(t).value.0)
  {
    var dd := MatchDay(t).value;
    if dd.1 == 2 && t[0] != ' ' {
      TwoDigitsOf(t[0], t[1]);
      assert t[..2] == [t[0], t[1]];
    } else if dd.1 == 2 {
      DigitCharValue(t[1]);
      assert t[..2] == [' ', t[1]];
    } else {
      DigitCharValue(t[0]);
      assert t[..1] == [t[0]];
    }
  }

  /** The four digits of a year are its `%Y` text. */
  lemma YearTextOf(s: string)
    requires |s| >= 4 && IsDigit(s[0]) && IsDigit(s[1]) && IsDigit(s[2]) && IsDigit(s[3])
    ensures YearText(1000 * DigitValue(s[0]) + 100 * DigitValue(s[1]) + 10 * DigitValue(s[2]) + DigitValue(s[3])) == s[..4]
  {
    var hi := 10 * DigitValue(s[0]) + DigitValue(s[1]);
    var lo := 10 * DigitValue(s[2]) + DigitValue(s[3]);
    var y := 100 * hi + lo;
    assert 1000 * DigitValue(s[0]) + 100 * DigitValue(s[1]) + 10 * DigitValue(s[2]) + DigitValue(s[3]) == y;
    DivMod100(hi, lo);
    TwoDigitsOf(s[0], s[1]);
    TwoDigitsOf(s[2], s[3]);
    assert s[..4] == [s[0], s[1]] + [s[2], s[3]];
  }

  /** The pieces `Strptime` accepted spell the date it returns. */
  lemma SpellsOfParts(s: string, sep: char, d: Date, ml: nat)
    requires ValidDate(d)
    requires |s| >= 5 && IsDigit(s[0]) && IsDigit(s[1]) && IsDigit(s[2]) && IsDigit(s[3]) && s[4] == sep
    requires d.year == 1000 * DigitValue(s[0]) + 100 * DigitValue(s[1]) + 10 * DigitValue(s[2]) + DigitValue(s[3])
    requires MatchMonth(s[5..]) == Some((d.month, ml))
    requires 5 + ml < |s| && s[5 + ml] == sep
    requires MatchDay(s[6 + ml..]) == Some((d.day, |s| - 6 - ml))
    ensures Spells(s, sep, d)
  {
    YearTextOf(s);
    MonthSound(s[5..]);
    DaySound(s[6 + ml..]);
    var mt := s[5..][..ml];
    var dt := s[6 + ml..];
    assert s[6 + ml..][..|s| - 6 - ml] == dt;
    assert s == s[..4] + [sep] + mt + [sep] + dt;
  }

  /** A spelling of a month matches `%m` whole when no digit follows it. */
  lemma MonthComplete(mt: string, m: int, tail: string)
    requires 1 <= m <= 12 && mt in MonthForms(m)
    requires tail != [] && !IsDigit(tail[0])
    ensures MatchMonth(mt + tail) == Some((m, |mt|))
  {
    var t := mt + tail;
    if mt == TwoDigits(m) {
      assert t[0] == mt[0] && t[1] == mt[1];
    } else {
      assert t[0] == DigitChar(m) && t[1] == tail[0];
    }
  }

  /** A spelling of a day matches `%d` whole. */
  lemma DayComplete(dt: string, d: int)
    requires 1 <= d <= 31 && dt in DayForms(d)
    ensures MatchDay(dt) == Some((d, |dt|))
  {
  }

  /** `strptime` reads every spelling of a date back as that date. */
  lemma StrptimeComplete(s: string, sep: char, d: Date)
    requires !IsDigit(sep) && Spells(s, sep, d)
    ensures Strptime(s, sep) == Some(d)
  {
    var mt, dt :| mt in MonthForms(d.month) && dt in DayForms(d.day) &&
      s == YearText(d.year) + [sep] + mt + [sep] + dt;
    SpellingParts(s, sep, d, mt, dt);
    StrptimeOfParts(s, sep, d, |mt|);
  }

  /** The pieces of a spelling, as `strptime` reads them. */
  lemma SpellingParts(s: string, sep: char, d: Date, mt: string, dt: string)
    requires !IsDigit(sep) && ValidDate(d)
    requires mt in MonthForms(d.month) && dt in DayForms(d.day)
    requires s == YearText(d.year) + [sep] + mt + [sep] + dt
    ensures |s| >= 5 && IsDigit(s[0]) && IsDigit(s[1]) && IsDigit(s[2]) && IsDigit(s[3]) && s[4] == sep
    ensures d.year == 1000 * DigitValue(s[0]) + 100 * DigitValue(s[1]) + 10 * DigitValue(s[2]) + DigitValue(s[3])
    ensures MatchMonth(s[5..]) == Some((d.month, |mt|))
    ensures 5 + |mt| < |s| && s[5 + |mt|] == sep
    ensures MatchDay(s[6 + |mt|..]) == Some((d.day, |s| - 6 - |mt|))
  {
    YearDigits(d.year);
    var yt := YearText(d.year);
    assert s[0] == yt[0] && s[1] == yt[1] && s[2] == yt[2] && s[3] == yt[3];
    var tail := [sep] + dt;
    assert s[5..] == mt + tail;
    MonthComplete(mt, d.month, tail);
    assert s[6 + |mt|..] == dt;
    DayComplete(dt, d.day);
  }

  /** `strptime` accepts the pieces it reads as a valid date. */
  lemma StrptimeOfParts(s: string, sep: char, d: Date, ml: nat)
    requires ValidDate(d)
    requires |s| >= 5 && IsDigit(s[0]) && IsDigit(s[1]) && IsDigit(s[2]) && IsDigit(s[3]) && s[4] == sep
    requires d.year == 1000 * DigitValue(s[0]) + 100 * DigitValue(s[1]) + 10 * DigitValue(s[2]) + DigitValue(s[3])
    requires MatchMonth(s[5..]) == Some((d.month, ml))
    requires 5 + ml < |s| && s[5 + ml] == sep
    requires MatchDay(s[6 + ml..]) == Some((d.day, |s| - 6 - ml))
    ensures Strptime(s, sep) == Some(d)
  {
    assert s[5 + ml..][1..] == s[6 + ml..];
  }

  /** `strptime` with a non-digit separator returns a date exactly when the
      text spells it; anything else is a `ValueError`. */
  lemma StrptimeMeaning(s: string, sep: char, d: Date)
    requires !IsDigit(sep)
    ensures Strptime(s, sep) == Some(d) <==> Spells(s, sep, d)
    ensures Strptime(s, sep) == None <==> forall e :: !Spells(s, sep, e)
  {
    if Spells(s, sep, d) {
      StrptimeComplete(s, sep, d);
    }
    forall e | Spells(s, sep, e)
      ensures Strptime(s, sep).Some?
    {
      StrptimeComplete(s, sep, e);
    }
  }

  /** `_parse_date`: a non-string gives `None`; a string is stripped and tried
      as `%Y.%m.%d`, then as `%Y-%m-%d`. */
  function ParseDate(v: Json): (r: Option<Date>)
    ensures !v.JStr? ==> r == None
    ensures r.Some? ==> ValidDate(r.value)
    ensures r.Some? ==> Spells(Strip(v.s), '.', r.value) || Spells(Strip(v.s), '-', r.value)
  {
    if !v.JStr? then None
    else
      var s := Strip(v.s);
      match Strptime(s, '.')
      case Some(d) => Some(d)
      case None => Strptime(s, '-')
  }

  /** Two decimal digits, zero-padded. */
  function TwoDigits(n: int): (r: string)
    requires 0 <= n <= 99
    ensures |r| == 2 && IsDigit(r[0]) && IsDigit(r[1])
    ensures 10 * DigitValue(r[0]) + DigitValue(r[1]) == n
  {
    [DigitChar(n / 10), DigitChar(n % 10)]
  }

  /** The zero-padded form `YYYY<sep>MM<sep>DD` of a date. */
  function FormatDate(d: Date, sep: char): (r: string)
    requires ValidDate(d)
    ensures |r| == 10
  {
    TwoDigits(d.year / 100) + TwoDigits(d.year % 100) + [sep] + TwoDigits(d.month) + [sep] + TwoDigits(d.day)
  }

  /** The four digits of a year read back as the year. */
  lemma YearDigits(y: int)
    requires 1 <= y <= 9999
    ensures var s := TwoDigits(y / 100) + TwoDigits(y % 100);
      && IsDigit(s[0]) && IsDigit(s[1]) && IsDigit(s[2]) && IsDigit(s[3])
      && 1000 * DigitValue(s[0]) + 100 * DigitValue(s[1]) + 10 * DigitValue(s[2]) + DigitValue(s[3]) == y
  {
    var hi, lo := TwoDigits(y / 100), TwoDigits(y % 100);
    var s := hi + lo;
    assert s[0] == hi[0] && s[1] == hi[1] && s[2] == lo[0] && s[3] == lo[1];
    assert 100 * (y / 100) + y % 100 == y;
    calc {
      1000 * DigitValue(s[0]) + 100 * DigitValue(s[1]) + 10 * DigitValue(s[2]) + DigitValue(s[3]);
      100 * (10 * DigitValue(hi[0]) + DigitValue(hi[1])) + (10 * DigitValue(lo[0]) + DigitValue(lo[1]));
      100 * (y / 100) + y % 100;
    }
  }

  /** Reading back the zero-padded form of a valid date gives the date. */
  lemma StrptimeFormat(d: Date, sep: char)
    requires ValidDate(d) && !IsDigit(sep)
    ensures Strptime(FormatDate(d, sep), sep) == Some(d)
  {
    var mt, dt := TwoDigits(d.month), TwoDigits(d.day);
    assert mt in MonthForms(d.month) && dt in DayForms(d.day);
    assert FormatDate(d, sep) == YearText(d.year) + [sep] + mt + [sep] + dt;
    StrptimeComplete(FormatDate(d, sep), sep, d);
  }

  /** `_parse_date` reads the zero-padded form back in either format. */
  lemma ParseDateFormat(d: Date, sep: char)
    requires ValidDate(d) && (sep == '.' || sep == '-')
    ensures ParseDate(JStr(FormatDate(d, sep))) == Some(d)
  {
    var f := FormatDate(d, sep);
    assert IsStripped(f) by { assert IsDigit(f[0]) && IsDigit(f[|f| - 1]); }
    assert Strip(f) == f;
    StrptimeFormat(d, sep);
    if sep == '-' {
      assert f[4] == '-';
      assert Strptime(f, '.') == None;
    }
  }

  /** Spaces around a date in either format do not stop `_parse_date`. */
  lemma ParseDateFormatted(d: Date, pre: string, post: string, sep: char)
    requires ValidDate(d) && (sep == '.' || sep == '-') && AllSpace(pre) && AllSpace(post)
    ensures ParseDate(JStr(pre + FormatDate(d, sep) + post)) == Some(d)
  {
    var f := FormatDate(d, sep);
    StripPadded(pre, f, post);
    ParseDateSameStrip(pre + f + post, f);
    ParseDateFormat(d, sep);
  }

  /** `_parse_date` returns a date exactly when the stripped text spells it
      as `%Y.%m.%d` or as `%Y-%m-%d`, and `None` for anything else. */
  lemma ParseDateMeaning(x: string, d: Date)
    ensures ParseDate(JStr(x)) == Some(d) <==> Spells(Strip(x), '.', d) || Spells(Strip(x), '-', d)
    ensures ParseDate(JStr(x)) == None <==> forall e :: !Spells(Strip(x), '.', e) && !Spells(Strip(x), '-', e)
  {
    var s := Strip(x);
    StrptimeMeaning(s, '.', d);
    StrptimeMeaning(s, '-', d);
    forall e | Spells(s, '-', e)
      ensures Strptime(s, '.') == None
    {
      SpellsSeparator(s, '-', e);
    }
    forall e | Spells(s, '.', e) || Spells(s, '-', e)
      ensures ParseDate(JStr(x)).Some?
    {
      StrptimeMeaning(s, '.', e);
      StrptimeMeaning(s, '-', e);
    }
  }

  /** The fifth character of a spelling is its separator. */
  lemma SpellsSeparator(s: string, sep: char, d: Date)
    requires Spells(s, sep, d)
    ensures |s| > 4 && s[4] == sep
  {
  }

  /** `_parse_date` only looks at the stripped text. */
  lemma ParseDateSameStrip(x: string, y: string)
    requires Strip(x) == Strip(y)
    ensures ParseDate(JStr(x)) == ParseDate(JStr(y))
  {
  }

  /** The short form `YYYY.M.D` of a date whose month and day are below 10. */
  function ShortDate(y: int, m: int, d: int): (r: string)
    requires 1 <= y <= 9999 && 1 <= m <= 9 && 1 <= d <= 9
    ensures |r| == 8
  {
    TwoDigits(y / 100) + TwoDigits(y % 100) + "." + [DigitChar(m)] + "." + [DigitChar(d)]
  }

  lemma StrptimeShort(y: int, m: int, d: int)
    requires 1 <= y <= 9999 && 1 <= m <= 9 && 1 <= d <= 9
    ensures Strptime(ShortDate(y, m, d), '.') == Some(Date(y, m, d))
  {
    var mt, dt := [DigitChar(m)], [DigitChar(d)];
    assert mt in MonthForms(m) && dt in DayForms(d);
    assert ShortDate(y, m, d) == YearText(y) + ['.'] + mt + ['.'] + dt;
    StrptimeComplete(ShortDate(y, m, d), '.', Date(y, m, d));
  }

  /** Month and day may also be written with one digit: "2021.3.7". */
  lemma ParseDateShort(y: int, m: int, d: int)
    requires 1 <= y <= 9999 && 1 <= m <= 9 && 1 <= d <= 9
    ensures ParseDate(JStr(ShortDate(y, m, d))) == Some(Date(y, m, d))
  {
    var s := ShortDate(y, m, d);
    assert IsStripped(s) by {
      assert s[0] == TwoDigits(y / 100)[0] && s[|s| - 1] == DigitChar(d);
    }
    assert Strip(s) == s;
    StrptimeShort(y, m, d);
  }

  // ===================== sentences =====================

  predicate IsTerminal(c: char) {
    c == '.' || c == '!' || c == '?'
  }

  /** The characters the split pattern's look-ahead accepts: a space, a quote
      or a closing bracket. */
  predicate IsOpener(c: char) {
    IsSpace(c) || c == '"' || c == '\'' || c == ')' || c == ']'
  }

  /** The split pattern matches (with zero width) at position `i`: a sentence
      end before it and a space, quote or bracket after it. */
  predicate IsBoundary(t: string, i: int) {
    0 < i < |t| && IsTerminal(t[i - 1]) && IsOpener(t[i])
  }

  predicate EndsTerminal(s: string) {
    s != [] && IsTerminal(s[|s| - 1])
  }

  /** The pieces of `t[start..]` that `re.split` returns, scanning for
      boundaries from `i` on. */
  function SplitFrom(t: string, start: nat, i: nat): (r: seq<string>)
    requires start < i <= |t|
    ensures |r| >= 1
    ensures Concat(r) == t[start..]
    ensures forall k :: 0 <= k < |r| ==> r[k] != []
    ensures forall k :: 0 <= k < |r| - 1 ==> EndsTerminal(r[k])
    ensures SingleSpaced(t) ==> forall k :: 0 <= k < |r| ==> SingleSpaced(r[k])
    decreases |t| - i
  {
    if i == |t| then
      SliceSingleSpaced(t, start, |t|);
      assert t[start..|t|] == t[start..];
      [t[start..]]
    else if IsBoundary(t, i) then
      var rest := SplitFrom(t, i, i + 1);
      SliceSingleSpaced(t, start, i);
      assert t[start..] == t[start..i] + t[i..];
      [t[start..i]] + rest
    else SplitFrom(t, start, i + 1)
  }

  /** A window of `t` has a boundary exactly where `t` has one, apart from its
      two ends. */
  lemma WindowBoundary(t: string, lo: nat, hi: nat, j: int)
    requires lo <= hi <= |t| && 0 < j < hi - lo
    ensures IsBoundary(t[lo..hi], j) == IsBoundary(t, lo + j)
  {
  }

  /** The cuts `SplitFrom` makes are boundaries, and it cuts at every one: each
      piece after the first begins with the opener that follows a sentence end,
      and no piece holds a boundary inside it. */
  lemma {:induction false} SplitFromBoundaries(t: string, start: nat, i: nat)
    requires start < i <= |t|
    requires forall j :: start < j < i ==> !IsBoundary(t, j)
    ensures SplitFrom(t, start, i)[0][0] == t[start]
    ensures forall k :: 0 < k < |SplitFrom(t, start, i)| ==> IsOpener(SplitFrom(t, start, i)[k][0])
    ensures forall k, j :: 0 <= k < |SplitFrom(t, start, i)| && 0 < j < |SplitFrom(t, start, i)[k]| ==>
              !IsBoundary(SplitFrom(t, start, i)[k], j)
    decreases |t| - i
  {
    var r := SplitFrom(t, start, i);
    if i == |t| {
      assert t[start..|t|] == t[start..];
      assert r == [t[start..|t|]];
      forall j | 0 < j < |t| - start
        ensures !IsBoundary(t[start..|t|], j)
      {
        WindowBoundary(t, start, |t|, j);
      }
    } else if IsBoundary(t, i) {
      var rest := SplitFrom(t, i, i + 1);
      SplitFromBoundaries(t, i, i + 1);
      assert r == [t[start..i]] + rest;
      forall j | 0 < j < i - start
        ensures !IsBoundary(t[start..i], j)
      {
        WindowBoundary(t, start, i, j);
      }
      forall k | 0 < k < |r|
        ensures IsOpener(r[k][0])
      {
        assert r[k] == rest[k - 1];
      }
      forall k, j | 0 <= k < |r| && 0 < j < |r[k]|
        ensures !IsBoundary(r[k], j)
      {
        if k > 0 {
          assert r[k] == rest[k - 1];
        }
      }
    } else {
      SplitFromBoundaries(t, start, i + 1);
    }
  }

  /** `SENT_SPLIT.split(t)`: `t` cut at every boundary. */
  function SentSplit(t: string): (r: seq<string>)
    ensures Concat(r) == t
  {
    if t == [] then [[]] else SplitFrom(t, 0, 1)
  }

  /** `SentSplit` cuts `t` at its boundaries and nowhere else: the pieces put
      back together give `t`, every piece but the last ends a sentence, every
      piece but the first starts with the opener after it, and no piece holds
      a boundary. */
  lemma SentSplitMeaning(t: string)
    ensures Concat(SentSplit(t)) == t
    ensures forall k :: 0 <= k < |SentSplit(t)| - 1 ==> EndsTerminal(SentSplit(t)[k])
    ensures forall k :: 0 < k < |SentSplit(t)| ==> SentSplit(t)[k] != [] && IsOpener(SentSplit(t)[k][0])
    ensures forall k, j :: 0 <= k < |SentSplit(t)| && 0 < j < |SentSplit(t)[k]| ==> !IsBoundary(SentSplit(t)[k], j)
  {
    if t != [] {
      SplitFromBoundaries(t, 0, 1);
    }
  }

  /** Each piece stripped, the empty ones dropped. */
  function CleanPieces(parts: seq<string>): (r: seq<string>)
    ensures forall k :: 0 <= k < |r| ==> Clean(r[k])
  {
    if parts == [] then []
    else
      var p := Strip(parts[0]);
      var rest := CleanPieces(parts[1..]);
      if p == [] then rest
      else
        [p] + rest
  }

  /** A piece that survives cleaning: non-empty and stripped. */
  predicate Clean(p: string) {
    p != [] && IsStripped(p)
  }

  /** Cleaning keeps pieces single-spaced. */
  lemma {:induction false} CleanSingleSpaced(parts: seq<string>)
    requires forall k :: 0 <= k < |parts| ==> SingleSpaced(parts[k])
    ensures forall k :: 0 <= k < |CleanPieces(parts)| ==> SingleSpaced(CleanPieces(parts)[k])
  {
    if parts != [] {
      StripSingleSpaced(parts[0]);
      CleanSingleSpaced(parts[1..]);
    }
  }

  /** If every piece but the last ends a sentence, so does every cleaned piece
      but the last. */
  lemma {:induction false} CleanTerminal(parts: seq<string>)
    requires forall k :: 0 <= k < |parts| - 1 ==> EndsTerminal(parts[k])
    ensures forall k :: 0 <= k < |CleanPieces(parts)| - 1 ==> EndsTerminal(CleanPieces(parts)[k])
  {
    if |parts| > 1 {
      StripKeepsLast(parts[0]);
      CleanTerminal(parts[1..]);
    }
  }

  /** Stripping a single-spaced string leaves it single-spaced: the result
      is a window of the input. */
  lemma StripSingleSpaced(s: string)
    requires SingleSpaced(s)
    ensures SingleSpaced(Strip(s))
  {
    var a := SkipSpaces(s, 0);
    SliceSingleSpaced(s, a, TrimEnd(s, a, |s|));
  }

  /** `_sentences`: blank or non-string input gives no sentence; otherwise
      the stripped, space-collapsed text cut after `.`, `!` or `?`. */
  function Sentences(v: Json): (r: seq<string>)
    ensures forall k :: 0 <= k < |r| ==> r[k] != [] && IsStripped(r[k]) && SingleSpaced(r[k])
    ensures forall k :: 0 <= k < |r| - 1 ==> EndsTerminal(r[k])
    ensures v.JStr? ==> RemoveSpace(Concat(r)) == RemoveSpace(v.s)
  {
    if !v.JStr? then []
    else if Strip(v.s) == [] then
      RemoveSpaceStrip(v.s);
      []
    else
      var t := CollapseSpace(Strip(v.s));
      var parts := SentSplit(t);
      CleanSingleSpaced(parts);
      CleanTerminal(parts);
      CleanKeepsText(parts);
      RemoveSpaceStrip(v.s);
      CleanPieces(parts)
  }

  /** Cleaning the pieces removes white space only. */
  lemma {:induction false} CleanKeepsText(parts: seq<string>)
    ensures RemoveSpace(Concat(CleanPieces(parts))) == RemoveSpace(Concat(parts))
  {
    if parts != [] {
      var p := Strip(parts[0]);
      var rest := CleanPieces(parts[1..]);
      CleanKeepsText(parts[1..]);
      RemoveSpaceConcat(parts[0], Concat(parts[1..]));
      RemoveSpaceStrip(parts[0]);
      if p != [] {
        assert ([p] + rest)[1..] == rest;
        RemoveSpaceConcat(p, Concat(rest));
      }
    }
  }

  /** `Sentences` finds nothing exactly when the text is not a string or blank. */
  lemma SentencesEmptyIff(v: Json)
    ensures Sentences(v) == [] <==> !v.JStr? || Strip(v.s) == []
  {
    if v.JStr? && Strip(v.s) != [] {
      var t := CollapseSpace(Strip(v.s));
      assert !IsSpace(t[0]);
      CleanFindsNonBlank(SentSplit(t), 0);
    }
  }

  /** If the pieces contain a non-space character, some piece survives cleaning. */
  lemma {:induction false} CleanFindsNonBlank(parts: seq<string>, j: nat)
    requires j < |Concat(parts)| && !IsSpace(Concat(parts)[j])
    ensures CleanPieces(parts) != []
  {
    assert parts != [];
    if j < |parts[0]| {
      assert Concat(parts)[j] == parts[0][j];
      StripNonBlank(parts[0], j);
    } else {
      assert Concat(parts)[j] == Concat(parts[1..])[j - |parts[0]|];
      CleanFindsNonBlank(parts[1..], j - |parts[0]|);
    }
  }

  // ===================== summary =====================

  const ELLIPSIS: string := "…"

  /** `cand if len(cand) <= limit else cand[:limit] + "…"`. */
  function Truncate(cand: string, limit: int): (r: string)
    ensures |cand| <= limit ==> r == cand
    ensures |cand| > limit ==> r == PyPrefix(cand, limit) + ELLIPSIS
    ensures limit >= 0 ==> |r| <= limit + 1
  {
    if |cand| <= limit then cand else PyPrefix(cand, limit) + ELLIPSIS
  }

  /** A column value the summary can use: a string that is not blank. */
  predicate Usable(v: Json) {
    v.JStr? && Strip(v.s) != []
  }

  /** The summary drawn from one usable column: its first `take` sentences
      joined by spaces, or the stripped text when it has no sentence. */
  function SummaryOf(v: Json, take: nat, limit: int): (r: string)
    requires Usable(v)
    ensures limit >= 0 ==> |r| <= limit + 1
  {
    var sents := Sentences(v);
    var cand := if sents != [] then Join(" ", Take(sents, take)) else Strip(v.s);
    Truncate(cand, limit)
  }

  /** One round of the loop over the summary columns: the summary of column
      `col` when it is usable, the later columns' result otherwise. */
  function FromColumn(row: seq<(string, Json)>, col: string, take: nat, limit: int, later: Option<string>): (r: Option<string>)
    ensures Usable(Get(row, col)) ==> r == Some(SummaryOf(Get(row, col), take, limit))
    ensures !Usable(Get(row, col)) ==> r == later
  {
    var v := Get(row, col);
    if Usable(v) then Some(SummaryOf(v, take, limit)) else later
  }

  /** `_smart_summary(row, limit)`: the columns 판결요지, 판시사항 and 본문 in
      this order, keeping 3, 3 and 2 sentences of the first one that holds a
      non-blank string; `None` when none does. */
  function SmartSummary(row: seq<(string, Json)>, limit: int): (r: Option<string>)
    ensures r.None? <==> !Usable(Get(row, "판결요지")) && !Usable(Get(row, "판시사항")) && !Usable(Get(row, "본문"))
    ensures limit >= 0 && r.Some? ==> |r.value| <= limit + 1
  {
    FromColumn(row, "판결요지", 3, limit,
      FromColumn(row, "판시사항", 3, limit,
        FromColumn(row, "본문", 2, limit, None)))
  }

  /** A usable column always has sentences, so the summary is made of at most
      `take` sentences and is never empty. */
  lemma SummaryOfSentences(v: Json, take: nat, limit: int)
    requires Usable(v)
    ensures Sentences(v) != []
    ensures SummaryOf(v, take, limit) == Truncate(Join(" ", Take(Sentences(v), take)), limit)
  {
    SentencesEmptyIff(v);
  }
}

=== FILE: gpt_normalize.dfy ===
/**
 * The normalisation of a document analysis (`precedent/app/gpt.py`): the
 * model's JSON answer is forced into the shape the API promises, with a
 * document kind from a fixed list, non-empty `law_input` and `case_input`,
 * and a rating made of a one-letter code and one to three reasons.
 *
 * The call to the language model, the download and the PDF text extraction
 * are outside the model: the parsed answer is the input.
 */
module GptNormalize {
  import opened PyStr
  import opened PyJson

  /** The image types sent to the model as a picture. */
  const IMG_MIME: set<string> := {"image/png", "image/jpeg", "image/webp", "image/heic", "image/heif"}

  /** The three rating codes. */
  const CODES: set<string> := {"B", "M", "G"}

  const VALID_KINDS: set<string> := {"contract", "sms", "deposit", "me", "landlord", "other"}

  const LAW_FALLBACK: string := "계약서의 임대인·보증금·등기부 권리관계 관련 문장을 중심으로 검토 요청."
  const CASE_FALLBACK: string := "보증금 미반환·대항력·우선변제권·확정일자 관련 판례 중심 검색."
  const LABEL_FALLBACK: string := "괜찮아요"

  const DEFAULT_REASONS: seq<Json> :=
    [JStr("등기부 권리분석 필요."), JStr("확정일자/전입일 확인 필요."), JStr("선순위 담보권 여부 확인 필요.")]

  const LABEL_TO_CODE: map<string, string> := map["별로예요" := "B", "괜찮아요" := "M", "좋아요" := "G"]

  /** The inverse dict, every item of `LABEL_TO_CODE` swapped. */
  const CODE_TO_LABEL: map<string, string> := map["B" := "별로예요", "M" := "괜찮아요", "G" := "좋아요"]

  /** `CODE_TO_LABEL` is what swapping the items of `LABEL_TO_CODE` gives:
      its keys are exactly the codes, the values of `LABEL_TO_CODE`, and
      going from a label to its code and back, or from a code to its label
      and back, returns where one started. */
  lemma CodeToLabelInverse()
    ensures CODE_TO_LABEL.Keys == LABEL_TO_CODE.Values && CODE_TO_LABEL.Values == LABEL_TO_CODE.Keys
    ensures forall l :: l in LABEL_TO_CODE ==> CODE_TO_LABEL[LABEL_TO_CODE[l]] == l
    ensures forall c :: c in CODE_TO_LABEL ==> LABEL_TO_CODE[CODE_TO_LABEL[c]] == c
  {
    LabelCodesAre();
    forall l | l in LABEL_TO_CODE ensures CODE_TO_LABEL[LABEL_TO_CODE[l]] == l {
      assert l in LABEL_TO_CODE.Keys;
      assert LABEL_TO_CODE.Keys == {"별로예요", "괜찮아요", "좋아요"};
    }
    assert CODE_TO_LABEL["B"] == "별로예요" && CODE_TO_LABEL["M"] == "괜찮아요" && CODE_TO_LABEL["G"] == "좋아요";
    assert CODE_TO_LABEL.Values == LABEL_TO_CODE.Keys;
  }

  /** The codes are exactly the values of `LABEL_TO_CODE`. */
  lemma LabelCodesAre()
    ensures LABEL_TO_CODE.Values == CODES
    ensures LABEL_TO_CODE["별로예요"] == "B" && LABEL_TO_CODE["괜찮아요"] == "M" && LABEL_TO_CODE["좋아요"] == "G"
  {
    assert LABEL_TO_CODE["별로예요"] == "B" && LABEL_TO_CODE["괜찮아요"] == "M" && LABEL_TO_CODE["좋아요"] == "G";
  }

  /** A value whose `.strip()` raises: truthy but not a string. */
  predicate NotText(v: Json) {
    Truthy(v) && !v.JStr?
  }

  /** `_nz`: the stripped text, or the fallback when there is none. */
  function Nz(v: Json, fallback: string): (r: Outcome<string>)
    ensures r.Raised? <==> NotText(v)
    ensures r.Ok? && v.JStr? && Strip(v.s) != [] ==> r.value == Strip(v.s)
    ensures r.Ok? && (!v.JStr? || Strip(v.s) == []) ==> r.value == fallback
    ensures r.Ok? && fallback != [] ==> r.value != []
    ensures r.Ok? && IsStripped(fallback) ==> IsStripped(r.value)
  {
    match StripOrEmpty(v)
    case Raised(e) => Raised(e)
    case Ok(s) => Ok(if s != [] then s else fallback)
  }

  /** A non-empty stripped text passes through `_nz` unchanged. */
  lemma NzKeeps(s: string, fallback: string)
    requires s != [] && IsStripped(s)
    ensures Nz(JStr(s), fallback) == Ok(s)
  {
    StripStripped(s);
  }

  /** `_validate_kind`: the stripped, lower-cased text when it is a known
      kind, `other` otherwise. */
  function ValidateKind(v: Json): (r: Outcome<string>)
    ensures r.Raised? <==> NotText(v)
    ensures r.Ok? ==> r.value in VALID_KINDS
  {
    match StripOrEmpty(v)
    case Raised(e) => Raised(e)
    case Ok(s) => Ok(if Lower(s) in VALID_KINDS then Lower(s) else "other")
  }

  /** A text is accepted as kind `k` exactly when its stripped, lower-cased
      form is `k`; anything else that is text, or nothing, is `other`. */
  lemma ValidateKindMeaning(s: string, k: string)
    requires k in VALID_KINDS && k != "other"
    ensures ValidateKind(JStr(s)) == Ok(k) <==> Lower(Strip(s)) == k
    ensures Lower(Strip(s)) !in VALID_KINDS ==> ValidateKind(JStr(s)) == Ok("other")
  {
    if s == [] {
      assert Lower(Strip(s)) == [];
    }
  }

  /** Lower-casing leaves a text without capital letters unchanged. */
  lemma LowerKeeps(s: string)
    requires forall i :: 0 <= i < |s| ==> !('A' <= s[i] <= 'Z')
    ensures Lower(s) == s
  {
  }

  /** A known kind passes through `_validate_kind` unchanged. */
  lemma ValidateKindKeeps(k: string)
    requires k in VALID_KINDS
    ensures ValidateKind(JStr(k)) == Ok(k)
  {
    assert forall i :: 0 <= i < |k| ==> 'a' <= k[i] <= 'z';
    assert IsStripped(k);
    StripStripped(k);
    LowerKeeps(k);
  }

  /** The rating code of a label: a code is kept, a known Korean label is
      translated, anything else is `M`. */
  function LabelCode(text: string): (r: string)
    ensures r in CODES
    ensures text in CODES ==> r == text
    ensures text !in CODES && text in LABEL_TO_CODE ==> r == LABEL_TO_CODE[text]
    ensures text !in CODES && text !in LABEL_TO_CODE ==> r == "M"
  {
    LabelCodesAre();
    if text in CODES then text
    else if text in LABEL_TO_CODE then LABEL_TO_CODE[text]
    else "M"
  }

  /** The labels the prompt asks for get their codes. */
  lemma LabelCodes()
    ensures LabelCode("별로예요") == "B" && LabelCode("괜찮아요") == "M" && LabelCode("좋아요") == "G"
  {
  }

  /** A string reason stands for the one-element list holding it. */
  function Listed(v: Json): Json {
    if v.JStr? then JArr([v]) else v
  }

  /** The reasons of a rating dict: the first three truthy entries of
      `reasons` (a lone string counting as a list of one), or the three
      default reasons when there is none. `None`, a boolean or a number
      cannot be iterated and raise. */
  function ReasonsOf(rating: Fields): (r: Outcome<seq<Json>>)
    ensures r.Raised? ==> r.error == TypeError
    ensures r.Ok? ==> 1 <= |r.value| <= 3 && forall i :: 0 <= i < |r.value| ==> Truthy(r.value[i])
  {
    match Iterate(Listed(GetOr(rating, "reasons", JArr([]))))
    case Raised(e) => Raised(e)
    case Ok(xs) =>
      var kept := Take(TruthyOnly(xs), 3);
      Ok(if kept == [] then DEFAULT_REASONS else kept)
  }

  /** Only `None`, a boolean or a number in `reasons` raises; otherwise the
      reasons are the defaults when no entry is truthy, and else the first
      truthy entries, all of them or the first three. */
  lemma ReasonsMeaning(rating: Fields)
    ensures var raw := GetOr(rating, "reasons", JArr([]));
      ReasonsOf(rating).Raised? <==> raw.JNull? || raw.JBool? || raw.JNum?
    ensures ReasonsOf(rating).Ok? ==>
      var r := ReasonsOf(rating).value;
      var xs := Iterate(Listed(GetOr(rating, "reasons", JArr([])))).value;
      if TruthyOnly(xs) == [] then r == DEFAULT_REASONS
      else |r| <= |TruthyOnly(xs)| && r == TruthyOnly(xs)[..|r|] && (|r| == 3 || r == TruthyOnly(xs))
  {
  }

  /** One to three truthy reasons are kept as they are. */
  lemma ReasonsKeep(rating: Fields, xs: seq<Json>)
    requires GetOr(rating, "reasons", JArr([])) == JArr(xs)
    requires 1 <= |xs| <= 3 && forall i :: 0 <= i < |xs| ==> Truthy(xs[i])
    ensures ReasonsOf(rating) == Ok(xs)
  {
    TruthyOnlyKeeps(xs);
    assert Take(xs, 3) == xs;
  }

  /** A single non-empty string reason is the only reason. */
  lemma StringReason(rating: Fields, s: string)
    requires GetOr(rating, "reasons", JArr([])) == JStr(s) && s != []
    ensures ReasonsOf(rating) == Ok([JStr(s)])
  {
  }

  datatype Rating = Rating(code: string, reasons: seq<Json>)

  /** The normalised analysis: `kind`, `law_input`, `case_input` and
      `rating`, the keys of the dict `_normalize_rating_and_kind` returns. */
  datatype Normalized = Normalized(kind: string, lawInput: string, caseInput: string, rating: Rating)

  /** A value whose `.get` would raise once `or {}` has replaced a falsy one. */
  predicate NotDict(v: Json) {
    Truthy(v) && !v.JObj?
  }

  /** `parsed.get("rating") or {}`, then its label code and reasons. */
  function RatingOf(v: Json): (r: Outcome<Rating>)
    ensures r.Ok? ==> r.value.code in CODES && 1 <= |r.value.reasons| <= 3
    ensures r.Ok? ==> forall i :: 0 <= i < |r.value.reasons| ==> Truthy(r.value.reasons[i])
  {
    match AsDict(Or(v, JObj([])))
    case Raised(e) => Raised(e)
    case Ok(fs) =>
      match Nz(Get(fs, "label"), LABEL_FALLBACK)
      case Raised(e) => Raised(e)
      case Ok(text) =>
        assert LabelCode(LABEL_FALLBACK) == "M" by { LabelCodes(); }
        match ReasonsOf(fs)
        case Raised(e) => Raised(e)
        case Ok(reasons) => Ok(Rating(LabelCode(text), reasons))
  }

  /** `RatingOf` put together from its parts. */
  lemma RatingParts(v: Json, fs: Fields, text: string, reasons: seq<Json>)
    requires AsDict(Or(v, JObj([]))) == Ok(fs)
    requires Nz(Get(fs, "label"), LABEL_FALLBACK) == Ok(text)
    requires ReasonsOf(fs) == Ok(reasons)
    ensures RatingOf(v) == Ok(Rating(LabelCode(text), reasons))
  {
  }

  /** A rating raises when it is a truthy non-dict, or a dict whose label is
      not text or whose reasons cannot be iterated; a falsy non-dict rating
      gets the code `M` and the default reasons. */
  lemma RatingMeaning(v: Json)
    ensures RatingOf(v).Raised? <==>
      NotDict(v) || (v.JObj? && (NotText(Get(v.fields, "label")) || ReasonsOf(v.fields).Raised?))
    ensures !v.JObj? && !NotDict(v) ==> RatingOf(v) == Ok(Rating("M", DEFAULT_REASONS))
  {
    if !v.JObj? && !NotDict(v) {
      assert Or(v, JObj([])) == JObj([]);
      LabelCodes();
    }
  }

  /** The fallback texts are non-empty and carry no surrounding space. */
  lemma FallbacksStripped()
    ensures LAW_FALLBACK != [] && IsStripped(LAW_FALLBACK)
    ensures CASE_FALLBACK != [] && IsStripped(CASE_FALLBACK)
    ensures LABEL_FALLBACK != [] && IsStripped(LABEL_FALLBACK)
  {
  }

  /** What `_normalize_rating_and_kind` returns for the dict `p`, or the
      exception it raises. */
  function Normalize(p: Fields): (r: Outcome<Normalized>)
    ensures r.Ok? ==>
      && r.value.kind in VALID_KINDS
      && r.value.lawInput != [] && IsStripped(r.value.lawInput)
      && r.value.caseInput != [] && IsStripped(r.value.caseInput)
      && r.value.rating.code in CODES && 1 <= |r.value.rating.reasons| <= 3
    ensures r.Ok? ==> forall i :: 0 <= i < |r.value.rating.reasons| ==> Truthy(r.value.rating.reasons[i])
  {
    FallbacksStripped();
    match Nz(Get(p, "law_input"), LAW_FALLBACK)
    case Raised(e) => Raised(e)
    case Ok(law) =>
      match Nz(Get(p, "case_input"), CASE_FALLBACK)
      case Raised(e) => Raised(e)
      case Ok(cas) =>
        match ValidateKind(Get(p, "kind"))
        case Raised(e) => Raised(e)
        case Ok(kind) =>
          match RatingOf(Get(p, "rating"))
          case Raised(e) => Raised(e)
          case Ok(rating) => Ok(Normalized(kind, law, cas, rating))
  }

  /** The normalisation raises exactly when `law_input`, `case_input` or
      `kind` is truthy but not text, or the rating raises. */
  lemma NormalizeRaises(p: Fields)
    ensures Normalize(p).Raised? <==>
      || NotText(Get(p, "law_input")) || NotText(Get(p, "case_input")) || NotText(Get(p, "kind"))
      || RatingOf(Get(p, "rating")).Raised?
  {
  }

  /** The dict returned, as JSON. */
  function ToJson(n: Normalized): Json {
    JObj([("kind", JStr(n.kind)), ("law_input", JStr(n.lawInput)), ("case_input", JStr(n.caseInput)),
          ("rating", JObj([("label", JStr(n.rating.code)), ("reasons", JArr(n.rating.reasons))]))])
  }

  /** An empty answer gets every default. */
  lemma NormalizeEmpty()
    ensures Normalize([]) == Ok(Normalized("other", LAW_FALLBACK, CASE_FALLBACK, Rating("M", DEFAULT_REASONS)))
  {
    RatingMeaning(JNull);
    assert ValidateKind(JNull) == Ok("other") by {
      assert Lower([]) == [];
    }
    NormalizeParts([], LAW_FALLBACK, CASE_FALLBACK, "other", Rating("M", DEFAULT_REASONS));
  }

  /** `Normalize` put together from its four parts. */
  lemma NormalizeParts(p: Fields, law: string, cas: string, kind: string, rating: Rating)
    requires Nz(Get(p, "law_input"), LAW_FALLBACK) == Ok(law)
    requires Nz(Get(p, "case_input"), CASE_FALLBACK) == Ok(cas)
    requires ValidateKind(Get(p, "kind")) == Ok(kind)
    requires RatingOf(Get(p, "rating")) == Ok(rating)
    ensures Normalize(p) == Ok(Normalized(kind, law, cas, rating))
  {
  }

  /** The rating dict of the JSON form. */
  function RatingFields(rt: Rating): Fields {
    [("label", JStr(rt.code)), ("reasons", JArr(rt.reasons))]
  }

  /** Reading the JSON form back gives the parts it was made of. */
  lemma ToJsonGets(n: Normalized)
    ensures Get(ToJson(n).fields, "law_input") == JStr(n.lawInput)
    ensures Get(ToJson(n).fields, "case_input") == JStr(n.caseInput)
    ensures Get(ToJson(n).fields, "kind") == JStr(n.kind)
    ensures Get(ToJson(n).fields, "rating") == JObj(RatingFields(n.rating))
  {
    var fs := ToJson(n).fields;
    LookupAt(fs, "kind", 0);
    LookupAt(fs, "law_input", 1);
    LookupAt(fs, "case_input", 2);
    LookupAt(fs, "rating", 3);
  }

  /** A normalised rating is read back unchanged. */
  lemma RatingKeeps(rt: Rating)
    requires rt.code in CODES && 1 <= |rt.reasons| <= 3
    requires forall i :: 0 <= i < |rt.reasons| ==> Truthy(rt.reasons[i])
    ensures RatingOf(JObj(RatingFields(rt))) == Ok(rt)
  {
    var rf := RatingFields(rt);
    LookupAt(rf, "label", 0);
    LookupAt(rf, "reasons", 1);
    NzKeeps(rt.code, LABEL_FALLBACK);
    ReasonsKeep(rf, rt.reasons);
    assert AsDict(Or(JObj(rf), JObj([]))) == Ok(rf);
    RatingParts(JObj(rf), rf, rt.code, rt.reasons);
    assert LabelCode(rt.code) == rt.code;
  }

  /** Normalising an already normalised answer gives it back unchanged. */
  lemma NormalizeIdempotent(p: Fields)
    requires Normalize(p).Ok?
    ensures Normalize(ToJson(Normalize(p).value).fields) == Normalize(p)
  {
    var n := Normalize(p).value;
    ToJsonGets(n);
    NzKeeps(n.lawInput, LAW_FALLBACK);
    NzKeeps(n.caseInput, CASE_FALLBACK);
    ValidateKindKeeps(n.kind);
    RatingKeeps(n.rating);
    NormalizeParts(ToJson(n).fields, n.lawInput, n.caseInput, n.kind, n.rating);
  }

  /** The dict after `_normalize_rating_and_kind` has written back the
      normalised `law_input` and then `case_input`; a write is not done when
      its own `_nz` raises, nor anything after it. */
  function Written(p: Fields): (r: Fields)
    ensures forall k :: k != "law_input" && k != "case_input" ==> Lookup(r, k) == Lookup(p, k)
    ensures Nz(Get(p, "law_input"), LAW_FALLBACK).Ok? ==>
      Lookup(r, "law_input") == Some(JStr(Nz(Get(p, "law_input"), LAW_FALLBACK).value))
    ensures Nz(Get(p, "law_input"), LAW_FALLBACK).Ok? && Nz(Get(p, "case_input"), CASE_FALLBACK).Ok? ==>
      Lookup(r, "case_input") == Some(JStr(Nz(Get(p, "case_input"), CASE_FALLBACK).value))
  {
    match Nz(Get(p, "law_input"), LAW_FALLBACK)
    case Raised(_) => p
    case Ok(law) =>
      var p1 := Put(p, "law_input", JStr(law));
      match Nz(Get(p1, "case_input"), CASE_FALLBACK)
      case Raised(_) => p1
      case Ok(cas) => Put(p1, "case_input", JStr(cas))
  }

  /** The parsed answer, a dict the normalisation updates in place. */
  class Parsed {
    var fields: Fields

    constructor (fields: Fields)
      ensures this.fields == fields
    {
      this.fields := fields;
    }

    /** `_normalize_rating_and_kind(parsed)`. */
    method NormalizeRatingAndKind() returns (r: Outcome<Normalized>)
      modifies this
      ensures r == Normalize(old(fields))
      ensures fields == Written(old(fields))
    {
      ghost var p := fields;
      var law := Nz(Get(fields, "law_input"), LAW_FALLBACK);
      if law.Raised? {
        return Raised(law.error);
      }
      fields := Put(fields, "law_input", JStr(law.value));
      GetPut(p, "law_input", JStr(law.value), "case_input");
      var cas := Nz(Get(fields, "case_input"), CASE_FALLBACK);
      if cas.Raised? {
        return Raised(cas.error);
      }
      ghost var p1 := fields;
      fields := Put(fields, "case_input", JStr(cas.value));
      GetPut(p, "law_input", JStr(law.value), "kind");
      GetPut(p1, "case_input", JStr(cas.value), "kind");
      GetPut(p, "law_input", JStr(law.value), "rating");
      GetPut(p1, "case_input", JStr(cas.value), "rating");
      GetPut(p1, "case_input", JStr(cas.value), "law_input");
      var kind := ValidateKind(Get(fields, "kind"));
      if kind.Raised? {
        return Raised(kind.error);
      }
      var rating := RatingOf(Get(fields, "rating"));
      if rating.Raised? {
        return Raised(rating.error);
      }
      var lawInput := Get(fields, "law_input");
      var caseInput := Get(fields, "case_input");
      NormalizeParts(p, law.value, cas.value, kind.value, rating.value);
      return Ok(Normalized(kind.value, lawInput.s, caseInput.s, rating.value));
    }
  }

  /** The `modality` reported for a file. */
  function Modality(mime: string): (r: string)
    ensures r == "image" <==> mime in IMG_MIME
    ensures r == "pdf" <==> mime !in IMG_MIME && Contains(mime, "pdf")
    ensures r == "other" <==> mime !in IMG_MIME && !Contains(mime, "pdf")
  {
    if mime in IMG_MIME then "image" else if Contains(mime, "pdf") then "pdf" else "other"
  }

  /** How `_analyze_bytes` presents a file to the model: it asks about
      `pdf` first, then about the image types. */
  function PromptKind(mime: string): string {
    if Contains(mime, "pdf") then "pdf" else if mime in IMG_MIME then "image" else "other"
  }

  /** A string lacking one of `p`'s characters does not contain `p`. */
  lemma MissingCharNotContained(s: string, p: string, k: nat)
    requires k < |p| && p[k] !in s
    ensures !Contains(s, p)
  {
    if Contains(s, p) {
      var i := ContainsWitness(s, p);
      assert false;
    }
  }

  /** The two orders agree: no image type mentions `pdf`, so a file is shown
      to the model the way its modality is reported. */
  lemma ModalityAgrees(mime: string)
    ensures PromptKind(mime) == Modality(mime)
  {
    if mime in IMG_MIME {
      assert 'd' !in mime;
      MissingCharNotContained(mime, "pdf", 1);
    }
  }
}

=== FILE: gpt_risk.dfy ===
/**
 * The document endpoints of `precedent/app/gpt_risk.py`: the language
 * model's answer is cut out of its Markdown fence and parsed, a file is put
 * in a category by its name, an analysis gets its missing fields filled in,
 * and the risky sentences of every uploaded file are cleaned.
 *
 * The model calls, the PDF text extraction and the uploads are outside the
 * model: what a call answered, or the exception it raised, is an input, and
 * so is `json.loads`.
 */
module GptRisk {
  import opened PyStr
  import opened PyJson
  import opened CaseScan
  import opened GptNormalize

  // ===================== the JSON answer =====================

  /** `re.sub(r"^" + fence + r"\s*", "", s)`: a leading fence and the
      spaces after it are dropped. */
  function DropOpening(s: string, fence: string): (r: string)
    ensures !StartsWith(s, fence) ==> r == s
    ensures StartsWith(s, fence) ==> |r| <= |s| - |fence| && r == s[|s| - |r|..]
    ensures StartsWith(s, fence) ==> forall k :: |fence| <= k < |s| - |r| ==> IsSpace(s[k])
    ensures StartsWith(s, fence) && r != [] ==> !IsSpace(r[0])
  {
    if StartsWith(s, fence) then s[SkipSpaces(s, |fence|)..] else s
  }

  /** `re.sub(r"\s*```$", "", s)`: a closing fence and the spaces before it
      are dropped. */
  function DropClosing(s: string): (r: string)
    ensures !EndsWith(s, "```") ==> r == s
    ensures EndsWith(s, "```") ==> |r| <= |s| - 3 && r == s[..|r|]
    ensures EndsWith(s, "```") ==> forall k :: |r| <= k < |s| - 3 ==> IsSpace(s[k])
    ensures EndsWith(s, "```") && r != [] ==> !IsSpace(r[|r| - 1])
  {
    if EndsWith(s, "```") then s[..TrimEnd(s, 0, |s| - 3)] else s
  }

  /** The text `_json_only` hands to `json.loads`. */
  function Unfence(s: string): string {
    DropClosing(DropOpening(DropOpening(Strip(s), "```json"), "```"))
  }

  /** An answer outside any fence is only stripped. */
  lemma UnfencedIsStripped(s: string)
    requires !StartsWith(Strip(s), "```") && !EndsWith(Strip(s), "```")
    ensures Unfence(s) == Strip(s)
  {
    var t := Strip(s);
    assert StartsWith("```json", "```");
    StartsWithPrefix(t, "```json", "```");
  }

  /** The fenced text strips to the fence and what it holds. */
  lemma StripFenced(pre: string, m: string, tail: string)
    requires AllSpace(pre) && AllSpace(tail) && |m| >= 1 && m[0] == '`' && m[|m| - 1] == '`'
    ensures Strip(pre + m + tail) == m
  {
    StripUnique(pre, m, tail);
  }

  /** The opening `json` fence and the spaces after it go. */
  lemma OpeningDropped(mid: string, rest: string)
    requires AllSpace(mid) && rest != [] && !IsSpace(rest[0])
    ensures DropOpening("```json" + mid + rest, "```json") == rest
  {
    var m := "```json" + mid + rest;
    assert m[..7] == "```json";
    var a := 7 + |mid|;
    assert m[a] == rest[0];
    assert forall k :: 7 <= k < a ==> m[k] == mid[k - 7];
    SkipSpacesAt(m, 7, a);
    assert m[a..] == rest;
  }

  /** The closing fence and the spaces before it go. */
  lemma ClosingDropped(body: string, post: string)
    requires AllSpace(post) && body != [] && !IsSpace(body[|body| - 1])
    ensures DropClosing(body + post + "```") == body
  {
    var t := body + post + "```";
    var e := |body|;
    assert t[|t| - 3..] == "```";
    assert forall k :: e <= k < |t| - 3 ==> t[k] == post[k - e];
    assert t[e - 1] == body[e - 1];
    TrimEndAt(t, 0, |t| - 3, e);
    assert t[..e] == body;
  }

  /** A body wrapped in a `json` fence, with any spaces around, comes out
      as it was, as long as it is stripped and does not itself start with a
      backtick. */
  lemma UnfenceRoundTrip(pre: string, mid: string, body: string, post: string, tail: string)
    requires AllSpace(pre) && AllSpace(mid) && AllSpace(post) && AllSpace(tail)
    requires body != [] && IsStripped(body) && body[0] != '`'
    ensures Unfence(pre + "```json" + mid + body + post + "```" + tail) == body
  {
    var rest := body + post + "```";
    var m := "```json" + mid + rest;
    assert pre + "```json" + mid + body + post + "```" + tail == pre + m + tail;
    StripFenced(pre, m, tail);
    assert rest[0] == body[0];
    OpeningDropped(mid, rest);
    assert !StartsWith(rest, "```") by { assert rest[0] == body[0]; }
    ClosingDropped(body, post);
  }

  /** `_json_only`: the parsed answer, or a `parse_error` record holding the
      unfenced text when `json.loads` fails. `parse` stands for `json.loads`,
      `None` for a failure. */
  function JsonOnly(s: string, parse: string -> Option<Json>): (r: Json)
    ensures parse(Unfence(s)).Some? ==> r == parse(Unfence(s)).value
    ensures parse(Unfence(s)).None? ==> r == ParseError(Unfence(s))
  {
    match parse(Unfence(s))
    case Some(v) => v
    case None => ParseError(Unfence(s))
  }

  /** `{"parse_error": True, "raw": raw}`. */
  function ParseError(raw: string): Json {
    JObj([("parse_error", JBool(true)), ("raw", JStr(raw))])
  }

  // ===================== categories =====================

  /** The category rules, tried in order: a label and its patterns. */
  const CAT_RULES: seq<(string, seq<string>)> := [
    ("계약서", ["계약", "contract", "agreement", "임대차", "전세계약"]),
    ("문자내역", ["문자", "메시지", "sms", "kakao", "카카오", "톡"]),
    ("입금내역", ["입금", "이체", "송금", "거래내역", "영수증", "계좌"])
  ]

  const OTHER_CATEGORY: string := "기타"

  /** `re.search(p, lower)` for some pattern: the patterns hold no special
      characters, so a search is a substring test. */
  predicate AnyIn(pats: seq<string>, lower: string) {
    exists j :: 0 <= j < |pats| && Contains(lower, pats[j])
  }

  /** The label of the first rule with a pattern in `lower`, `기타` when
      there is none. */
  function Category(rules: seq<(string, seq<string>)>, lower: string): string {
    if rules == [] then OTHER_CATEGORY
    else if AnyIn(rules[0].1, lower) then rules[0].0
    else Category(rules[1..], lower)
  }

  /** The labels are distinct and none is `기타`. */
  ghost predicate DistinctLabels(rules: seq<(string, seq<string>)>) {
    && (forall i :: 0 <= i < |rules| ==> rules[i].0 != OTHER_CATEGORY)
    && (forall i, j :: 0 <= i < j < |rules| ==> rules[i].0 != rules[j].0)
  }

  /** With distinct labels, rule `i` decides exactly when one of its
      patterns matches and no pattern of an earlier rule does. */
  lemma {:induction false} CategoryMeaning(rules: seq<(string, seq<string>)>, lower: string, i: nat)
    requires DistinctLabels(rules) && i < |rules|
    ensures Category(rules, lower) == rules[i].0 <==>
      AnyIn(rules[i].1, lower) && forall k :: 0 <= k < i ==> !AnyIn(rules[k].1, lower)
  {
    var tail := rules[1..];
    assert forall k :: 0 <= k < |tail| ==> tail[k] == rules[k + 1];
    if AnyIn(rules[0].1, lower) {
      assert i > 0 ==> rules[0].0 != rules[i].0;
    } else if i == 0 {
      CategoryIsLabel(tail, lower);
    } else {
      assert DistinctLabels(tail);
      CategoryMeaning(tail, lower, i - 1);
      assert tail[i - 1] == rules[i];
    }
  }

  /** With labels other than `기타`, the answer is `기타` exactly when no
      pattern of any rule matches. */
  lemma {:induction false} CategoryOther(rules: seq<(string, seq<string>)>, lower: string)
    requires forall i :: 0 <= i < |rules| ==> rules[i].0 != OTHER_CATEGORY
    ensures Category(rules, lower) == OTHER_CATEGORY <==> forall k :: 0 <= k < |rules| ==> !AnyIn(rules[k].1, lower)
  {
    if rules != [] {
      var tail := rules[1..];
      assert forall k :: 0 <= k < |tail| ==> tail[k] == rules[k + 1];
      CategoryOther(tail, lower);
    }
  }

  /** The category is `기타` or the label of one of the rules. */
  lemma {:induction false} CategoryIsLabel(rules: seq<(string, seq<string>)>, lower: string)
    ensures Category(rules, lower) == OTHER_CATEGORY
         || exists i :: 0 <= i < |rules| && Category(rules, lower) == rules[i].0
  {
    if rules != [] && !AnyIn(rules[0].1, lower) {
      CategoryIsLabel(rules[1..], lower);
      if Category(rules, lower) != OTHER_CATEGORY {
        var i :| 0 <= i < |rules[1..]| && Category(rules, lower) == rules[1..][i].0;
        assert rules[i + 1] == rules[1..][i];
      }
    }
  }

  /** Category of the rules from `i` on, one rule at a time. */
  lemma CategoryFrom(rules: seq<(string, seq<string>)>, lower: string, i: nat)
    requires i < |rules|
    ensures Category(rules[i..], lower) ==
      if AnyIn(rules[i].1, lower) then rules[i].0 else Category(rules[i + 1..], lower)
  {
    assert rules[i..][0] == rules[i];
    assert rules[i..][1..] == rules[i + 1..];
  }

  /** The two nested loops of `_infer_category` over `rules`. */
  method FirstMatch(rules: seq<(string, seq<string>)>, lower: string) returns (category: string)
    ensures category == Category(rules, lower)
  {
    var i := 0;
    assert rules[0..] == rules;
    while i < |rules|
      invariant i <= |rules|
      invariant Category(rules, lower) == Category(rules[i..], lower)
    {
      var pats := rules[i].1;
      var j := 0;
      while j < |pats|
        invariant j <= |pats|
        invariant forall k :: 0 <= k < j ==> !Contains(lower, pats[k])
      {
        if Contains(lower, pats[j]) {
          CategoryFrom(rules, lower, i);
          return rules[i].0;
        }
        j := j + 1;
      }
      CategoryFrom(rules, lower, i);
      i := i + 1;
    }
    assert rules[|rules|..] == [];
    return OTHER_CATEGORY;
  }

  /** `_infer_category`: the category of the lower-cased file name. */
  method InferCategory(filename: string) returns (category: string)
    ensures category == Category(CAT_RULES, Lower(filename))
  {
    category := FirstMatch(CAT_RULES, Lower(filename));
  }

  /** The three labels are distinct and none is `기타`. */
  lemma CatRulesDistinct()
    ensures DistinctLabels(CAT_RULES)
  {
  }

  // ===================== analysis defaults =====================

  /** Which model call produced an analysis: the two differ in their
      defaults only. */
  datatype Source = FromText | FromImage

  const LABEL_DEFAULT: string := "괜찮아요"
  const CASE_DEFAULT: string := "임대차 보증금·확정일자·근저당 관련 판례"

  function LawDefault(src: Source): string {
    if src.FromText? then "문서 기반 법적 핵심 진술 보완 필요" else "이미지 기반 법적 핵심 진술 보완 필요"
  }

  function DefaultReasons(src: Source): seq<Json> {
    [JStr("핵심 근거 보완 필요"), JStr(if src.FromText? then "문서 정보 제한" else "이미지 정보 제한"), JStr("추가 증빙 권장")]
  }

  /** The rebuilt `rating` dict: the label or `괜찮아요`, and the first
      three truthy reasons (`None` counting as none, a string as a list of
      one) or the defaults. A truthy number or boolean cannot be iterated. */
  function FixedRating(rf: Fields, src: Source): (r: Outcome<Json>)
    ensures r.Raised? ==> r.error == TypeError
  {
    match Iterate(Listed(Or(Get(rf, "reasons"), JArr([]))))
    case Raised(e) => Raised(e)
    case Ok(xs) =>
      var kept := Take(TruthyOnly(xs), 3);
      Ok(JObj([("label", Or(Get(rf, "label"), JStr(LABEL_DEFAULT))),
               ("reasons", JArr(if kept == [] then DefaultReasons(src) else kept))]))
  }

  /** The writes after the rating is rebuilt: `rating` set, then
      `law_input` and `case_input` filled in when falsy. */
  function Filled(o: Fields, rating: Json, src: Source): Fields {
    var o1 := Put(o, "rating", rating);
    var o2 := Put(o1, "law_input", Or(Get(o1, "law_input"), JStr(LawDefault(src))));
    Put(o2, "case_input", Or(Get(o2, "case_input"), JStr(CASE_DEFAULT)))
  }

  /** After the writes `rating` holds the rating, `law_input` and
      `case_input` hold their old values when truthy and their defaults
      otherwise, and every other key is as it was. */
  lemma FilledGets(o: Fields, rating: Json, src: Source)
    ensures var r := Filled(o, rating, src);
      && Get(r, "rating") == rating
      && Get(r, "law_input") == Or(Get(o, "law_input"), JStr(LawDefault(src)))
      && Get(r, "case_input") == Or(Get(o, "case_input"), JStr(CASE_DEFAULT))
      && Truthy(Get(r, "law_input")) && Truthy(Get(r, "case_input"))
      && Lookup(r, "rating").Some? && Lookup(r, "law_input").Some? && Lookup(r, "case_input").Some?
      && forall k :: k != "rating" && k != "law_input" && k != "case_input" ==> Lookup(r, k) == Lookup(o, k)
  {
    var o1 := Put(o, "rating", rating);
    var o2 := Put(o1, "law_input", Or(Get(o1, "law_input"), JStr(LawDefault(src))));
    GetPut(o2, "case_input", Or(Get(o2, "case_input"), JStr(CASE_DEFAULT)), "rating");
    GetPut(o1, "law_input", Or(Get(o1, "law_input"), JStr(LawDefault(src))), "rating");
    GetPut(o2, "case_input", Or(Get(o2, "case_input"), JStr(CASE_DEFAULT)), "law_input");
    GetPut(o, "rating", rating, "law_input");
    GetPut(o, "rating", rating, "case_input");
    GetPut(o1, "law_input", Or(Get(o1, "law_input"), JStr(LawDefault(src))), "case_input");
  }

  /** On a dict without the three keys, the writes append them in order. */
  lemma FilledNew(o: Fields, rating: Json, src: Source)
    requires Lookup(o, "rating").None? && Lookup(o, "law_input").None? && Lookup(o, "case_input").None?
    ensures Filled(o, rating, src) == o + [("rating", rating), ("law_input", JStr(LawDefault(src))), ("case_input", JStr(CASE_DEFAULT))]
  {
    PutNew(o, "rating", rating);
    var o1 := o + [("rating", rating)];
    AppendKeepsMissing(o, "law_input", "rating", rating);
    AppendKeepsMissing(o, "case_input", "rating", rating);
    assert Get(o1, "law_input") == JNull;
    PutNew(o1, "law_input", JStr(LawDefault(src)));
    var o2 := o1 + [("law_input", JStr(LawDefault(src)))];
    AppendKeepsMissing(o1, "case_input", "law_input", JStr(LawDefault(src)));
    assert Get(o2, "case_input") == JNull;
    PutNew(o2, "case_input", JStr(CASE_DEFAULT));
    AppendThree(o, ("rating", rating), ("law_input", JStr(LawDefault(src))), ("case_input", JStr(CASE_DEFAULT)));
  }

  /** `_analyze_from_text` and `_analyze_from_image` after the model call:
      the answer gets its rating rebuilt, then `law_input` and `case_input`
      filled in when falsy. The dict is fresh, so its update in place is a
      new value here. */
  function FixAnalysis(obj: Json, src: Source): (r: Outcome<Fields>)
    ensures r.Raised? ==> r.error == AttributeError || r.error == TypeError
    ensures r.Raised? ==> (r.error == TypeError <==> obj.JObj? && Or(Get(obj.fields, "rating"), JObj([])).JObj?)
    ensures r.Ok? ==> obj.JObj? && WellRated(Get(r.value, "rating"))
    ensures r.Ok? ==> Get(r.value, "law_input") == Or(Get(obj.fields, "law_input"), JStr(LawDefault(src)))
    ensures r.Ok? ==> Get(r.value, "case_input") == Or(Get(obj.fields, "case_input"), JStr(CASE_DEFAULT))
  {
    match AsDict(obj)
    case Raised(e) => Raised(e)
    case Ok(o) =>
      match AsDict(Or(Get(o, "rating"), JObj([])))
      case Raised(e) => Raised(e)
      case Ok(rf) =>
        match FixedRating(rf, src)
        case Raised(e) => Raised(e)
        case Ok(rating) =>
          FixedRatingShape(rf, src);
          FilledGets(o, rating, src);
          Ok(Filled(o, rating, src))
  }

  /** A rating in the shape the endpoint promises: a truthy label and one
      to three truthy reasons. */
  predicate WellRated(v: Json) {
    && v.JObj? && Truthy(Get(v.fields, "label"))
    && Get(v.fields, "reasons").JArr?
    && 1 <= |Get(v.fields, "reasons").items| <= 3
    && forall i :: 0 <= i < |Get(v.fields, "reasons").items| ==> Truthy(Get(v.fields, "reasons").items[i])
  }

  /** The rebuilt rating is well rated. Its label is the old one when truthy
      and `괜찮아요` otherwise. Its reasons are the three defaults when no
      entry of the old reasons is truthy, and otherwise the truthy entries in
      their order, all of them or the first three. */
  lemma FixedRatingShape(rf: Fields, src: Source)
    requires FixedRating(rf, src).Ok?
    ensures WellRated(FixedRating(rf, src).value)
    ensures Truthy(Get(rf, "label")) ==> Get(FixedRating(rf, src).value.fields, "label") == Get(rf, "label")
    ensures !Truthy(Get(rf, "label")) ==> Get(FixedRating(rf, src).value.fields, "label") == JStr(LABEL_DEFAULT)
    ensures var rs := Get(FixedRating(rf, src).value.fields, "reasons").items;
      var xs := Iterate(Listed(Or(Get(rf, "reasons"), JArr([])))).value;
      if TruthyOnly(xs) == [] then rs == DefaultReasons(src)
      else |rs| <= |TruthyOnly(xs)| && rs == TruthyOnly(xs)[..|rs|] && (|rs| == 3 || rs == TruthyOnly(xs))
  {
    var xs := Iterate(Listed(Or(Get(rf, "reasons"), JArr([])))).value;
    var kept := Take(TruthyOnly(xs), 3);
    var reasons := if kept == [] then DefaultReasons(src) else kept;
    var text := Or(Get(rf, "label"), JStr(LABEL_DEFAULT));
    FixedRatingParts(rf, src, xs);
    assert forall i :: 0 <= i < |kept| ==> Truthy(kept[i]) by {
      forall i | 0 <= i < |kept| ensures Truthy(kept[i]) {
        assert kept[i] == TruthyOnly(xs)[i];
      }
    }
    DefaultReasonsTruthy(src);
    RatingWellRated(text, reasons);
  }

  /** The default reasons: three non-empty texts. */
  lemma DefaultReasonsTruthy(src: Source)
    ensures |DefaultReasons(src)| == 3 && forall i :: 0 <= i < 3 ==> Truthy(DefaultReasons(src)[i])
  {
  }

  /** A truthy label and one to three truthy reasons make a well-rated
      rating whose label is that label. */
  lemma RatingWellRated(text: Json, reasons: seq<Json>)
    requires Truthy(text) && 1 <= |reasons| <= 3 && forall i :: 0 <= i < |reasons| ==> Truthy(reasons[i])
    ensures WellRated(JObj([("label", text), ("reasons", JArr(reasons))]))
    ensures Get([("label", text), ("reasons", JArr(reasons))], "label") == text
    ensures Get([("label", text), ("reasons", JArr(reasons))], "reasons") == JArr(reasons)
  {
    var fs := [("label", text), ("reasons", JArr(reasons))];
    LookupAt(fs, "label", 0);
    LookupAt(fs, "reasons", 1);
  }

  /** The rebuilt rating, given the reasons' entries. */
  lemma FixedRatingParts(rf: Fields, src: Source, xs: seq<Json>)
    requires Iterate(Listed(Or(Get(rf, "reasons"), JArr([])))) == Ok(xs)
    ensures var kept := Take(TruthyOnly(xs), 3);
      FixedRating(rf, src) == Ok(JObj([("label", Or(Get(rf, "label"), JStr(LABEL_DEFAULT))),
                                       ("reasons", JArr(if kept == [] then DefaultReasons(src) else kept))]))
  {
  }

  /** Rebuilding the rating raises exactly when its reasons are a truthy
      number or boolean. */
  lemma FixedRatingRaises(rf: Fields, src: Source)
    ensures FixedRating(rf, src).Raised? <==>
      var rs := Get(rf, "reasons"); Truthy(rs) && (rs.JNum? || rs.JBool?)
  {
  }

  /** The analysis raises exactly when the answer is not a dict, its rating
      is truthy but not a dict, or its reasons are a truthy number or
      boolean. */
  lemma FixAnalysisRaises(obj: Json, src: Source)
    ensures FixAnalysis(obj, src).Raised? <==>
      || !obj.JObj?
      || NotDict(Get(obj.fields, "rating"))
      || (Get(obj.fields, "rating").JObj? &&
          var rs := Get(Get(obj.fields, "rating").fields, "reasons");
          Truthy(rs) && (rs.JNum? || rs.JBool?))
  {
    if !obj.JObj? {
      assert FixAnalysis(obj, src) == Raised(AttributeError);
    } else {
      var rating := Get(obj.fields, "rating");
      if NotDict(rating) {
        assert AsDict(Or(rating, JObj([]))) == Raised(AttributeError);
        assert FixAnalysis(obj, src) == Raised(AttributeError);
      } else {
        var rf := if rating.JObj? then rating.fields else [];
        assert AsDict(Or(rating, JObj([]))) == Ok(rf);
        FixedRatingRaises(rf, src);
        match FixedRating(rf, src) {
          case Raised(e) =>
            assert FixAnalysis(obj, src) == Raised(e);
          case Ok(v) =>
            assert FixAnalysis(obj, src) == Ok(Filled(obj.fields, v, src));
        }
      }
    }
  }

  /** A fixed analysis has a well-rated `rating`; `law_input` and
      `case_input` are their old values when truthy and their defaults
      otherwise; every other key is as it was. */
  lemma FixAnalysisShape(obj: Json, src: Source)
    requires FixAnalysis(obj, src).Ok?
    ensures var r := FixAnalysis(obj, src).value;
      && WellRated(Get(r, "rating"))
      && Get(r, "law_input") == Or(Get(obj.fields, "law_input"), JStr(LawDefault(src)))
      && Get(r, "case_input") == Or(Get(obj.fields, "case_input"), JStr(CASE_DEFAULT))
      && Truthy(Get(r, "law_input")) && Truthy(Get(r, "case_input"))
      && forall k :: k != "rating" && k != "law_input" && k != "case_input" ==> Lookup(r, k) == Lookup(obj.fields, k)
  {
    var o := obj.fields;
    var rf := AsDict(Or(Get(o, "rating"), JObj([]))).value;
    var rating := FixedRating(rf, src).value;
    FixedRatingShape(rf, src);
    assert FixAnalysis(obj, src) == Ok(Filled(o, rating, src));
    FilledGets(o, rating, src);
  }

  /** A well-rated rating is rebuilt unchanged. */
  lemma FixedRatingKeeps(v: Json, src: Source)
    requires WellRated(v) && |v.fields| == 2 && v.fields[0].0 == "label" && v.fields[1].0 == "reasons"
    ensures FixedRating(v.fields, src) == Ok(v)
  {
    var rf := v.fields;
    LookupAt(rf, "label", 0);
    LookupAt(rf, "reasons", 1);
    var xs := Get(rf, "reasons").items;
    TruthyOnlyKeeps(xs);
    assert Take(xs, 3) == xs;
    var fs := [("label", Get(rf, "label")), ("reasons", JArr(xs))];
    assert fs == rf;
  }

  /** Fixing an analysis twice gives what fixing it once gave. */
  lemma FixAnalysisIdempotent(obj: Json, src: Source)
    requires FixAnalysis(obj, src).Ok?
    ensures FixAnalysis(JObj(FixAnalysis(obj, src).value), src) == FixAnalysis(obj, src)
  {
    var o := obj.fields;
    var rf := AsDict(Or(Get(o, "rating"), JObj([]))).value;
    var rating := FixedRating(rf, src).value;
    var r := Filled(o, rating, src);
    FixAnalysisParts(o, rf, rating, src);
    FixedRatingShape(rf, src);
    FilledGets(o, rating, src);
    assert |rating.fields| == 2 && rating.fields[0].0 == "label" && rating.fields[1].0 == "reasons";
    FixedRatingKeeps(rating, src);
    assert Get(r, "rating") == rating && Truthy(rating);
    FixAnalysisParts(r, rating.fields, rating, src);
    FilledSame(r, rating, src);
  }

  /** The analysis of a dict, given what its rating rebuilds to. */
  lemma FixAnalysisParts(o: Fields, rf: Fields, rating: Json, src: Source)
    requires AsDict(Or(Get(o, "rating"), JObj([]))) == Ok(rf) && FixedRating(rf, src) == Ok(rating)
    ensures FixAnalysis(JObj(o), src) == Ok(Filled(o, rating, src))
  {
  }

  /** The writes change nothing on a dict that already holds the rating and
      truthy texts. */
  lemma FilledSame(r: Fields, rating: Json, src: Source)
    requires Lookup(r, "rating") == Some(rating)
    requires Lookup(r, "law_input").Some? && Truthy(Get(r, "law_input"))
    requires Lookup(r, "case_input").Some? && Truthy(Get(r, "case_input"))
    ensures Filled(r, rating, src) == r
  {
    PutSame(r, "rating", rating);
    PutSame(r, "law_input", Get(r, "law_input"));
    PutSame(r, "case_input", Get(r, "case_input"));
  }

  /** An answer that does not parse still yields a full analysis: the
      `parse_error` record with every default added after it. */
  lemma UnparsedAnswer(raw: string, src: Source)
    ensures FixAnalysis(ParseError(raw), src) == Ok(ParseError(raw).fields + [
      ("rating", JObj([("label", JStr(LABEL_DEFAULT)), ("reasons", JArr(DefaultReasons(src)))])),
      ("law_input", JStr(LawDefault(src))),
      ("case_input", JStr(CASE_DEFAULT))])
  {
    var o := ParseError(raw).fields;
    var rating := JObj([("label", JStr(LABEL_DEFAULT)), ("reasons", JArr(DefaultReasons(src)))]);
    assert FixedRating([], src) == Ok(rating);
    assert Get(o, "rating") == JNull;
    FilledNew(o, rating, src);
  }

  // ===================== risky sentences =====================

  const SENTENCE_DEFAULT: string := "핵심 문장 식별 어려움"
  const REASON_DEFAULT: string := "문맥상 위험 사유 추정"
  const RISK_LABEL_DEFAULT: string := "중간"
  const ERROR_SENTENCE: string := "처리 중 오류 발생"
  const ERROR_LABEL: string := "낮음"

  /** One cleaned risky sentence. */
  datatype Risk = Risk(sentence: string, reason: string, riskLabel: string)

  /** The stripped text of `v` when that is not empty, and `fallback` for
      anything else: a blank text, or a value that is not text. */
  function StrippedOr(v: Json, fallback: string): string {
    if v.JStr? && Strip(v.s) != [] then Strip(v.s) else fallback
  }

  /** A risky-sentence dict cleaned: each field stripped, or its default
      when blank; a truthy field that is not text raises. */
  function CleanRisk(r: Fields): (c: Outcome<Risk>)
    ensures c.Raised? <==> NotText(Get(r, "sentence")) || NotText(Get(r, "reason")) || NotText(Get(r, "risk_label"))
    ensures c.Ok? ==> c.value.sentence != [] && c.value.reason != [] && c.value.riskLabel != []
    ensures c.Ok? ==> IsStripped(c.value.sentence) && IsStripped(c.value.reason) && IsStripped(c.value.riskLabel)
    ensures c.Ok? && !Truthy(Get(r, "risk_label")) ==> c.value.riskLabel == RISK_LABEL_DEFAULT
  {
    assert IsStripped(SENTENCE_DEFAULT) && IsStripped(REASON_DEFAULT) && IsStripped(RISK_LABEL_DEFAULT);
    match Nz(Get(r, "sentence"), SENTENCE_DEFAULT)
    case Raised(e) => Raised(e)
    case Ok(sentence) =>
      match Nz(Get(r, "reason"), REASON_DEFAULT)
      case Raised(e) => Raised(e)
      case Ok(reason) =>
        match Nz(Get(r, "risk_label"), RISK_LABEL_DEFAULT)
        case Raised(e) => Raised(e)
        case Ok(riskLabel) => Ok(Risk(sentence, reason, riskLabel))
  }

  /** A cleaned dict holds each field's stripped text when that is not
      empty, and the field's default otherwise. */
  lemma CleanRiskFields(r: Fields)
    requires CleanRisk(r).Ok?
    ensures CleanRisk(r).value == Risk(StrippedOr(Get(r, "sentence"), SENTENCE_DEFAULT),
                                       StrippedOr(Get(r, "reason"), REASON_DEFAULT),
                                       StrippedOr(Get(r, "risk_label"), RISK_LABEL_DEFAULT))
  {
  }

  /** The entries the loop looks at: `res.get("risky_sentences") or []`, a
      lone dict wrapped in a list, then the first twenty. A string is sliced
      and walked character by character; a truthy number or boolean cannot
      be sliced. */
  function RiskList(res: Json): (r: Outcome<seq<Json>>)
    ensures r.Ok? ==> |r.value| <= 20
    ensures r.Raised? <==> !res.JObj? || (Truthy(Get(res.fields, "risky_sentences")) &&
                                          (Get(res.fields, "risky_sentences").JNum? || Get(res.fields, "risky_sentences").JBool?))
    ensures res.JObj? && Get(res.fields, "risky_sentences").JArr? ==>
      r == Ok(Take(Get(res.fields, "risky_sentences").items, 20))
    ensures res.JObj? && Truthy(Get(res.fields, "risky_sentences")) && Get(res.fields, "risky_sentences").JObj? ==>
      r == Ok([Get(res.fields, "risky_sentences")])
  {
    match AsDict(res)
    case Raised(e) => Raised(e)
    case Ok(o) =>
      var rs := Or(Get(o, "risky_sentences"), JArr([]));
      if rs.JObj? then Ok([rs])
      else if rs.JArr? then Ok(Take(rs.items, 20))
      else if rs.JStr? then Iterate(JStr(Take(rs.s, 20)))
      else Raised(TypeError)
  }

  /** One turn of the loop: a non-dict is skipped, a dict cleaned. */
  function RiskStep(r: Json): Outcome<Option<Risk>> {
    if !r.JObj? then Ok(None)
    else
      match CleanRisk(r.fields)
      case Raised(e) => Raised(e)
      case Ok(c) => Ok(Some(c))
  }

  function RiskSteps(rs: seq<Json>): (r: seq<Outcome<Option<Risk>>>)
    ensures |r| == |rs| && forall i :: 0 <= i < |rs| ==> r[i] == RiskStep(rs[i])
  {
    if rs == [] then [] else [RiskStep(rs[0])] + RiskSteps(rs[1..])
  }

  /** The cleaned list: every dict in order, the loop never stopping early
      (one more than the entries is never reached). */
  function CleanedRisks(res: Json): Outcome<seq<Risk>> {
    match RiskList(res)
    case Raised(e) => Raised(e)
    case Ok(rs) => Scan(RiskSteps(rs), |rs| + 1)
  }

  /** The cleaning loop of `extract_risks` for one answer. */
  method CleanRisks(res: Json) returns (r: Outcome<seq<Risk>>)
    ensures r == CleanedRisks(res)
  {
    var listed := RiskList(res);
    if listed.Raised? {
      return Raised(listed.error);
    }
    var rs := listed.value;
    assert CleanedRisks(res) == Scan(RiskSteps(rs), |rs| + 1);
    ghost var outs := RiskSteps(rs);
    var cleaned: seq<Risk> := [];
    var i := 0;
    LoopStart(outs, |rs| + 1);
    while i < |rs|
      invariant i <= |rs| && |cleaned| <= i
      invariant LoopAt(outs, |rs| + 1, cleaned, i)
    {
      var o := RiskStep(rs[i]);
      assert outs[i] == o;
      match o {
        case Raised(e) =>
          LoopRaise(outs, |rs| + 1, cleaned, i, e);
          return Raised(e);
        case Ok(None) =>
          LoopSkip(outs, |rs| + 1, cleaned, i);
        case Ok(Some(c)) =>
          LoopKeep(outs, |rs| + 1, cleaned, i, c);
          cleaned := cleaned + [c];
      }
      i := i + 1;
    }
    LoopEnd(outs, |rs| + 1, cleaned);
    return Ok(cleaned);
  }

  /** No more values are kept than there are outcomes. */
  lemma {:induction false} KeptLength<I>(outs: seq<Outcome<Option<I>>>)
    ensures |Kept(outs)| <= |outs|
  {
    if outs != [] {
      KeptLength(outs[1..]);
    }
  }

  /** With no field raising, the cleaned list is every dict among the first
      twenty entries, cleaned, in order. */
  lemma RisksInOrder(res: Json)
    requires RiskList(res).Ok? && NoneRaises(RiskSteps(RiskList(res).value))
    ensures CleanedRisks(res) == Ok(Kept(RiskSteps(RiskList(res).value)))
  {
    var rs := RiskList(res).value;
    ScanTakesKept(RiskSteps(rs), |rs| + 1);
    KeptLength(RiskSteps(rs));
  }

  /** Every cleaned entry comes from a dict among the first twenty entries,
      and there are at most twenty of them. */
  lemma RisksFromDicts(res: Json, c: Risk)
    requires CleanedRisks(res).Ok? && c in CleanedRisks(res).value
    ensures exists i :: 0 <= i < |RiskList(res).value| && RiskList(res).value[i].JObj?
                        && CleanRisk(RiskList(res).value[i].fields) == Ok(c)
  {
    var rs := RiskList(res).value;
    ScanFrom(RiskSteps(rs), |rs| + 1, c);
  }

  /** A cleaned list never holds more than twenty entries. */
  lemma {:induction false} RisksAtMostTwenty(res: Json)
    requires CleanedRisks(res).Ok?
    ensures |CleanedRisks(res).value| <= 20
  {
    var rs := RiskList(res).value;
    ScanWithin(RiskSteps(rs), |rs| + 1);
  }

  /** A scan keeps no more values than it has outcomes. */
  lemma {:induction false} ScanWithin<I>(outs: seq<Outcome<Option<I>>>, need: nat)
    requires need >= 1 && Scan(outs, need).Ok?
    ensures |Scan(outs, need).value| <= |outs|
  {
    if outs != [] && outs[0].Ok? {
      if outs[0].value.None? {
        ScanWithin(outs[1..], need);
      } else if need > 1 {
        ScanWithin(outs[1..], need - 1);
      }
    }
  }

  // ===================== the endpoint =====================

  /** One uploaded file: its name, what the risk call answered for it (or
      the exception reading it or calling the model raised), and `str(e)`
      for whatever exception its handling ends in. */
  datatype Upload = Upload(filename: string, answer: Outcome<Json>, errorText: string)

  datatype RiskItem = RiskItem(filename: string, risks: seq<Risk>)

  /** The entry a file gets when its handling raises. */
  function ErrorRisk(errorText: string): Risk {
    Risk(ERROR_SENTENCE, errorText, ERROR_LABEL)
  }

  /** The item of one file. */
  function FileRisks(u: Upload): (item: RiskItem)
    ensures item.filename == u.filename
    ensures u.answer.Raised? ==> item.risks == [ErrorRisk(u.errorText)]
    ensures u.answer.Ok? && CleanedRisks(u.answer.value).Raised? ==> item.risks == [ErrorRisk(u.errorText)]
    ensures u.answer.Ok? && CleanedRisks(u.answer.value).Ok? ==> item.risks == CleanedRisks(u.answer.value).value
  {
    var cleaned := if u.answer.Raised? then Raised(u.answer.error) else CleanedRisks(u.answer.value);
    match cleaned
    case Ok(cs) => RiskItem(u.filename, cs)
    case Raised(_) => RiskItem(u.filename, [ErrorRisk(u.errorText)])
  }

  /** Every entry of an item has a non-empty sentence and label; its reason
      is non-empty too unless it is the one error entry. */
  lemma FileRisksFilled(u: Upload, k: nat)
    requires k < |FileRisks(u).risks|
    ensures FileRisks(u).risks[k].sentence != [] && FileRisks(u).risks[k].riskLabel != []
    ensures FileRisks(u).risks[k].reason != [] || FileRisks(u).risks == [ErrorRisk(u.errorText)]
  {
    var item := FileRisks(u);
    if u.answer.Ok? && CleanedRisks(u.answer.value).Ok? {
      var c := item.risks[k];
      RisksFromDicts(u.answer.value, c);
    }
  }

  /** `extract_risks`: one item per file, in upload order. */
  method ExtractRisks(files: seq<Upload>) returns (items: seq<RiskItem>)
    ensures |items| == |files|
    ensures forall i :: 0 <= i < |files| ==> items[i] == FileRisks(files[i])
  {
    items := [];
    var i := 0;
    while i < |files|
      invariant i <= |files| && |items| == i
      invariant forall k :: 0 <= k < i ==> items[k] == FileRisks(files[k])
    {
      var f := files[i];
      var item: RiskItem;
      if f.answer.Raised? {
        item := RiskItem(f.filename, [ErrorRisk(f.errorText)]);
      } else {
        var cleaned := CleanRisks(f.answer.value);
        if cleaned.Raised? {
          item := RiskItem(f.filename, [ErrorRisk(f.errorText)]);
        } else {
          item := RiskItem(f.filename, cleaned.value);
        }
      }
      items := items + [item];
      i := i + 1;
    }
  }
}

=== FILE: law_search.dfy ===
/**
 * The statute retriever `LawRetriever` of the jeonse-fraud legal assistant:
 * its tokenizer, the alias expansion of query tokens, the four domain signals
 * and the soft boost, the weighted composite score, the top-k selection with
 * its score cutoff, and the display formatting of `pretty`.
 *
 * The TF-IDF cosine similarities and the BM25 scores come from library code;
 * here they are given as two vectors of reals, one entry per corpus row.
 */
module LawSearch {
  import opened PyStr
  import opened PyJson

  // ===================== domain dictionaries =====================

  const RISK_KEYWORDS: seq<string> := [
    "전세","임대차","보증금","계약금","가계약","가계약금","선계약금","청약금",
    "중도금","잔금","분할지급","분납","부분지급","나눠서 지급","분할 송금",
    "선입금","선납","선결제","입금","송금","이체","입금 요청","입금 독촉","급하게 입금","급히 입금",
    "지급유예","지급 연기","대여","변제","반환","반환청구","지급청구",
    "위약금","위약벌","지연손해금","연체","연체료","손해배상","불이행","채무불이행",
    "기망","사기","허위","사취","횡령","배임",
    "전세권","확정일자","확정일자부여","전입","전입신고",
    "근저당","담보","담보권","말소기준","압류","가압류","가처분","경매","배당","낙찰",
    "등기부등본","권리분석","말소","설정","말소기준권리",
    "특약","계약해제","계약해지","중도해지","무효","취소","해제권","동시이행항변",
    "명의신탁","전대","재임대","용도제한","관리비","공과금","원상복구","하자","수리",
    "열쇠인도","입주지연","확약서","계약서원본",
    "피해자","구제","지원","주거안정","보증보험","보증가입","대위변제","HUG","주택도시보증공사"
  ]

  const RISK_PHRASES: seq<string> := [
    "계약금 분할 지급","계약금 분할지급","보증금 분할 지급","보증금 분할지급",
    "선입금 요구","선납 요구","입금 독촉","급하게 입금","급히 입금",
    "가계약금 입금","가계약 먼저","계약서 나중","등기 후 지급",
    "확정일자 없이","전입 지연","근저당 설정 예정","말소기준권리 존재"
  ]

  /** One entry of the alias table: a base word and its alternatives. */
  datatype AliasGroup = AliasGroup(base: string, alts: seq<string>)

  const CONTRACT_MONEY := AliasGroup("계약금", ["가계약금","선계약금","청약금","계약금"])
  const PAYMENT := AliasGroup("입금", ["입금","송금","이체","선입금","선납","선결제"])
  const INSTALMENT := AliasGroup("분할지급", ["분할지급","분납","부분지급","나눠서 지급","분할 송금"])
  const DEPOSIT := AliasGroup("보증금", ["보증금","전세보증금","임대보증금"])
  const FRAUD := AliasGroup("사기", ["사기","기망","사취","허위"])

  const ALIASES: seq<AliasGroup> := [CONTRACT_MONEY, PAYMENT, INSTALMENT, DEPOSIT, FRAUD]

  const TITLE_BOOST_LAWS: seq<string> := [
    "주택임대차보호법",
    "주택임대차보호법 시행령",
    "전세사기피해자 지원 및 주거안정에 관한 특별법",
    "전세사기피해자 지원 및 주거안정에 관한 특별법 시행령",
    "주택도시보증공사법",
    "주택공급에 관한 규정",
    "민법",
    "민사집행법",
    "형법"
  ]

  const DOWNWORDS: set<string> := {
    "위원회","주택임대차위원회","조정위원회","구성","심의","조정서의 작성","벌칙 적용 시 공무원 의제"
  }

  const FOCUS_NEEDLES: set<string> := {
    "계약금","가계약금","분할지급","분납","선입금","선납","보증금","확정일자","근저당","해제","해지","사기","기망"
  }

  /** The dictionaries the scorer consults. */
  datatype Lexicon = Lexicon(keywords: seq<string>, phrases: seq<string>, aliases: seq<AliasGroup>,
                             titleLaws: seq<string>, downwords: set<string>, focus: set<string>)

  /** The dictionaries of the module. */
  const SHIPPED: Lexicon := Lexicon(RISK_KEYWORDS, RISK_PHRASES, ALIASES, TITLE_BOOST_LAWS, DOWNWORDS, FOCUS_NEEDLES)

  /** The weights of the composite score. */
  const W_COSINE: real := 0.48
  const W_BM25: real := 0.27
  const W_KEYWORD: real := 0.12
  const W_PHRASE: real := 0.07
  const W_TITLE: real := 0.03
  const W_SOFT: real := 0.06
  const W_DOWN: real := 0.03

  /** The `1e-9` added to every min-max denominator. */
  const EPS: real := 0.000000001

  // ===================== tokenizer =====================

  /** A character of the class `[가-힣A-Za-z0-9]`. */
  predicate IsTokenChar(c: char) {
    ('가' <= c <= '힣') || ('A' <= c <= 'Z') || ('a' <= c <= 'z') || ('0' <= c <= '9')
  }

  predicate IsToken(t: string) {
    t != [] && forall i :: 0 <= i < |t| ==> IsTokenChar(t[i])
  }

  /** The token characters of `s`, in order. */
  function TokenChars(s: string): string {
    if s == [] then []
    else if IsTokenChar(s[0]) then [s[0]] + TokenChars(s[1..])
    else TokenChars(s[1..])
  }

  /** The run in progress, as a list of at most one token. */
  function Flush(cur: string): seq<string> {
    if cur == [] then [] else [cur]
  }

  /** The maximal runs of token characters in `s`, the first of them continuing
      the run `cur` already read. */
  function Runs(s: string, cur: string): (r: seq<string>)
    requires forall i :: 0 <= i < |cur| ==> IsTokenChar(cur[i])
    ensures forall k :: 0 <= k < |r| ==> IsToken(r[k])
    ensures Concat(r) == cur + TokenChars(s)
    decreases |s|
  {
    if s == [] then
      assert cur + TokenChars(s) == cur;
      Flush(cur)
    else if IsTokenChar(s[0]) then
      var r := Runs(s[1..], cur + [s[0]]);
      RunsExtend(s, cur);
      r
    else
      var rest := Runs(s[1..], []);
      RunsBreak(s, cur, rest);
      Flush(cur) + rest
  }

  /** Reading a token character moves it onto the run in progress. */
  lemma RunsExtend(s: string, cur: string)
    requires s != [] && IsTokenChar(s[0])
    ensures cur + TokenChars(s) == (cur + [s[0]]) + TokenChars(s[1..])
  {
  }

  /** A separator closes the run in progress and starts afresh. */
  lemma RunsBreak(s: string, cur: string, rest: seq<string>)
    requires s != [] && !IsTokenChar(s[0])
    requires forall i :: 0 <= i < |cur| ==> IsTokenChar(cur[i])
    requires forall k :: 0 <= k < |rest| ==> IsToken(rest[k])
    requires Concat(rest) == [] + TokenChars(s[1..])
    ensures forall k :: 0 <= k < |Flush(cur) + rest| ==> IsToken((Flush(cur) + rest)[k])
    ensures Concat(Flush(cur) + rest) == cur + TokenChars(s)
  {
    ConcatAppend(Flush(cur), rest);
    assert [] + TokenChars(s[1..]) == TokenChars(s[1..]);
    if cur != [] {
      assert Concat([cur]) == cur + Concat([]);
    }
  }

  /** `_tokenize`: `re.findall(r"[가-힣A-Za-z0-9]+", s)`. */
  function Tokenize(s: string): (r: seq<string>)
    ensures forall k :: 0 <= k < |r| ==> IsToken(r[k])
    ensures Concat(r) == TokenChars(s)
  {
    var r := Runs(s, []);
    assert [] + TokenChars(s) == TokenChars(s);
    r
  }

  /** A string made only of token characters is one token. */
  lemma {:induction false} RunsWhole(s: string, cur: string)
    requires forall i :: 0 <= i < |cur| ==> IsTokenChar(cur[i])
    requires forall i :: 0 <= i < |s| ==> IsTokenChar(s[i])
    ensures Runs(s, cur) == Flush(cur + s)
    decreases |s|
  {
    if s == [] {
      assert cur + s == cur;
    } else {
      assert (cur + [s[0]]) + s[1..] == cur + s;
      RunsWhole(s[1..], cur + [s[0]]);
    }
  }

  /** A separator character splits the token list in two. */
  lemma {:induction false} RunsSplit(a: string, c: char, b: string, cur: string)
    requires forall i :: 0 <= i < |cur| ==> IsTokenChar(cur[i])
    requires !IsTokenChar(c)
    ensures Runs(a + [c] + b, cur) == Runs(a, cur) + Runs(b, [])
    decreases |a|
  {
    var s := a + [c] + b;
    if a == [] {
      assert s[0] == c && s[1..] == b;
    } else {
      assert s[0] == a[0] && s[1..] == a[1..] + [c] + b;
      if IsTokenChar(a[0]) {
        RunsSplit(a[1..], c, b, cur + [a[0]]);
      } else {
        RunsSplit(a[1..], c, b, []);
      }
    }
  }

  /** `Tokenize` is determined by three laws: no text gives no token, a run of
      token characters is one token, and a separator splits the text. */
  lemma TokenizeLaws(a: string, c: char, b: string)
    ensures Tokenize("") == []
    ensures IsToken(a) ==> Tokenize(a) == [a]
    ensures !IsTokenChar(c) ==> Tokenize(a + [c] + b) == Tokenize(a) + Tokenize(b)
  {
    if IsToken(a) { RunsWhole(a, []); assert [] + a == a; }
    if !IsTokenChar(c) { RunsSplit(a, c, b, []); }
  }

  // ===================== alias expansion =====================

  /** The words of a group: its base and every alternative. */
  function Words(g: AliasGroup): set<string> {
    {g.base} + set a | a in g.alts
  }

  /** `base in tokens or any(a in tokens for a in alts)`. */
  predicate Triggered(g: AliasGroup, ts: set<string>) {
    g.base in ts || exists a :: a in g.alts && a in ts
  }

  lemma TriggeredIff(g: AliasGroup, ts: set<string>)
    ensures Triggered(g, ts) <==> Words(g) * ts != {}
  {
    if Triggered(g, ts) {
      if g.base in ts { assert g.base in Words(g) * ts; }
      else { var a :| a in g.alts && a in ts; assert a in Words(g) * ts; }
    }
  }

  /** The words of every group of `groups` that `ts` triggers. */
  function AliasWords(groups: seq<AliasGroup>, ts: set<string>): set<string>
    decreases |groups|
  {
    if groups == [] then {}
    else
      var last := groups[|groups| - 1];
      AliasWords(groups[..|groups| - 1], ts) + (if Triggered(last, ts) then Words(last) else {})
  }

  function ExpandWith(groups: seq<AliasGroup>, ts: set<string>): set<string> {
    ts + AliasWords(groups, ts)
  }

  /** The token set `_expand_query_tokens` returns. */
  function Expanded(ts: set<string>): set<string> {
    ExpandWith(ALIASES, ts)
  }

  lemma {:induction false} AliasWordsMember(groups: seq<AliasGroup>, ts: set<string>, w: string)
    ensures w in AliasWords(groups, ts) <==>
            exists i :: 0 <= i < |groups| && Triggered(groups[i], ts) && w in Words(groups[i])
    decreases |groups|
  {
    if groups != [] {
      var init := groups[..|groups| - 1];
      AliasWordsMember(init, ts, w);
      assert forall i :: 0 <= i < |init| ==> init[i] == groups[i];
    }
  }

  /** Expansion keeps every input token, adds the whole of every group one of
      whose words is an input token, and adds nothing else. */
  lemma ExpandSpec(groups: seq<AliasGroup>, ts: set<string>)
    ensures ts <= ExpandWith(groups, ts)
    ensures forall i :: 0 <= i < |groups| && Words(groups[i]) * ts != {} ==> Words(groups[i]) <= ExpandWith(groups, ts)
    ensures forall w :: w in ExpandWith(groups, ts) ==>
              w in ts || exists i :: 0 <= i < |groups| && Words(groups[i]) * ts != {} && w in Words(groups[i])
  {
    forall i | 0 <= i < |groups| && Words(groups[i]) * ts != {}
      ensures Words(groups[i]) <= ExpandWith(groups, ts)
    {
      TriggeredIff(groups[i], ts);
      forall w | w in Words(groups[i]) ensures w in AliasWords(groups, ts) {
        AliasWordsMember(groups, ts, w);
      }
    }
    forall w | w in ExpandWith(groups, ts) && w !in ts
      ensures exists i :: 0 <= i < |groups| && Words(groups[i]) * ts != {} && w in Words(groups[i])
    {
      AliasWordsMember(groups, ts, w);
      var i :| 0 <= i < |groups| && Triggered(groups[i], ts) && w in Words(groups[i]);
      TriggeredIff(groups[i], ts);
    }
  }

  predicate PairwiseDisjoint(groups: seq<AliasGroup>) {
    forall i, j :: 0 <= i < j < |groups| ==> Words(groups[i]) !! Words(groups[j])
  }

  /** With pairwise disjoint groups, expanding an expanded set adds nothing. */
  lemma ExpandIdempotent(groups: seq<AliasGroup>, ts: set<string>)
    requires PairwiseDisjoint(groups)
    ensures ExpandWith(groups, ExpandWith(groups, ts)) == ExpandWith(groups, ts)
  {
    var e := ExpandWith(groups, ts);
    forall w | w in AliasWords(groups, e) ensures w in e {
      AliasWordsMember(groups, e, w);
      var i :| 0 <= i < |groups| && Triggered(groups[i], e) && w in Words(groups[i]);
      TriggeredIff(groups[i], e);
      var x :| x in Words(groups[i]) * e;
      if x in ts {
        TriggeredIff(groups[i], ts);
        assert x in Words(groups[i]) * ts;
      } else {
        AliasWordsMember(groups, ts, x);
        var j :| 0 <= j < |groups| && Triggered(groups[j], ts) && x in Words(groups[j]);
        assert x in Words(groups[i]) && x in Words(groups[j]);
        assert i == j;
      }
      AliasWordsMember(groups, ts, w);
    }
  }

  lemma ContractMoneyWords() ensures Words(ALIASES[0]) == ShippedWordSets()[0] {}
  lemma PaymentWords() ensures Words(ALIASES[1]) == ShippedWordSets()[1] {}
  lemma InstalmentWords() ensures Words(ALIASES[2]) == ShippedWordSets()[2] {}
  lemma DepositWords() ensures Words(ALIASES[3]) == ShippedWordSets()[3] {}
  lemma FraudWords() ensures Words(ALIASES[4]) == ShippedWordSets()[4] {}

  /** The word sets of the shipped groups, in table order. */
  function ShippedWordSets(): seq<set<string>> {
    [ {"계약금","가계약금","선계약금","청약금"},
      {"입금","송금","이체","선입금","선납","선결제"},
      {"분할지급","분납","부분지급","나눠서 지급","분할 송금"},
      {"보증금","전세보증금","임대보증금"},
      {"사기","기망","사취","허위"} ]
  }

  lemma ShippedWordSetsDisjoint()
    ensures var ws := ShippedWordSets();
            forall i, j :: 0 <= i < j < 5 ==> ws[i] !! ws[j]
  {
    var ws := ShippedWordSets();
    forall i, j | 0 <= i < j < 5 ensures ws[i] !! ws[j] {
      if i == 0 { FirstWordSetDisjoint(j); }
      else if i == 1 { SecondWordSetDisjoint(j); }
      else if i == 2 { assert ws[2] !! ws[3] && ws[2] !! ws[4]; }
      else { assert ws[3] !! ws[4]; }
    }
  }

  lemma FirstWordSetDisjoint(j: int)
    requires 0 < j < 5
    ensures ShippedWordSets()[0] !! ShippedWordSets()[j]
  {
    var ws := ShippedWordSets();
    if j == 1 { assert ws[0] !! ws[1]; }
    else if j == 2 { assert ws[0] !! ws[2]; }
    else if j == 3 { assert ws[0] !! ws[3]; }
    else { assert ws[0] !! ws[4]; }
  }

  lemma SecondWordSetDisjoint(j: int)
    requires 1 < j < 5
    ensures ShippedWordSets()[1] !! ShippedWordSets()[j]
  {
    var ws := ShippedWordSets();
    if j == 2 { assert ws[1] !! ws[2]; }
    else if j == 3 { assert ws[1] !! ws[3]; }
    else { assert ws[1] !! ws[4]; }
  }

  lemma ShippedWordsAt(i: int)
    requires 0 <= i < 5
    ensures |ALIASES| == 5 && Words(ALIASES[i]) == ShippedWordSets()[i]
  {
    if i == 0 { ContractMoneyWords(); }
    else if i == 1 { PaymentWords(); }
    else if i == 2 { InstalmentWords(); }
    else if i == 3 { DepositWords(); }
    else { FraudWords(); }
  }

  /** The shipped alias groups share no word. */
  lemma AliasesDisjoint()
    ensures PairwiseDisjoint(ALIASES)
  {
    ShippedWordsAt(0);
    forall i, j | 0 <= i < j < |ALIASES| ensures Words(ALIASES[i]) !! Words(ALIASES[j]) {
      ShippedWordsAt(i);
      ShippedWordsAt(j);
      ShippedWordSetsDisjoint();
    }
  }

  lemma ExpandedIdempotent(ts: set<string>)
    ensures Expanded(Expanded(ts)) == Expanded(ts)
  {
    AliasesDisjoint();
    ExpandIdempotent(ALIASES, ts);
  }

  /** `_expand_query_tokens`: starts from the token set and, group by group,
      adds every word of a group that the original tokens trigger. */
  method ExpandQueryTokens(groups: seq<AliasGroup>, tokens: seq<string>) returns (out: set<string>)
    ensures out == ExpandWith(groups, set t | t in tokens)
  {
    var ts := set t | t in tokens;
    out := ts;
    var i := 0;
    while i < |groups|
      invariant 0 <= i <= |groups|
      invariant out == ExpandWith(groups[..i], ts)
    {
      var g := groups[i];
      assert groups[..i + 1][..i] == groups[..i];
      if g.base in ts || exists a :: a in g.alts && a in ts {
        out := out + ({g.base} + set a | a in g.alts);
      }
      i := i + 1;
    }
    assert groups[..i] == groups;
  }

  // ===================== domain signals =====================

  /** The entries of `keys` occurring in `s`. */
  function KeywordsIn(keys: seq<string>, s: string): set<string> {
    set k | k in keys && Contains(s, k)
  }

  lemma {:induction false} SubsetCard<T>(a: set<T>, b: set<T>)
    requires a <= b
    ensures |a| <= |b|
    ensures |a| == |b| ==> a == b
    decreases |b|
  {
    if b != {} {
      var x :| x in b;
      SubsetCard(a - {x}, b - {x});
      assert b == (b - {x}) + {x};
      if x in a {
        assert a == (a - {x}) + {x};
      } else {
        assert a - {x} == a;
      }
    }
  }

  /** The share of `q` found in `t`, capped at 1; 0 when `q` is empty. */
  function Share(q: set<string>, t: set<string>): (r: real)
    ensures 0.0 <= r <= 1.0
    ensures r == 0.0 <==> q * t == {}
    ensures r == 1.0 <==> q != {} && q <= t
    ensures q != {} ==> r * (|q| as real) == |q * t| as real
  {
    if q == {} then 0.0
    else
      SubsetCard(q * t, q);
      var share := (|q * t| as real) / (|q| as real);
      assert share * (|q| as real) == |q * t| as real;
      assert |q * t| < |q| ==> share < 1.0 by {
        if |q * t| < |q| { DivBounds(|q * t| as real, |q| as real); }
      }
      assert q * t == q <==> q <= t;
      if 1.0 <= share then 1.0 else share
  }

  /** `_keyword_bonus`: the share of the query's risk keywords that the text
      also contains; 0 when the query has none. */
  function KeywordBonus(keys: seq<string>, query: string, lawText: string): (r: real)
    ensures 0.0 <= r <= 1.0
    ensures KeywordsIn(keys, query) == {} ==> r == 0.0
    ensures KeywordsIn(keys, query) != {} ==>
      r * (|KeywordsIn(keys, query)| as real) == |KeywordsIn(keys, query) * KeywordsIn(keys, lawText)| as real
  {
    Share(KeywordsIn(keys, query), KeywordsIn(keys, lawText))
  }

  /** The keyword bonus is 0 exactly when query and text share no risk
      keyword, and 1 exactly when the text has every risk keyword of the query. */
  lemma KeywordBonusMeaning(keys: seq<string>, query: string, lawText: string)
    ensures KeywordBonus(keys, query, lawText) == 0.0 <==> KeywordsIn(keys, query) * KeywordsIn(keys, lawText) == {}
    ensures KeywordBonus(keys, query, lawText) == 1.0 <==>
            KeywordsIn(keys, query) != {} && KeywordsIn(keys, query) <= KeywordsIn(keys, lawText)
  {
  }

  /** `ph in text or ph in qtext`. */
  predicate PhraseFound(ph: string, query: string, lawText: string) {
    Contains(lawText, ph) || Contains(query, ph)
  }

  /** The positions of the phrases found in the text or in the query. */
  function FoundPhrases(phrases: seq<string>, query: string, lawText: string): set<nat> {
    set i: nat | i < |phrases| && PhraseFound(phrases[i], query, lawText)
  }

  /** The loop of `_phrase_bonus`: `hits` counts the phrases found in the
      text or in the query, one per entry of the phrase list. */
  function PhraseHits(phrases: seq<string>, query: string, lawText: string): (n: nat)
    ensures n == |FoundPhrases(phrases, query, lawText)|
    ensures n <= |phrases|
    ensures n == 0 <==> forall i :: 0 <= i < |phrases| ==> !Contains(lawText, phrases[i]) && !Contains(query, phrases[i])
    decreases |phrases|
  {
    if phrases == [] then
      assert FoundPhrases(phrases, query, lawText) == {};
      0
    else
      var k := |phrases| - 1;
      var front := phrases[..k];
      var before := PhraseHits(front, query, lawText);
      assert forall i :: 0 <= i < k ==> front[i] == phrases[i];
      var found := FoundPhrases(phrases, query, lawText);
      var earlier := FoundPhrases(front, query, lawText);
      assert k !in earlier;
      assert FoundPhrases(phrases, query, lawText) ==
        earlier + (if PhraseFound(phrases[k], query, lawText) then {k} else {});
      SetBelow(|phrases|, found);
      before + (if PhraseFound(phrases[k], query, lawText) then 1 else 0)
  }

  /** A set of positions below `n` has at most `n` members. */
  lemma {:induction false} SetBelow(n: nat, s: set<nat>)
    requires forall i :: i in s ==> i < n
    ensures |s| <= n
    decreases n
  {
    if n > 0 {
      var t := s - {n - 1};
      SetBelow(n - 1, t);
      assert s <= t + {n - 1};
      SubsetCard(s, t + {n - 1});
    }
  }

  /** `_phrase_bonus`: a third per risk phrase found in the text or in the
      query, at most 1. */
  function PhraseBonus(phrases: seq<string>, query: string, lawText: string): (r: real)
    ensures 0.0 <= r <= 1.0
    ensures |FoundPhrases(phrases, query, lawText)| >= 3 ==> r == 1.0
    ensures |FoundPhrases(phrases, query, lawText)| < 3 ==> r * 3.0 == |FoundPhrases(phrases, query, lawText)| as real
  {
    PhraseShare(PhraseHits(phrases, query, lawText))
  }

  /** `min(1.0, hits / 3.0)`: a third per hit, saturating at three hits. */
  function PhraseShare(hits: nat): (r: real)
    ensures 0.0 <= r <= 1.0
    ensures r == 1.0 <==> hits >= 3
    ensures r == 0.0 <==> hits == 0
    ensures hits < 3 ==> r * 3.0 == hits as real
  {
    if 1.0 <= hits as real / 3.0 then 1.0 else hits as real / 3.0
  }

  /** Some entry of `needles` occurs in `s`. */
  predicate AnyIn(needles: seq<string>, s: string) {
    exists i :: 0 <= i < |needles| && Contains(s, needles[i])
  }

  /** `_title_bonus`: 1 exactly when the law name contains a core statute name. */
  function TitleBonus(laws: seq<string>, lawName: string): (r: real)
    ensures r == 0.0 || r == 1.0
  {
    if exists i :: 0 <= i < |laws| && Contains(lawName, laws[i]) then 1.0 else 0.0
  }

  /** Every name that contains a core statute name gets the title bonus, and
      no other name does. */
  lemma TitleBonusOfCoreName(laws: seq<string>, pre: string, i: nat, post: string, name: string)
    requires i < |laws|
    ensures TitleBonus(laws, pre + laws[i] + post) == 1.0
    ensures TitleBonus(laws, name) == 1.0 <==> AnyIn(laws, name)
  {
    var s := pre + laws[i] + post;
    assert s[|pre|..|pre| + |laws[i]|] == laws[i];
    ContainsAt(s, laws[i], |pre|);
  }

  /** `_down_penalty`: 1 exactly when the text contains a procedural word. */
  function DownPenalty(words: set<string>, lawText: string): (r: real)
    ensures r == 0.0 || r == 1.0
    ensures r == 1.0 <==> exists w :: w in words && Contains(lawText, w)
  {
    if exists w :: w in words && Contains(lawText, w) then 1.0 else 0.0
  }

  /** Every text that mentions a procedural word is penalised, and no other
      text is. */
  lemma DownPenaltyOfProcedure(words: set<string>, pre: string, w: string, post: string, text: string)
    requires w in words
    ensures DownPenalty(words, pre + w + post) == 1.0
    ensures DownPenalty(words, text) == 0.0 <==> forall v :: v in words ==> !Contains(text, v)
  {
    var s := pre + w + post;
    assert s[|pre|..|pre| + |w|] == w;
    ContainsAt(s, w, |pre|);
  }

  /** The per-document soft boost before normalisation: 1 when the text
      contains one of the focus words among the expanded query tokens. */
  function SoftBoost(needles: set<string>, lawText: string): (r: real)
    ensures r == 0.0 || r == 1.0
    ensures r == 1.0 <==> exists w :: w in needles && Contains(lawText, w)
  {
    if needles != {} && exists w :: w in needles && Contains(lawText, w) then 1.0 else 0.0
  }

  // ===================== normalisation and composite =====================

  function MinOf(v: seq<real>): (m: real)
    requires |v| > 0
    ensures forall i :: 0 <= i < |v| ==> m <= v[i]
  {
    if |v| == 1 then v[0]
    else
      var rest := MinOf(v[1..]);
      assert forall i :: 1 <= i < |v| ==> v[i] == v[1..][i - 1];
      if v[0] <= rest then v[0] else rest
  }

  function MaxOf(v: seq<real>): (m: real)
    requires |v| > 0
    ensures forall i :: 0 <= i < |v| ==> v[i] <= m
  {
    if |v| == 1 then v[0]
    else
      var rest := MaxOf(v[1..]);
      assert forall i :: 1 <= i < |v| ==> v[i] == v[1..][i - 1];
      if v[0] >= rest then v[0] else rest
  }

  lemma DivBounds(x: real, d: real)
    requires 0.0 <= x < d
    ensures 0.0 <= x / d < 1.0
  {
    assert (x / d) * d == x;
  }

  lemma DivMono(x: real, y: real, d: real)
    requires x <= y && 0.0 < d
    ensures x / d <= y / d
  {
    assert (x / d) * d == x && (y / d) * d == y;
  }

  /** `(v - v.min()) / (v.max() - v.min() + 1e-9)`: every entry lands in [0, 1). */
  function MinMaxNormalize(v: seq<real>): (r: seq<real>)
    requires |v| > 0
    ensures |r| == |v|
    ensures forall i {:trigger r[i]} :: 0 <= i < |v| ==> 0.0 <= r[i] < 1.0
  {
    ShiftedBounds(v, MinOf(v), MaxOf(v) - MinOf(v) + EPS);
    Shifted(v, MinOf(v), MaxOf(v) - MinOf(v) + EPS)
  }

  lemma ShiftedBounds(v: seq<real>, lo: real, d: real)
    requires d > 0.0 && forall i :: 0 <= i < |v| ==> lo <= v[i] < lo + d
    ensures forall i :: 0 <= i < |v| ==> 0.0 <= Shifted(v, lo, d)[i] < 1.0
  {
    forall i | 0 <= i < |v| ensures 0.0 <= Shifted(v, lo, d)[i] < 1.0 { DivBounds(v[i] - lo, d); }
  }

  /** `(v - lo) / d`, entry by entry. */
  function Shifted(v: seq<real>, lo: real, d: real): (r: seq<real>)
    requires d > 0.0
    ensures |r| == |v| && forall i {:trigger r[i]} :: 0 <= i < |v| ==> r[i] == (v[i] - lo) / d
  {
    if v == [] then []
    else
      var rest := Shifted(v[1..], lo, d);
      assert forall i :: 1 <= i < |v| ==> v[i] == v[1..][i - 1];
      [(v[0] - lo) / d] + rest
  }


  /** The second normalisation pass of the soft boost and the down penalty:
      applied only when some entry is positive. */
  function NormalizeIfPositive(v: seq<real>): (r: seq<real>)
    requires |v| > 0
    ensures |r| == |v|
    ensures (forall i :: 0 <= i < |v| ==> 0.0 <= v[i] <= 1.0) ==> forall i :: 0 <= i < |r| ==> 0.0 <= r[i] <= 1.0
  {
    if MaxOf(v) > 0.0 then MinMaxNormalize(v) else v
  }

  /** Min-max normalisation keeps the order of the entries. */
  lemma MinMaxKeepsOrder(v: seq<real>, i: nat, j: nat)
    requires i < |v| && j < |v| && v[i] <= v[j]
    ensures MinMaxNormalize(v)[i] <= MinMaxNormalize(v)[j]
  {
    var lo := MinOf(v);
    var d := MaxOf(v) - lo + EPS;
    var r := MinMaxNormalize(v);
    assert r[i] == (v[i] - lo) / d && r[j] == (v[j] - lo) / d;
    DivMono(v[i] - lo, v[j] - lo, d);
  }

  /** The smallest entry of a min-max normalised vector becomes 0. */
  lemma MinMaxMinIsZero(v: seq<real>, i: nat)
    requires i < |v| && v[i] == MinOf(v)
    ensures MinMaxNormalize(v)[i] == 0.0
  {
    var lo, hi := MinOf(v), MaxOf(v);
    MinMaxIsShifted(v, lo, hi);
    ShiftedZero(v, lo, hi - lo + EPS, i);
  }

  lemma MinMaxIsShifted(v: seq<real>, lo: real, hi: real)
    requires |v| > 0 && lo == MinOf(v) && hi == MaxOf(v)
    ensures hi - lo + EPS > 0.0 && MinMaxNormalize(v) == Shifted(v, lo, hi - lo + EPS)
  {
  }

  lemma ShiftedZero(v: seq<real>, lo: real, d: real, i: nat)
    requires d > 0.0 && i < |v| && v[i] == lo
    ensures Shifted(v, lo, d)[i] == 0.0
  {
  }

  /** The conditional second pass keeps the order of the entries too. */
  lemma NormalizeKeepsOrder(v: seq<real>, i: nat, j: nat)
    requires i < |v| && j < |v| && v[i] <= v[j]
    ensures NormalizeIfPositive(v)[i] <= NormalizeIfPositive(v)[j]
  {
    if MaxOf(v) > 0.0 {
      MinMaxKeepsOrder(v, i, j);
    }
  }

  /** A vector whose entries all equal `c` has `c` as minimum and maximum. */
  lemma {:induction false} ConstantExtremes(v: seq<real>, c: real)
    requires |v| > 0 && forall i :: 0 <= i < |v| ==> v[i] == c
    ensures MinOf(v) == c && MaxOf(v) == c
  {
    if |v| > 1 {
      assert forall i :: 0 <= i < |v[1..]| ==> v[1..][i] == v[i + 1];
      ConstantExtremes(v[1..], c);
    }
  }

  /** When every document carries the signal, min equals max and the
      normalised signal is 0 everywhere. */
  lemma AllOnesNormalizeToZero(v: seq<real>)
    requires |v| > 0 && forall i :: 0 <= i < |v| ==> v[i] == 1.0
    ensures forall i :: 0 <= i < |v| ==> NormalizeIfPositive(v)[i] == 0.0
  {
    ConstantExtremes(v, 1.0);
    forall i | 0 <= i < |v| ensures NormalizeIfPositive(v)[i] == 0.0 {
      MinMaxMinIsZero(v, i);
    }
  }

  function Clip01(x: real): (r: real)
    ensures 0.0 <= r <= 1.0
    ensures 0.0 <= x <= 1.0 ==> r == x
  {
    if x < 0.0 then 0.0 else if x > 1.0 then 1.0 else x
  }

  /** The weighted sum of the seven signals, clipped to [0, 1] and scaled to 100. */
  function Composite(c: real, b: real, k: real, p: real, t: real, s: real, d: real): (r: real)
    ensures 0.0 <= r <= 100.0
  {
    Clip01(W_COSINE * c + W_BM25 * b + W_KEYWORD * k + W_PHRASE * p + W_TITLE * t + W_SOFT * s - W_DOWN * d) * 100.0
  }

  /** More of any positive signal, or less penalty, never lowers the score. */
  lemma CompositeMonotone(c: real, b: real, k: real, p: real, t: real, s: real, d: real,
                          c': real, b': real, k': real, p': real, t': real, s': real, d': real)
    requires c <= c' && b <= b' && k <= k' && p <= p' && t <= t' && s <= s' && d' <= d
    ensures Composite(c, b, k, p, t, s, d) <= Composite(c', b', k', p', t', s', d')
  {
  }

  /** A document that matches on every positive signal scores the full 100,
      penalty or not, and one with no signal at all scores 0. */
  lemma CompositeExtremes(d: real)
    requires 0.0 <= d <= 1.0
    ensures Composite(1.0, 1.0, 1.0, 1.0, 1.0, 1.0, d) == 100.0
    ensures Composite(0.0, 0.0, 0.0, 0.0, 0.0, 0.0, d) == 0.0
  {
  }

  // ===================== corpus rows and scored hits =====================

  /** A normalised corpus row: `{"idx", "law_name", "article_no", "text"}`. */
  datatype CorpusRow = CorpusRow(idx: nat, lawName: string, articleNo: string, text: string)

  /** One entry of `search`'s result: `(i, final, cos, bm25, kw, phr, ttl, soft, down)`. */
  datatype Scored = Scored(idx: nat, final: real, cosine: real, bm25: real, keyword: real,
                           phrase: real, title: real, soft: real, down: real)

  /** The focus words among the expanded query tokens. */
  function Needles(lex: Lexicon, query: string): set<string> {
    ExpandWith(lex.aliases, set t | t in Tokenize(query)) * lex.focus
  }

  function KeywordVector(lex: Lexicon, query: string, rows: seq<CorpusRow>): (v: seq<real>)
    ensures |v| == |rows|
    ensures forall i {:trigger v[i]} :: 0 <= i < |v| ==> v[i] == KeywordBonus(lex.keywords, query, rows[i].text)
  {
    seq(|rows|, i requires 0 <= i < |rows| => KeywordBonus(lex.keywords, query, rows[i].text))
  }

  function PhraseVector(lex: Lexicon, query: string, rows: seq<CorpusRow>): (v: seq<real>)
    ensures |v| == |rows|
    ensures forall i {:trigger v[i]} :: 0 <= i < |v| ==> v[i] == PhraseBonus(lex.phrases, query, rows[i].text)
  {
    seq(|rows|, i requires 0 <= i < |rows| => PhraseBonus(lex.phrases, query, rows[i].text))
  }

  function TitleVector(lex: Lexicon, rows: seq<CorpusRow>): (v: seq<real>)
    ensures |v| == |rows|
    ensures forall i {:trigger v[i]} :: 0 <= i < |v| ==> v[i] == TitleBonus(lex.titleLaws, rows[i].lawName)
  {
    seq(|rows|, i requires 0 <= i < |rows| => TitleBonus(lex.titleLaws, rows[i].lawName))
  }

  function SoftVector(needles: set<string>, rows: seq<CorpusRow>): (v: seq<real>)
    ensures |v| == |rows|
    ensures forall i {:trigger v[i]} :: 0 <= i < |v| ==> v[i] == SoftBoost(needles, rows[i].text)
  {
    seq(|rows|, i requires 0 <= i < |rows| => SoftBoost(needles, rows[i].text))
  }

  function DownVector(lex: Lexicon, rows: seq<CorpusRow>): (v: seq<real>)
    ensures |v| == |rows|
    ensures forall i {:trigger v[i]} :: 0 <= i < |v| ==> v[i] == DownPenalty(lex.downwords, rows[i].text)
  {
    seq(|rows|, i requires 0 <= i < |rows| => DownPenalty(lex.downwords, rows[i].text))
  }

  /** The tuple of every document, from the seven signal vectors. */
  function Combine(cos: seq<real>, bm: seq<real>, kw: seq<real>, phr: seq<real>,
                   ttl: seq<real>, soft: seq<real>, down: seq<real>): (r: seq<Scored>)
    requires |bm| == |cos| && |kw| == |cos| && |phr| == |cos| && |ttl| == |cos| && |soft| == |cos| && |down| == |cos|
    ensures |r| == |cos|
    ensures forall i {:trigger r[i]} :: 0 <= i < |r| ==>
      r[i] == Scored(i, Composite(cos[i], bm[i], kw[i], phr[i], ttl[i], soft[i], down[i]),
                     cos[i], bm[i], kw[i], phr[i], ttl[i], soft[i], down[i])
  {
    seq(|cos|, i requires 0 <= i < |cos| =>
      Scored(i, Composite(cos[i], bm[i], kw[i], phr[i], ttl[i], soft[i], down[i]),
             cos[i], bm[i], kw[i], phr[i], ttl[i], soft[i], down[i]))
  }

  /** The scored tuple of every document for one query: the specification of
      the signal loop and the weighted sum in `search`. */
  function ScoreAll(lex: Lexicon, query: string, rows: seq<CorpusRow>, sims: seq<real>, bmScores: seq<real>): (r: seq<Scored>)
    requires |rows| > 0 && |sims| == |rows| && |bmScores| == |rows|
    ensures |r| == |rows|
  {
    Combine(MinMaxNormalize(sims), MinMaxNormalize(bmScores),
            KeywordVector(lex, query, rows), PhraseVector(lex, query, rows), TitleVector(lex, rows),
            NormalizeIfPositive(SoftVector(Needles(lex, query), rows)),
            NormalizeIfPositive(DownVector(lex, rows)))
  }

  predicate InRanges(h: Scored) {
    && 0.0 <= h.final <= 100.0
    && 0.0 <= h.cosine <= 1.0 && 0.0 <= h.bm25 <= 1.0
    && 0.0 <= h.keyword <= 1.0 && 0.0 <= h.phrase <= 1.0
    && (h.title == 0.0 || h.title == 1.0)
    && 0.0 <= h.soft <= 1.0 && 0.0 <= h.down <= 1.0
  }

  /** Document `i` is tuple `i`, every signal lies in [0, 1] and every score
      in [0, 100]. */
  lemma ScoreAllRanges(lex: Lexicon, query: string, rows: seq<CorpusRow>, sims: seq<real>, bmScores: seq<real>)
    requires |rows| > 0 && |sims| == |rows| && |bmScores| == |rows|
    ensures forall i :: 0 <= i < |rows| ==> ScoreAll(lex, query, rows, sims, bmScores)[i].idx == i
    ensures forall i :: 0 <= i < |rows| ==> InRanges(ScoreAll(lex, query, rows, sims, bmScores)[i])
  {
    var soft := SoftVector(Needles(lex, query), rows);
    var down := DownVector(lex, rows);
    assert forall i :: 0 <= i < |rows| ==> 0.0 <= soft[i] <= 1.0;
    assert forall i :: 0 <= i < |rows| ==> 0.0 <= down[i] <= 1.0;
  }

  function Finals(hs: seq<Scored>): (f: seq<real>)
    ensures |f| == |hs| && forall i :: 0 <= i < |hs| ==> f[i] == hs[i].final
  {
    seq(|hs|, i requires 0 <= i < |hs| => hs[i].final)
  }

  // ===================== top-k selection and cutoff =====================

  /** `idx` lists `n` distinct documents in non-increasing score order, and no
      document left out scores above any document listed. The order among equal
      scores is left open, as `argpartition` and `argsort` do not fix it. */
  predicate IsTopSelection(final: seq<real>, n: nat, idx: seq<nat>) {
    |idx| == n && PartialTop(final, idx)
  }

  /** `idx` lists distinct indices, best first, none beaten by an index left out. */
  predicate PartialTop(final: seq<real>, idx: seq<nat>) {
    && (forall a :: 0 <= a < |idx| ==> idx[a] < |final|)
    && (forall a, b :: 0 <= a < b < |idx| ==> idx[a] != idx[b])
    && (forall a, b :: 0 <= a < b < |idx| ==> final[idx[a]] >= final[idx[b]])
    && (forall j :: 0 <= j < |final| && j !in idx ==> forall a :: 0 <= a < |idx| ==> final[j] <= final[idx[a]])
  }

  /** Appending the best index left keeps a partial selection. */
  lemma PartialTopStep(final: seq<real>, idx: seq<nat>, best: nat)
    requires PartialTop(final, idx) && best < |final| && best !in idx
    requires forall j :: 0 <= j < |final| && j !in idx ==> final[j] <= final[best]
    ensures PartialTop(final, idx + [best])
  {
    var next := idx + [best];
    assert forall a :: 0 <= a < |idx| ==> next[a] == idx[a];
    forall a, b | 0 <= a < b < |next| ensures next[a] != next[b] && final[next[a]] >= final[next[b]] {
      if b == |idx| {
        assert idx[a] in idx;
      }
    }
    forall j | 0 <= j < |final| && j !in next ensures forall a :: 0 <= a < |next| ==> final[j] <= final[next[a]] {
      assert j !in idx;
    }
  }

  /** The indices below `m`. */
  function Below(m: nat): (r: set<nat>)
    ensures |r| == m
    ensures forall j: nat :: j in r <==> j < m
  {
    if m == 0 then {}
    else
      var r := Below(m - 1);
      assert m - 1 !in r;
      r + {m - 1}
  }

  /** The distinct entries of `xs`. */
  function Elems(xs: seq<nat>): (r: set<nat>)
    ensures |r| <= |xs|
    ensures forall x :: x in r <==> x in xs
  {
    if xs == [] then {}
    else
      var rest := Elems(xs[1..]);
      assert forall x :: x in xs <==> x == xs[0] || x in xs[1..];
      if xs[0] in rest then rest else rest + {xs[0]}
  }

  /** Fewer than `m` indices leave some index below `m` free. */
  lemma Pigeonhole(taken: seq<nat>, m: nat) returns (j: nat)
    requires |taken| < m
    ensures j < m && j !in taken
  {
    var range := Below(m);
    var used := Elems(taken);
    if range <= used {
      SubsetCard(range, used);
    }
    var w :| w in range && w !in used;
    j := w;
  }

  /** The best-scoring document not yet taken. */
  method FindBest(final: seq<real>, taken: seq<nat>) returns (best: nat)
    requires |taken| < |final|
    ensures best < |final| && best !in taken
    ensures forall j :: 0 <= j < |final| && j !in taken ==> final[j] <= final[best]
  {
    ghost var free := Pigeonhole(taken, |final|);
    var found := -1;
    var i := 0;
    while i < |final|
      invariant 0 <= i <= |final|
      invariant found == -1 ==> forall j :: 0 <= j < i ==> j in taken
      invariant found != -1 ==> 0 <= found < i && found !in taken
      invariant found != -1 ==> forall j :: 0 <= j < i && j !in taken ==> final[j] <= final[found]
    {
      if i !in taken && (found == -1 || final[i] > final[found]) {
        found := i;
      }
      i := i + 1;
    }
    assert found != -1 by {
      assert free < i && free !in taken;
    }
    best := found;
  }

  /** The partial selection and sort of `search`: the `n` best documents, best first. */
  method SelectTop(final: seq<real>, n: nat) returns (idx: seq<nat>)
    requires n <= |final|
    ensures IsTopSelection(final, n, idx)
  {
    idx := [];
    while |idx| < n
      invariant |idx| <= n && PartialTop(final, idx)
      decreases n - |idx|
    {
      var best := FindBest(final, idx);
      PartialTopStep(final, idx, best);
      idx := idx + [best];
    }
  }

  /** `[h for h in hits if h[1] >= cutoff]`. */
  function CutOff(hs: seq<Scored>, cutoff: real): (r: seq<Scored>)
    ensures |r| <= |hs|
    ensures forall a :: 0 <= a < |r| ==> r[a] in hs && r[a].final >= cutoff
  {
    if hs == [] then []
    else if hs[0].final >= cutoff then [hs[0]] + CutOff(hs[1..], cutoff)
    else CutOff(hs[1..], cutoff)
  }

  predicate NonIncreasing(hs: seq<Scored>) {
    forall a, b :: 0 <= a < b < |hs| ==> hs[a].final >= hs[b].final
  }

  /** On a list sorted by score the cutoff keeps a prefix: everything up to the
      first score below the cutoff. */
  lemma {:induction false} CutOffPrefix(hs: seq<Scored>, cutoff: real)
    requires NonIncreasing(hs)
    ensures CutOff(hs, cutoff) == hs[..|CutOff(hs, cutoff)|]
    ensures forall a :: |CutOff(hs, cutoff)| <= a < |hs| ==> hs[a].final < cutoff
  {
    if hs != [] {
      CutOffPrefix(hs[1..], cutoff);
      if hs[0].final < cutoff {
        CutOffNone(hs, cutoff);
      }
    }
  }

  lemma {:induction false} CutOffNone(hs: seq<Scored>, cutoff: real)
    requires NonIncreasing(hs) && hs != [] && hs[0].final < cutoff
    ensures CutOff(hs, cutoff) == []
  {
    if |hs| > 1 {
      CutOffNone(hs[1..], cutoff);
    }
  }

  /** Raising the threshold over the same ranked list keeps a prefix of the
      earlier result. */
  lemma CutOffMonotone(hs: seq<Scored>, lo: real, hi: real)
    requires NonIncreasing(hs) && lo <= hi
    ensures |CutOff(hs, hi)| <= |CutOff(hs, lo)|
    ensures CutOff(hs, hi) == CutOff(hs, lo)[..|CutOff(hs, hi)|]
  {
    CutOffPrefix(hs, lo);
    CutOffPrefix(hs, hi);
    var m := |CutOff(hs, hi)|;
    assert forall a :: 0 <= a < m ==> hs[a] == CutOff(hs, hi)[a] && hs[a].final >= hi;
  }

  /** The documents of `idx`, in that order. */
  function Pick(all: seq<Scored>, idx: seq<nat>): (r: seq<Scored>)
    requires forall a :: 0 <= a < |idx| ==> idx[a] < |all|
    ensures |r| == |idx| && forall a :: 0 <= a < |idx| ==> r[a] == all[idx[a]]
  {
    seq(|idx|, a requires 0 <= a < |idx| => all[idx[a]])
  }

  // ===================== display formatting =====================

  /** The article number as displayed: `제…조` unless it already starts with `제`. */
  function PrettyArticle(art: string): (r: string)
    ensures StartsWith(art, "제") ==> r == art
    ensures art == "" ==> r == ""
    ensures !StartsWith(art, "제") && art != "" ==> r == "제" + art + "조"
  {
    if StartsWith(art, "제") then art else if art != "" then "제" + art + "조" else ""
  }

  /** Formatting a displayed article number again changes nothing, and every
      non-empty display starts with `제`. */
  lemma PrettyArticleIdempotent(art: string)
    ensures PrettyArticle(PrettyArticle(art)) == PrettyArticle(art)
    ensures PrettyArticle(art) == "" || StartsWith(PrettyArticle(art), "제")
  {
    if !StartsWith(art, "제") && art != "" {
      assert ("제" + art + "조")[..1] == "제";
    }
  }

  /** One entry of `pretty`'s result. The score is the unrounded final score. */
  datatype Display = Display(rank: nat, score: real, lawName: string, articleNo: string, snippet: string)

  // ===================== corpus loading =====================

  /** A value that `v or ""` turns into a string. */
  predicate TextLike(v: Json) {
    v.JStr? || !Truthy(v)
  }

  /** A value whose `str(v or "")` is its scalar rendering. */
  predicate ScalarLike(v: Json) {
    !Truthy(v) || v.JStr? || v.JNum? || v.JBool?
  }

  /** `v or ""` for a string or falsy value. */
  function TextOf(v: Json): string
    requires TextLike(v)
  {
    if Truthy(v) then v.s else ""
  }

  /** `str(v or "")`. */
  function StrOrEmpty(v: Json): string
    requires ScalarLike(v)
  {
    if !Truthy(v) then ""
    else match v
      case JStr(s) => s
      case JNum(n) => IntToString(n)
      case _ => "True"
  }

  /** A meta entry as a dict: a non-dict entry counts as `{}`. */
  function MetaDict(m: Json): seq<(string, Json)> {
    if m.JObj? then m.fields else []
  }

  /** The law name, article number and text of one corpus entry, falling back
      to the meta entry when the corpus entry lacks them. */
  predicate RowTyped(m: Json, c: Json) {
    var md := MetaDict(m);
    if c.JObj? then
      && TextLike(GetOr(c.fields, "law_name", GetOr(md, "law_name", JStr(""))))
      && ScalarLike(GetOr(c.fields, "article_no", GetOr(md, "article_no", JStr(""))))
      && TextLike(GetOr(c.fields, "text", JStr("")))
    else
      && TextLike(GetOr(md, "law_name", JStr("")))
      && ScalarLike(GetOr(md, "article_no", JStr("")))
      && ScalarLike(c)
  }

  /** Row `i` of the corpus: the corpus entry's own fields win over the meta
      entry's, and a corpus entry that is not a dict is the text itself. */
  function NormalizeRow(i: nat, m: Json, c: Json): (r: CorpusRow)
    requires RowTyped(m, c)
    ensures r.idx == i
    ensures c.JObj? && Get(c.fields, "law_name").JStr? ==> r.lawName == Get(c.fields, "law_name").s
    ensures c.JObj? && Lookup(c.fields, "law_name").None? && Get(MetaDict(m), "law_name").JStr? ==>
              r.lawName == Get(MetaDict(m), "law_name").s
    ensures !c.JObj? && Get(MetaDict(m), "law_name").JStr? ==> r.lawName == Get(MetaDict(m), "law_name").s
    ensures c.JObj? && Get(c.fields, "text").JStr? ==> r.text == Get(c.fields, "text").s
    ensures c.JObj? && Lookup(c.fields, "text").None? ==> r.text == ""
    ensures c.JStr? ==> r.text == c.s
    ensures !Truthy(c) ==> r.text == ""
  {
    var md := MetaDict(m);
    if c.JObj? then
      CorpusRow(i,
        TextOf(GetOr(c.fields, "law_name", GetOr(md, "law_name", JStr("")))),
        StrOrEmpty(GetOr(c.fields, "article_no", GetOr(md, "article_no", JStr("")))),
        TextOf(GetOr(c.fields, "text", JStr(""))))
    else
      CorpusRow(i,
        TextOf(GetOr(md, "law_name", JStr(""))),
        StrOrEmpty(GetOr(md, "article_no", JStr(""))),
        StrOrEmpty(c))
  }

  /** The document both lexical models index: the title tokens, a space, the text. */
  function Combined(r: CorpusRow): string {
    Join(" ", Tokenize(r.lawName + " " + r.articleNo)) + " " + r.text
  }

  /** `{(law_name, article_no): text for r in rows}`: a later row wins. */
  function BodyMap(rows: seq<CorpusRow>): map<(string, string), string>
    decreases |rows|
  {
    if rows == [] then map[]
    else
      var last := rows[|rows| - 1];
      BodyMap(rows[..|rows| - 1])[(last.lawName, last.articleNo) := last.text]
  }

  /** Every row's key is in the body map, and it maps to the text of the last
      row with that key. */
  lemma {:induction false} BodyMapLastWins(rows: seq<CorpusRow>, j: nat)
    requires j < |rows|
    requires forall k :: j < k < |rows| ==> (rows[k].lawName, rows[k].articleNo) != (rows[j].lawName, rows[j].articleNo)
    ensures (rows[j].lawName, rows[j].articleNo) in BodyMap(rows)
    ensures BodyMap(rows)[(rows[j].lawName, rows[j].articleNo)] == rows[j].text
    decreases |rows|
  {
    if j < |rows| - 1 {
      var init := rows[..|rows| - 1];
      assert init[j] == rows[j];
      BodyMapLastWins(init, j);
    }
  }

  lemma {:induction false} BodyMapKeys(rows: seq<CorpusRow>)
    ensures BodyMap(rows).Keys == set r | r in rows :: (r.lawName, r.articleNo)
    decreases |rows|
  {
    if rows != [] {
      var init := rows[..|rows| - 1];
      BodyMapKeys(init);
      assert rows == init + [rows[|rows| - 1]];
    }
  }

  /** The tail of `search`: the `min(top_k, N)` best tuples in descending order
      of score, then those scoring below `min_score * 100` dropped. */
  method Rank(all: seq<Scored>, topK: int, minScore: real) returns (hits: seq<Scored>, ghost ranked: seq<nat>)
    requires |all| >= 1 && topK >= 1
    requires forall i :: 0 <= i < |all| ==> all[i].idx == i && InRanges(all[i])
    ensures IsTopSelection(Finals(all), if topK < |all| then topK else |all|, ranked)
    ensures hits == CutOff(Pick(all, ranked), minScore * 100.0)
    ensures |hits| <= topK && |hits| <= |all|
    ensures NonIncreasing(hits)
    ensures forall a :: 0 <= a < |hits| ==> InRanges(hits[a]) && hits[a].final >= minScore * 100.0
    ensures forall a :: 0 <= a < |hits| ==> hits[a].idx < |all|
    ensures forall a, b :: 0 <= a < b < |hits| ==> hits[a].idx != hits[b].idx
  {
    var k := if topK < |all| then topK else |all|;
    var idx := SelectTop(Finals(all), k);
    ranked := idx;
    hits := CutOff(Pick(all, idx), minScore * 100.0);
    RankedHits(all, k, idx, minScore * 100.0, hits);
  }

  lemma RankedHits(all: seq<Scored>, k: nat, ranked: seq<nat>, cutoff: real, hits: seq<Scored>)
    requires forall i :: 0 <= i < |all| ==> all[i].idx == i && InRanges(all[i])
    requires IsTopSelection(Finals(all), k, ranked)
    requires hits == CutOff(Pick(all, ranked), cutoff)
    ensures |hits| <= k
    ensures NonIncreasing(hits)
    ensures forall a :: 0 <= a < |hits| ==> InRanges(hits[a]) && hits[a].final >= cutoff && hits[a].idx < |all|
    ensures forall a, b :: 0 <= a < b < |hits| ==> hits[a].idx != hits[b].idx
  {
    var picked := Pick(all, ranked);
    assert NonIncreasing(picked);
    CutOffPrefix(picked, cutoff);
  }

  /** The display entries of `pretty` for a list of hits. */
  function Render(rows: seq<CorpusRow>, hits: seq<Scored>): (out: seq<Display>)
    requires forall a :: 0 <= a < |hits| ==> hits[a].idx < |rows|
    ensures |out| == |hits|
    ensures forall a :: 0 <= a < |hits| ==>
      out[a] == Display(a + 1, hits[a].final, rows[hits[a].idx].lawName,
                        PrettyArticle(rows[hits[a].idx].articleNo), rows[hits[a].idx].text)
  {
    seq(|hits|, a requires 0 <= a < |hits| =>
      Display(a + 1, hits[a].final, rows[hits[a].idx].lawName,
              PrettyArticle(rows[hits[a].idx].articleNo), rows[hits[a].idx].text))
  }

  /** The loop of `pretty`: one display entry per hit, ranked from 1, with the
      article number formatted and the text as snippet. */
  method RenderHits(rows: seq<CorpusRow>, hits: seq<Scored>, minScore: real) returns (out: seq<Display>)
    requires forall a :: 0 <= a < |hits| ==> hits[a].idx < |rows|
    requires NonIncreasing(hits)
    requires forall a :: 0 <= a < |hits| ==> InRanges(hits[a]) && hits[a].final >= minScore * 100.0
    ensures out == Render(rows, hits)
    ensures forall a :: 0 <= a < |out| ==> out[a].rank == a + 1
    ensures forall a, b :: 0 <= a < b < |out| ==> out[a].score >= out[b].score
    ensures forall a :: 0 <= a < |out| ==> minScore * 100.0 <= out[a].score <= 100.0
  {
    out := [];
    var rank := 0;
    while rank < |hits|
      invariant 0 <= rank <= |hits|
      invariant out == Render(rows, hits[..rank])
    {
      var r := rows[hits[rank].idx];
      var prettyArt := if StartsWith(r.articleNo, "제") then r.articleNo
                       else if r.articleNo != "" then "제" + r.articleNo + "조" else "";
      out := out + [Display(rank + 1, hits[rank].final, r.lawName, prettyArt, r.text)];
      rank := rank + 1;
      assert hits[..rank][..rank - 1] == hits[..rank - 1];
    }
    assert hits[..rank] == hits;
  }

  /** One iteration of the signal loop of `search`. */
  method RowSignals(lex: Lexicon, text: string, needles: set<string>, r: CorpusRow)
    returns (kw: real, phr: real, ttl: real, down: real, soft: real)
    ensures kw == KeywordBonus(lex.keywords, text, r.text) && phr == PhraseBonus(lex.phrases, text, r.text)
    ensures ttl == TitleBonus(lex.titleLaws, r.lawName) && down == DownPenalty(lex.downwords, r.text)
    ensures soft == SoftBoost(needles, r.text)
  {
    var txt, law := r.text, r.lawName;
    kw := KeywordBonus(lex.keywords, text, txt);
    phr := PhraseBonus(lex.phrases, text, txt);
    ttl := TitleBonus(lex.titleLaws, law);
    down := DownPenalty(lex.downwords, txt);
    soft := 0.0;
    if needles != {} && exists w :: w in needles && Contains(txt, w) {
      soft := 1.0;
    }
  }

  /** The signal loop of `search`: the keyword, phrase, title and penalty
      signals of every document, and the soft boost before normalisation. */
  method Signals(lex: Lexicon, rows: seq<CorpusRow>, text: string, needles: set<string>)
    returns (kw: seq<real>, phr: seq<real>, ttl: seq<real>, soft: seq<real>, down: seq<real>)
    ensures kw == KeywordVector(lex, text, rows) && phr == PhraseVector(lex, text, rows)
    ensures ttl == TitleVector(lex, rows) && down == DownVector(lex, rows)
    ensures soft == SoftVector(needles, rows)
  {
    kw, phr, ttl, soft, down := [], [], [], [], [];
    var i := 0;
    while i < |rows|
      invariant 0 <= i <= |rows|
      invariant kw == KeywordVector(lex, text, rows[..i]) && phr == PhraseVector(lex, text, rows[..i])
      invariant ttl == TitleVector(lex, rows[..i]) && down == DownVector(lex, rows[..i])
      invariant soft == SoftVector(needles, rows[..i])
    {
      var k, p, t, d, b := RowSignals(lex, text, needles, rows[i]);
      KeywordSnoc(lex, text, rows, i); PhraseSnoc(lex, text, rows, i);
      TitleSnoc(lex, rows, i); DownSnoc(lex, rows, i); SoftSnoc(needles, rows, i);
      kw, phr, ttl, down, soft := kw + [k], phr + [p], ttl + [t], down + [d], soft + [b];
      i := i + 1;
    }
    assert rows[..i] == rows;
  }

  // One more row adds one more entry to each signal vector.

  lemma KeywordSnoc(lex: Lexicon, text: string, rows: seq<CorpusRow>, i: nat)
    requires i < |rows|
    ensures KeywordVector(lex, text, rows[..i + 1]) == KeywordVector(lex, text, rows[..i]) + [KeywordBonus(lex.keywords, text, rows[i].text)]
  {
    var pre, next := rows[..i], rows[..i + 1];
    var a, b := KeywordVector(lex, text, next), KeywordVector(lex, text, pre);
    forall j | 0 <= j < i ensures a[j] == b[j] {
      assert next[j] == pre[j];
    }
    assert a[i] == KeywordBonus(lex.keywords, text, rows[i].text);
  }

  lemma PhraseSnoc(lex: Lexicon, text: string, rows: seq<CorpusRow>, i: nat)
    requires i < |rows|
    ensures PhraseVector(lex, text, rows[..i + 1]) == PhraseVector(lex, text, rows[..i]) + [PhraseBonus(lex.phrases, text, rows[i].text)]
  {
    var pre, next := rows[..i], rows[..i + 1];
    assert forall j :: 0 <= j < i ==> next[j] == pre[j];
  }

  lemma TitleSnoc(lex: Lexicon, rows: seq<CorpusRow>, i: nat)
    requires i < |rows|
    ensures TitleVector(lex, rows[..i + 1]) == TitleVector(lex, rows[..i]) + [TitleBonus(lex.titleLaws, rows[i].lawName)]
  {
    var pre, next := rows[..i], rows[..i + 1];
    assert forall j :: 0 <= j < i ==> next[j] == pre[j];
  }

  lemma DownSnoc(lex: Lexicon, rows: seq<CorpusRow>, i: nat)
    requires i < |rows|
    ensures DownVector(lex, rows[..i + 1]) == DownVector(lex, rows[..i]) + [DownPenalty(lex.downwords, rows[i].text)]
  {
    var pre, next := rows[..i], rows[..i + 1];
    assert forall j :: 0 <= j < i ==> next[j] == pre[j];
  }

  lemma SoftSnoc(needles: set<string>, rows: seq<CorpusRow>, i: nat)
    requires i < |rows|
    ensures SoftVector(needles, rows[..i + 1]) == SoftVector(needles, rows[..i]) + [SoftBoost(needles, rows[i].text)]
  {
    var pre, next := rows[..i], rows[..i + 1];
    assert forall j :: 0 <= j < i ==> next[j] == pre[j];
  }

  /** The meta list, or one empty dict per corpus row when there is none. */
  function MetasOf(metaList: Option<seq<Json>>, n: nat): (r: seq<Json>)
    ensures metaList.Some? ==> r == metaList.value
    ensures metaList.None? ==> |r| == n && forall i :: 0 <= i < n ==> r[i] == JObj([])
  {
    if metaList.Some? then metaList.value else seq(n, _ => JObj([]))
  }

  /** The first `n` normalised rows. */
  function NormalizedRows(metas: seq<Json>, corps: seq<Json>, n: nat): (r: seq<CorpusRow>)
    requires n <= |metas| && n <= |corps| && forall i :: 0 <= i < n ==> RowTyped(metas[i], corps[i])
    ensures |r| == n && forall i :: 0 <= i < n ==> r[i] == NormalizeRow(i, metas[i], corps[i])
  {
    seq(n, i requires 0 <= i < n => NormalizeRow(i, metas[i], corps[i]))
  }

  /** The TF-IDF documents of the rows. */
  function Documents(rows: seq<CorpusRow>): (r: seq<string>)
    ensures |r| == |rows| && forall i :: 0 <= i < |rows| ==> r[i] == Combined(rows[i])
  {
    seq(|rows|, i requires 0 <= i < |rows| => Combined(rows[i]))
  }

  /** The BM25 token lists of the documents. */
  function TokenLists(docs: seq<string>): (r: seq<seq<string>>)
    ensures |r| == |docs| && forall i :: 0 <= i < |docs| ==> r[i] == Tokenize(docs[i])
  {
    seq(|docs|, i requires 0 <= i < |docs| => Tokenize(docs[i]))
  }

  lemma NormalizedRowsSnoc(metas: seq<Json>, corps: seq<Json>, n: nat)
    requires n < |metas| && n < |corps| && forall i :: 0 <= i <= n ==> RowTyped(metas[i], corps[i])
    ensures NormalizedRows(metas, corps, n + 1) == NormalizedRows(metas, corps, n) + [NormalizeRow(n, metas[n], corps[n])]
  {
    var a, b := NormalizedRows(metas, corps, n + 1), NormalizedRows(metas, corps, n);
    forall j | 0 <= j < n ensures a[j] == b[j] { }
  }

  lemma DocumentsSnoc(rows: seq<CorpusRow>, r: CorpusRow)
    ensures Documents(rows + [r]) == Documents(rows) + [Combined(r)]
  {
    var a, b := Documents(rows + [r]), Documents(rows);
    forall j | 0 <= j < |rows| ensures a[j] == b[j] {
      assert (rows + [r])[j] == rows[j];
    }
  }

  lemma TokenListsSnoc(docs: seq<string>, d: string)
    ensures TokenLists(docs + [d]) == TokenLists(docs) + [Tokenize(d)]
  {
    var a, b := TokenLists(docs + [d]), TokenLists(docs);
    forall j | 0 <= j < |docs| ensures a[j] == b[j] {
      assert (docs + [d])[j] == docs[j];
    }
  }

  class LawRetriever {
    /** The normalised corpus rows; row `i` has `idx == i`. */
    const rows: seq<CorpusRow>
    /** The combined title-and-text documents the TF-IDF model is fitted on. */
    const rawDocs: seq<string>
    /** The token lists the BM25 model is built on. */
    const bm25Docs: seq<seq<string>>
    /** `(law_name, article_no)` to text. */
    const body: map<(string, string), string>
    /** The module's dictionaries, as the scorer sees them. */
    const lexicon: Lexicon

    /** `__init__` after the files are loaded: `metaList` is `None` when no meta
        file is given or found, in which case every row gets an empty meta dict.
        Meta and corpus are cut to their common length. `lex` holds the
        module-level dictionaries the scorer reads, `SHIPPED` in the module. */
    constructor (metaList: Option<seq<Json>>, corpList: seq<Json>, lex: Lexicon)
      requires var metas := MetasOf(metaList, |corpList|);
               forall i :: 0 <= i < |metas| && i < |corpList| ==> RowTyped(metas[i], corpList[i])
      ensures var metas := MetasOf(metaList, |corpList|);
              rows == NormalizedRows(metas, corpList, if |metas| < |corpList| then |metas| else |corpList|)
      ensures forall i :: 0 <= i < |rows| ==> rows[i].idx == i
      ensures rawDocs == Documents(rows) && bm25Docs == TokenLists(rawDocs)
      ensures body == BodyMap(rows)
      ensures lexicon == lex
    {
      var metas := MetasOf(metaList, |corpList|);
      var n := if |metas| < |corpList| then |metas| else |corpList|;
      var corpusRows: seq<CorpusRow> := [];
      var raw: seq<string> := [];
      var toks: seq<seq<string>> := [];
      var i := 0;
      while i < n
        invariant 0 <= i <= n
        invariant corpusRows == NormalizedRows(metas, corpList, i)
        invariant raw == Documents(corpusRows) && toks == TokenLists(raw)
      {
        var r := NormalizeRow(i, metas[i], corpList[i]);
        NormalizedRowsSnoc(metas, corpList, i);
        DocumentsSnoc(corpusRows, r);
        var combined := Join(" ", Tokenize(r.lawName + " " + r.articleNo)) + " " + r.text;
        TokenListsSnoc(raw, combined);
        corpusRows := corpusRows + [r];
        raw := raw + [combined];
        toks := toks + [Tokenize(combined)];
        i := i + 1;
      }
      rows := corpusRows;
      rawDocs := raw;
      bm25Docs := toks;
      body := BodyMap(corpusRows);
      lexicon := lex;
    }

    /** The scoring half of `search`: normalises the lexical scores, runs the
        signal loop, normalises the soft boost and the penalty, and weighs
        the signals of every document. */
    method ScoreDocuments(text: string, sims: seq<real>, bmScores: seq<real>) returns (all: seq<Scored>)
      requires |rows| >= 1 && |sims| == |rows| && |bmScores| == |rows|
      ensures all == ScoreAll(lexicon, text, rows, sims, bmScores)
      ensures |all| == |rows| && forall i :: 0 <= i < |all| ==> all[i].idx == i && InRanges(all[i])
    {
      var cos := MinMaxNormalize(sims);
      var bm := MinMaxNormalize(bmScores);
      var qTokens := ExpandQueryTokens(lexicon.aliases, Tokenize(text));
      var needles := qTokens * lexicon.focus;
      var kw, phr, ttl, soft, down := Signals(lexicon, rows, text, needles);
      var softN := NormalizeIfPositive(soft);
      var downN := NormalizeIfPositive(down);
      all := Combine(cos, bm, kw, phr, ttl, softN, downN);
      ScoreAllRanges(lexicon, text, rows, sims, bmScores);
    }

    /** `search`: scores every document, keeps the `min(top_k, N)` best in
        descending order (`ranked`), then drops those below `min_score * 100`.
        `sims` and `bmScores` are the raw TF-IDF and BM25 scores of the query. */
    method Search(text: string, sims: seq<real>, bmScores: seq<real>, topK: int, minScore: real)
      returns (hits: seq<Scored>, ghost ranked: seq<nat>)
      requires |rows| >= 1 && |sims| == |rows| && |bmScores| == |rows| && topK >= 1
      ensures var all := ScoreAll(lexicon, text, rows, sims, bmScores);
              && IsTopSelection(Finals(all), if topK < |rows| then topK else |rows|, ranked)
              && hits == CutOff(Pick(all, ranked), minScore * 100.0)
      ensures |hits| <= topK && |hits| <= |rows|
      ensures NonIncreasing(hits)
      ensures forall a :: 0 <= a < |hits| ==> InRanges(hits[a]) && hits[a].final >= minScore * 100.0
      ensures forall a :: 0 <= a < |hits| ==> hits[a].idx < |rows|
      ensures forall a, b :: 0 <= a < b < |hits| ==> hits[a].idx != hits[b].idx
    {
      var all := ScoreDocuments(text, sims, bmScores);
      hits, ranked := Rank(all, topK, minScore);
    }

    /** `pretty`: the hits of `search`, ranked from 1, with the article number
        formatted for display and the text as snippet. */
    method Pretty(text: string, sims: seq<real>, bmScores: seq<real>, topK: int, minScore: real)
      returns (out: seq<Display>, ghost hits: seq<Scored>, ghost ranked: seq<nat>)
      requires |rows| >= 1 && |sims| == |rows| && |bmScores| == |rows| && topK >= 1
      ensures var all := ScoreAll(lexicon, text, rows, sims, bmScores);
              && IsTopSelection(Finals(all), if topK < |rows| then topK else |rows|, ranked)
              && hits == CutOff(Pick(all, ranked), minScore * 100.0)
      ensures forall a :: 0 <= a < |hits| ==> hits[a].idx < |rows|
      ensures out == Render(rows, hits)
      ensures |out| <= topK && |out| <= |rows|
      ensures forall a :: 0 <= a < |out| ==> out[a].rank == a + 1
      ensures forall a, b :: 0 <= a < b < |out| ==> out[a].score >= out[b].score
      ensures forall a :: 0 <= a < |out| ==> minScore * 100.0 <= out[a].score <= 100.0
    {
      var found;
      found, ranked := Search(text, sims, bmScores, topK, minScore);
      hits := found;
      out := RenderHits(rows, found, minScore);
    }
  }
}

=== FILE: pyjson.dfy ===
/**
 * The loosely typed values the core reads: JSON documents returned by
 * `json.loads`, the dicts of a table row, and Python's truthiness and
 * `dict.get` on them. Exceptions the core lets escape are an `Outcome`.
 */
module PyJson {
  import opened PyStr

  datatype Option<+T> = None | Some(value: T)

  /** A JSON value. A number is represented by an integer: the core tests
      whether it is zero and renders it with `str`, and only integers are
      modelled. An object keeps its keys in insertion order;
      like any Python dict its keys are distinct, and `Lookup` takes the first. */
  datatype Json =
    | JNull
    | JBool(b: bool)
    | JNum(n: int)
    | JStr(s: string)
    | JArr(items: seq<Json>)
    | JObj(fields: seq<(string, Json)>)

  /** A dict as an association list with distinct keys. */
  type Fields = seq<(string, Json)>

  /** The exception classes the core can raise. */
  datatype PyError = AttributeError | TypeError | ValueError | IndexError

  datatype Outcome<+T> = Ok(value: T) | Raised(error: PyError)

  /** Python's `bool(v)`. */
  predicate Truthy(v: Json) {
    match v
    case JNull => false
    case JBool(b) => b
    case JNum(n) => n != 0
    case JStr(s) => s != []
    case JArr(items) => items != []
    case JObj(fields) => fields != []
  }

  /** `a or b`. */
  function Or(a: Json, b: Json): (r: Json)
    ensures Truthy(a) ==> r == a
    ensures !Truthy(a) ==> r == b
  {
    if Truthy(a) then a else b
  }

  function Lookup(fields: seq<(string, Json)>, key: string): (r: Option<Json>)
    ensures r.Some? <==> exists i :: 0 <= i < |fields| && fields[i].0 == key
  {
    if fields == [] then None
    else if fields[0].0 == key then Some(fields[0].1)
    else
      var r := Lookup(fields[1..], key);
      assert forall i :: 0 < i < |fields| ==> fields[i] == fields[1..][i - 1];
      r
  }

  /** The value of the first entry holding `key`. */
  lemma {:induction false} LookupAt(fields: seq<(string, Json)>, key: string, i: nat)
    requires i < |fields| && fields[i].0 == key
    requires forall j :: 0 <= j < i ==> fields[j].0 != key
    ensures Lookup(fields, key) == Some(fields[i].1)
  {
    if i > 0 {
      assert fields[1..][i - 1] == fields[i];
      LookupAt(fields[1..], key, i - 1);
    }
  }

  /** `d.get(key, default)`. */
  function GetOr(fields: seq<(string, Json)>, key: string, default: Json): Json {
    match Lookup(fields, key)
    case Some(v) => v
    case None => default
  }

  /** `d.get(key)`: `None` when the key is absent. */
  function Get(fields: seq<(string, Json)>, key: string): Json {
    GetOr(fields, key, JNull)
  }

  /** `d[key] = v`: an existing key keeps its position, a new key goes last. */
  function Put(fields: seq<(string, Json)>, key: string, v: Json): (r: seq<(string, Json)>)
    ensures Lookup(r, key) == Some(v)
    ensures forall k :: k != key ==> Lookup(r, k) == Lookup(fields, k)
  {
    if fields == [] then [(key, v)]
    else if fields[0].0 == key then [(key, v)] + fields[1..]
    else
      var rest := Put(fields[1..], key, v);
      assert forall k :: k != key && k != fields[0].0 ==> Lookup([fields[0]] + rest, k) == Lookup(rest, k);
      [fields[0]] + rest
  }

  /** The object seen as a dict, or the error `v.get` raises on anything else. */
  function AsDict(v: Json): Outcome<seq<(string, Json)>> {
    if v.JObj? then Ok(v.fields) else Raised(AttributeError)
  }

  /** `(v or "").strip()`: a falsy value gives `""`; a truthy value that is not
      a string has no `strip` and raises. */
  function StripOrEmpty(v: Json): (r: Outcome<string>)
    ensures r.Ok? ==> IsStripped(r.value)
    ensures r.Raised? <==> Truthy(v) && !v.JStr?
    ensures !Truthy(v) ==> r == Ok([])
    ensures v.JStr? ==> r == Ok(Strip(v.s))
  {
    if !Truthy(v) then Ok([])
    else if v.JStr? then Ok(Strip(v.s))
    else Raised(AttributeError)
  }

  /** The entries `for r in v` visits: a list's items, a string's characters,
      a dict's keys; anything else is not iterable. */
  function Iterate(v: Json): Outcome<seq<Json>> {
    match v
    case JArr(items) => Ok(items)
    case JStr(s) => Ok(seq(|s|, i requires 0 <= i < |s| => JStr([s[i]])))
    case JObj(fields) => Ok(seq(|fields|, i requires 0 <= i < |fields| => JStr(fields[i].0)))
    case _ => Raised(TypeError)
  }

  /** Writing back the value a key already holds changes nothing. */
  lemma {:induction false} PutSame(fields: seq<(string, Json)>, key: string, v: Json)
    requires Lookup(fields, key) == Some(v)
    ensures Put(fields, key, v) == fields
  {
    if fields[0].0 != key {
      PutSame(fields[1..], key, v);
      assert [fields[0]] + fields[1..] == fields;
    } else {
      assert [(key, v)] + fields[1..] == fields;
    }
  }

  /** Writing a key that is not there appends it. */
  lemma {:induction false} PutNew(fields: seq<(string, Json)>, key: string, v: Json)
    requires Lookup(fields, key).None?
    ensures Put(fields, key, v) == fields + [(key, v)]
  {
    if fields != [] {
      PutNew(fields[1..], key, v);
      assert [fields[0]] + (fields[1..] + [(key, v)]) == fields + [(key, v)];
    }
  }

  /** Appending another key leaves a missing key missing. */
  lemma AppendKeepsMissing(fields: seq<(string, Json)>, key: string, k: string, v: Json)
    requires Lookup(fields, key).None? && k != key
    ensures Lookup(fields + [(k, v)], key).None?
  {
    var r := fields + [(k, v)];
    assert forall i :: 0 <= i < |fields| ==> r[i] == fields[i];
    assert r[|fields|].0 != key;
  }

  /** Three single appends are one append of three. */
  lemma AppendThree<T>(s: seq<T>, a: T, b: T, c: T)
    ensures s + [a] + [b] + [c] == s + [a, b, c]
  {
  }

  /** Writing one key leaves every other key's value alone. */
  lemma GetPut(fields: seq<(string, Json)>, key: string, v: Json, k: string)
    requires k != key
    ensures Get(Put(fields, key, v), k) == Get(fields, k)
  {
  }

  /** `[r for r in xs if r]`. */
  function TruthyOnly(xs: seq<Json>): (r: seq<Json>)
    ensures |r| <= |xs|
    ensures forall i :: 0 <= i < |r| ==> Truthy(r[i])
    ensures forall x :: x in r <==> x in xs && Truthy(x)
  {
    if xs == [] then []
    else if Truthy(xs[0]) then [xs[0]] + TruthyOnly(xs[1..])
    else TruthyOnly(xs[1..])
  }

  /** The positions of the truthy entries of `xs`: strictly increasing, each
      holding a truthy entry, and every truthy entry among them. */
  ghost function TruthyPositions(xs: seq<Json>): (r: seq<nat>)
    ensures forall a :: 0 <= a < |r| ==> r[a] < |xs| && Truthy(xs[r[a]])
    ensures forall a, b :: 0 <= a < b < |r| ==> r[a] < r[b]
    ensures forall i :: 0 <= i < |xs| && Truthy(xs[i]) ==> i in r
    decreases |xs|
  {
    if xs == [] then []
    else
      var n := |xs| - 1;
      var p := TruthyPositions(xs[..n]);
      assert forall i :: 0 <= i < n ==> xs[..n][i] == xs[i];
      p + (if Truthy(xs[n]) then [n] else [])
  }

  /** `[r for r in xs if r]` is `xs` read at the truthy positions: every
      truthy entry once, in its order. */
  lemma {:induction false} TruthyOnlyPositions(xs: seq<Json>)
    ensures |TruthyPositions(xs)| == |TruthyOnly(xs)|
    ensures forall a :: 0 <= a < |TruthyPositions(xs)| ==> TruthyOnly(xs)[a] == xs[TruthyPositions(xs)[a]]
    decreases |xs|
  {
    if xs != [] {
      var n := |xs| - 1;
      var front := xs[..n];
      TruthyOnlyPositions(front);
      assert front + [xs[n]] == xs;
      TruthyOnlyAppend(front, [xs[n]]);
      assert TruthyOnly([xs[n]]) == if Truthy(xs[n]) then [xs[n]] else [];
      PositionsStep(front, xs[n], TruthyPositions(front), TruthyOnly(front));
    }
  }

  /** One more entry: the positions and the kept entries grow together. */
  lemma PositionsStep(front: seq<Json>, x: Json, p: seq<nat>, t: seq<Json>)
    requires |p| == |t| && forall a :: 0 <= a < |p| ==> p[a] < |front| && t[a] == front[p[a]]
    ensures var r := p + (if Truthy(x) then [|front|] else []);
      var u := t + (if Truthy(x) then [x] else []);
      |r| == |u| && forall a :: 0 <= a < |r| ==> u[a] == (front + [x])[r[a]]
  {
  }

  /** The filter of a concatenation is the concatenation of the filters. */
  lemma {:induction false} TruthyOnlyAppend(a: seq<Json>, b: seq<Json>)
    ensures TruthyOnly(a + b) == TruthyOnly(a) + TruthyOnly(b)
  {
    if a == [] {
      assert a + b == b;
    } else {
      assert (a + b)[1..] == a[1..] + b;
      TruthyOnlyAppend(a[1..], b);
    }
  }

  /** Filtering a list whose entries are all truthy keeps it whole. */
  lemma {:induction false} TruthyOnlyKeeps(xs: seq<Json>)
    requires forall i :: 0 <= i < |xs| ==> Truthy(xs[i])
    ensures TruthyOnly(xs) == xs
  {
    if xs != [] { TruthyOnlyKeeps(xs[1..]); }
  }

  /** `xs[:n]` for a non-negative `n`. */
  function Take<T>(xs: seq<T>, n: nat): (r: seq<T>)
    ensures |r| == if n <= |xs| then n else |xs|
    ensures r == xs[..|r|]
  {
    if n <= |xs| then xs[..n] else xs
  }
}

=== FILE: pystr.dfy ===
/**
 * The Python `str` operations the retrieval core relies on, over Dafny strings
 * (one `char` per Unicode code point, as Python counts them).
 */
module PyStr {

  /** The characters for which Python's `str.isspace()` holds; a `\s` in a str
      regular expression and the argument-less `strip()` use this same set. */
  predicate IsSpace(c: char) {
    || c == ' '
    || ('\t' <= c <= '\r')
    || ('\U{1C}' <= c <= '\U{1F}')
    || c == '\U{85}' || c == '\U{A0}' || c == '\U{1680}'
    || ('\U{2000}' <= c <= '\U{200A}')
    || c == '\U{2028}' || c == '\U{2029}' || c == '\U{202F}' || c == '\U{205F}' || c == '\U{3000}'
  }

  predicate AllSpace(s: string) {
    forall i :: 0 <= i < |s| ==> IsSpace(s[i])
  }

  /** True when `strip()` would leave `s` unchanged. */
  predicate IsStripped(s: string) {
    s == [] || (!IsSpace(s[0]) && !IsSpace(s[|s| - 1]))
  }

  /** The first index at or after `i` that does not hold a space, or `|s|`. */
  function SkipSpaces(s: string, i: nat): (r: nat)
    requires i <= |s|
    ensures i <= r <= |s|
    ensures forall k :: i <= k < r ==> IsSpace(s[k])
    ensures r == |s| || !IsSpace(s[r])
    decreases |s| - i
  {
    if i < |s| && IsSpace(s[i]) then SkipSpaces(s, i + 1) else i
  }

  /** The end of `s[lo..j]` once its trailing spaces are dropped. */
  function TrimEnd(s: string, lo: nat, j: nat): (r: nat)
    requires lo <= j <= |s|
    ensures lo <= r <= j
    ensures forall k :: r <= k < j ==> IsSpace(s[k])
    ensures r == lo || !IsSpace(s[r - 1])
  {
    if j > lo && IsSpace(s[j - 1]) then TrimEnd(s, lo, j - 1) else j
  }

  /** `s.strip()`: `s` without its leading and trailing spaces. */
  function Strip(s: string): (r: string)
    ensures IsStripped(r)
    ensures |r| <= |s|
  {
    var a := SkipSpaces(s, 0);
    s[a..TrimEnd(s, a, |s|)]
  }

  /** `SkipSpaces` is determined by where the run of spaces ends. */
  lemma {:induction false} SkipSpacesAt(s: string, i: nat, j: nat)
    requires i <= j <= |s|
    requires forall k :: i <= k < j ==> IsSpace(s[k])
    requires j == |s| || !IsSpace(s[j])
    ensures SkipSpaces(s, i) == j
    decreases j - i
  {
    if i < j {
      SkipSpacesAt(s, i + 1, j);
    }
  }

  /** `TrimEnd` is determined by where the trailing run of spaces starts. */
  lemma {:induction false} TrimEndAt(s: string, lo: nat, j: nat, e: nat)
    requires lo <= e <= j <= |s|
    requires forall k :: e <= k < j ==> IsSpace(s[k])
    requires e == lo || !IsSpace(s[e - 1])
    ensures TrimEnd(s, lo, j) == e
    decreases j - e
  {
    if e < j {
      TrimEndAt(s, lo, j - 1, e);
    }
  }

  /** `strip()` is characterised by its result: whenever `s` is a stripped
      string between two runs of spaces, stripping gives that string. */
  lemma StripUnique(pre: string, m: string, post: string)
    requires AllSpace(pre) && AllSpace(post) && IsStripped(m)
    ensures Strip(pre + m + post) == m
  {
    if m == [] {
      StripBlank(pre, post);
    } else {
      var t := pre + m + post;
      var a, b := |pre|, |pre| + |m|;
      assert forall k :: 0 <= k < a ==> t[k] == pre[k];
      assert t[a] == m[0];
      SkipSpacesAt(t, 0, a);
      assert forall k :: b <= k < |t| ==> t[k] == post[k - b];
      assert t[b - 1] == m[|m| - 1];
      TrimEndAt(t, a, |t|, b);
      assert t[a..b] == m;
    }
  }

  /** A string made only of spaces strips to nothing. */
  lemma StripBlank(pre: string, post: string)
    requires AllSpace(pre) && AllSpace(post)
    ensures Strip(pre + post) == []
  {
    var t := pre + post;
    forall k | 0 <= k < |t| ensures IsSpace(t[k]) {
      if k < |pre| { assert t[k] == pre[k]; } else { assert t[k] == post[k - |pre|]; }
    }
    SkipSpacesAt(t, 0, |t|);
  }

  /** Every string is its stripped form between two runs of spaces. */
  lemma StripSplits(s: string) returns (pre: string, post: string)
    ensures AllSpace(pre) && AllSpace(post)
    ensures s == pre + Strip(s) + post
  {
    var a := SkipSpaces(s, 0);
    var b := TrimEnd(s, a, |s|);
    pre, post := s[..a], s[b..];
    forall k | 0 <= k < |pre| ensures IsSpace(pre[k]) {
      assert pre[k] == s[k];
    }
    forall k | 0 <= k < |post| ensures IsSpace(post[k]) {
      assert post[k] == s[b + k];
    }
    assert Strip(s) == s[a..b];
    assert pre + s[a..b] == s[..b];
    assert s[..b] + post == s;
  }

  lemma AllSpaceAppend(a: string, b: string)
    requires AllSpace(a) && AllSpace(b)
    ensures AllSpace(a + b)
  {
    forall k | 0 <= k < |a + b| ensures IsSpace((a + b)[k]) {
      if k < |a| { assert (a + b)[k] == a[k]; } else { assert (a + b)[k] == b[k - |a|]; }
    }
  }

  lemma StripStripped(s: string)
    requires IsStripped(s)
    ensures Strip(s) == s
  {
    StripUnique([], s, []);
    assert [] + s + [] == s;
  }

  /** Stripping twice is stripping once. */
  lemma StripIdempotent(s: string)
    ensures Strip(Strip(s)) == Strip(s)
  {
    StripStripped(Strip(s));
  }

  /** Spaces added around a string do not survive `strip()`. */
  lemma StripPadded(pre: string, s: string, post: string)
    requires AllSpace(pre) && AllSpace(post)
    ensures Strip(pre + s + post) == Strip(s)
  {
    var m := Strip(s);
    var p, q := StripSplits(s);
    AllSpaceAppend(pre, p);
    AllSpaceAppend(q, post);
    Regroup(pre, p, m, q, post);
    StripUnique(pre + p, m, q + post);
  }

  lemma Regroup(a: string, b: string, c: string, d: string, e: string)
    ensures a + (b + c + d) + e == (a + b) + c + (d + e)
  {
  }

  /** A string with a non-space character does not strip to nothing. */
  lemma StripNonBlank(s: string, j: nat)
    requires j < |s| && !IsSpace(s[j])
    ensures Strip(s) != []
  {
  }

  /** A string that ends in a non-space keeps its last character when stripped. */
  lemma StripKeepsLast(s: string)
    requires s != [] && !IsSpace(s[|s| - 1])
    ensures Strip(s) != [] && Strip(s)[|Strip(s)| - 1] == s[|s| - 1]
  {
  }

  /** ASCII case folding, the part of `str.lower()` this model covers. */
  function LowerChar(c: char): char {
    if 'A' <= c <= 'Z' then (c as int + 32) as char else c
  }

  /** `s.lower()` on ASCII letters; every other character is kept. */
  function Lower(s: string): (r: string)
    ensures |r| == |s|
    ensures forall i :: 0 <= i < |s| ==> r[i] == LowerChar(s[i])
  {
    seq(|s|, i requires 0 <= i < |s| => LowerChar(s[i]))
  }

  /** `re.sub(r"\s+", "", s)`: every space removed. */
  function RemoveSpace(s: string): (r: string)
    ensures |r| <= |s|
    ensures forall i :: 0 <= i < |r| ==> !IsSpace(r[i])
  {
    if s == [] then []
    else if IsSpace(s[0]) then RemoveSpace(s[1..])
    else [s[0]] + RemoveSpace(s[1..])
  }

  /** Removing spaces works piece by piece. */
  lemma {:induction false} RemoveSpaceConcat(x: string, y: string)
    ensures RemoveSpace(x + y) == RemoveSpace(x) + RemoveSpace(y)
  {
    if x != [] {
      assert (x + y)[1..] == x[1..] + y;
      RemoveSpaceConcat(x[1..], y);
    } else {
      assert x + y == y;
    }
  }

  /** A space inserted anywhere is removed again. */
  lemma RemoveSpaceInsert(x: string, c: char, y: string)
    requires IsSpace(c)
    ensures RemoveSpace(x + [c] + y) == RemoveSpace(x + y)
  {
    RemoveSpaceConcat(x + [c], y);
    RemoveSpaceConcat(x, [c]);
    RemoveSpaceConcat(x, y);
    assert RemoveSpace([c]) == [];
  }

  /** No two spaces in a row, and every space is `' '`. */
  predicate SingleSpaced(s: string) {
    && (forall i :: 0 <= i < |s| && IsSpace(s[i]) ==> s[i] == ' ')
    && (forall i :: 0 <= i < |s| - 1 ==> !SpacePair(s, i))
  }

  /** Positions `i` and `i + 1` both hold a space. */
  predicate SpacePair(s: string, i: int)
    requires 0 <= i < |s| - 1
  {
    IsSpace(s[i]) && IsSpace(s[i + 1])
  }

  /** A window of a single-spaced string is single-spaced. */
  lemma SliceSingleSpaced(s: string, a: nat, b: nat)
    requires a <= b <= |s|
    ensures SingleSpaced(s) ==> SingleSpaced(s[a..b])
  {
    var w := s[a..b];
    forall i | 0 <= i < |w| - 1 && SingleSpaced(s) ensures !SpacePair(w, i) {
      assert !SpacePair(s, a + i);
      assert w[i] == s[a + i] && w[i + 1] == s[a + i + 1];
    }
  }

  /** `re.sub(r"\s+", " ", s[i..])`: every maximal run of spaces becomes one `' '`. */
  function CollapseFrom(s: string, i: nat): (r: string)
    requires i <= |s|
    ensures SingleSpaced(r)
    ensures r == [] <==> i == |s|
    ensures i < |s| ==> (IsSpace(r[0]) <==> IsSpace(s[i]))
    ensures i < |s| ==> (IsSpace(r[|r| - 1]) <==> IsSpace(s[|s| - 1]))
    decreases |s| - i
  {
    if i == |s| then []
    else if IsSpace(s[i]) then
      var rest := CollapseFrom(s, SkipSpaces(s, i));
      assert forall k :: 1 <= k < |rest| ==> SpacePair(" " + rest, k) == SpacePair(rest, k - 1);
      " " + rest
    else
      var rest := CollapseFrom(s, i + 1);
      assert forall k :: 1 <= k < |rest| ==> SpacePair([s[i]] + rest, k) == SpacePair(rest, k - 1);
      [s[i]] + rest
  }

  /** `re.sub(r"\s+", " ", s)`. */
  function CollapseSpace(s: string): (r: string)
    ensures SingleSpaced(r)
    ensures r == [] <==> s == []
    ensures s != [] ==> (IsSpace(r[0]) <==> IsSpace(s[0]))
    ensures s != [] ==> (IsSpace(r[|r| - 1]) <==> IsSpace(s[|s| - 1]))
    ensures RemoveSpace(r) == RemoveSpace(s)
  {
    CollapseKeepsText(s, 0);
    assert s[0..] == s;
    CollapseFrom(s, 0)
  }

  /** Skipping a run of spaces leaves the text without spaces as it was. */
  lemma {:induction false} RemoveSpaceSkip(s: string, i: nat, j: nat)
    requires i <= j <= |s|
    requires forall k :: i <= k < j ==> IsSpace(s[k])
    ensures RemoveSpace(s[i..]) == RemoveSpace(s[j..])
    decreases j - i
  {
    if i < j {
      assert s[i..][1..] == s[i + 1..];
      RemoveSpaceSkip(s, i + 1, j);
    }
  }

  /** Collapsing runs of spaces changes nothing but white space. */
  lemma {:induction false} CollapseKeepsText(s: string, i: nat)
    requires i <= |s|
    ensures RemoveSpace(CollapseFrom(s, i)) == RemoveSpace(s[i..])
    decreases |s| - i
  {
    if i < |s| {
      if IsSpace(s[i]) {
        var j := SkipSpaces(s, i);
        var rest := CollapseFrom(s, j);
        CollapseKeepsText(s, j);
        RemoveSpaceSkip(s, i, j);
        assert (" " + rest)[1..] == rest;
      } else {
        var rest := CollapseFrom(s, i + 1);
        CollapseKeepsText(s, i + 1);
        assert s[i..][1..] == s[i + 1..];
        assert ([s[i]] + rest)[1..] == rest;
      }
    }
  }

  /** Text made only of white space has nothing left once it is removed. */
  lemma {:induction false} RemoveAllSpace(s: string)
    requires AllSpace(s)
    ensures RemoveSpace(s) == []
    decreases |s|
  {
    if s != [] {
      RemoveAllSpace(s[1..]);
    }
  }

  /** `strip()` changes nothing but white space. */
  lemma RemoveSpaceStrip(s: string)
    ensures RemoveSpace(Strip(s)) == RemoveSpace(s)
  {
    var pre, post := StripSplits(s);
    RemoveSpaceConcat(pre + Strip(s), post);
    RemoveSpaceConcat(pre, Strip(s));
    RemoveAllSpace(pre);
    RemoveAllSpace(post);
  }

  predicate StartsWith(s: string, p: string) {
    |p| <= |s| && s[..|p|] == p
  }

  /** A string that starts with `p` starts with every prefix of `p`. */
  lemma StartsWithPrefix(s: string, p: string, q: string)
    ensures StartsWith(s, p) && StartsWith(p, q) ==> StartsWith(s, q)
  {
    if StartsWith(s, p) && StartsWith(p, q) {
      assert s[..|q|] == s[..|p|][..|q|];
    }
  }

  predicate EndsWith(s: string, p: string) {
    |p| <= |s| && s[|s| - |p|..] == p
  }

  /** `p in s` for strings: `p` occurs in `s` as a contiguous substring. */
  predicate Contains(s: string, p: string)
    decreases |s|
  {
    StartsWith(s, p) || (s != [] && Contains(s[1..], p))
  }

  /** The recursive `Contains` agrees with "some window of `s` equals `p`". */
  lemma {:induction false} ContainsAt(s: string, p: string, i: nat)
    requires i + |p| <= |s| && s[i..i + |p|] == p
    ensures Contains(s, p)
  {
    if i > 0 {
      assert s[1..][i - 1..i - 1 + |p|] == s[i..i + |p|];
      ContainsAt(s[1..], p, i - 1);
    }
  }

  lemma {:induction false} ContainsWitness(s: string, p: string) returns (i: nat)
    requires Contains(s, p)
    ensures i + |p| <= |s| && s[i..i + |p|] == p
    decreases |s|
  {
    if StartsWith(s, p) {
      i := 0;
    } else {
      var j := ContainsWitness(s[1..], p);
      i := j + 1;
      assert s[1..][j..j + |p|] == s[i..i + |p|];
    }
  }

  /** A substring of a substring is a substring. */
  lemma ContainsTransitive(s: string, m: string, p: string)
    requires Contains(s, m) && Contains(m, p)
    ensures Contains(s, p)
  {
    var i := ContainsWitness(s, m);
    var j := ContainsWitness(m, p);
    forall k | 0 <= k < |p| ensures s[i + j + k] == p[k] {
      assert s[i + j + k] == s[i..i + |m|][j + k];
      assert p[k] == m[j..j + |p|][k];
    }
    assert s[i + j..i + j + |p|] == p;
    ContainsAt(s, p, i + j);
  }

  /** Python's `sep.join(parts)`. */
  function Join(sep: string, parts: seq<string>): string {
    if parts == [] then []
    else if |parts| == 1 then parts[0]
    else parts[0] + sep + Join(sep, parts[1..])
  }

  /** Concatenation of the parts, `"".join(parts)`. */
  function Concat(parts: seq<string>): string {
    if parts == [] then [] else parts[0] + Concat(parts[1..])
  }

  lemma ConcatAppend(a: seq<string>, b: seq<string>)
    ensures Concat(a + b) == Concat(a) + Concat(b)
  {
    if a == [] {
      assert a + b == b;
    } else {
      assert (a + b)[1..] == a[1..] + b;
      ConcatAppend(a[1..], b);
    }
  }

  /** `s.split(sep)` for a one-character separator: the pieces between separators,
      empty pieces included. */
  function SplitOn(s: string, sep: char): (r: seq<string>)
    ensures |r| >= 1
    ensures forall k :: 0 <= k < |r| ==> sep !in r[k]
    ensures Join([sep], r) == s
    decreases |s|
  {
    if s == [] then [[]]
    else
      var rest := SplitOn(s[1..], sep);
      assert s == [s[0]] + s[1..];
      if s[0] == sep then
        assert ([[]] + rest)[1..] == rest;
        [[]] + rest
      else
        var r := [[s[0]] + rest[0]] + rest[1..];
        assert r[1..] == rest[1..];
        r
  }

  /** A string without the separator is one piece. */
  lemma {:induction false} SplitOnWhole(a: string, sep: char)
    requires sep !in a
    ensures SplitOn(a, sep) == [a]
    decreases |a|
  {
    if a != [] {
      SplitOnWhole(a[1..], sep);
      assert [a[0]] + a[1..] == a;
    }
  }

  /** A first separator ends the first piece. */
  lemma {:induction false} SplitOnFirst(a: string, sep: char, b: string)
    requires sep !in a
    ensures SplitOn(a + [sep] + b, sep) == [a] + SplitOn(b, sep)
    decreases |a|
  {
    var s := a + [sep] + b;
    if a == [] {
      assert s[1..] == b;
    } else {
      assert s[1..] == a[1..] + [sep] + b;
      SplitOnFirst(a[1..], sep, b);
      assert [a[0]] + a[1..] == a;
    }
  }

  /** Splitting undoes `sep.join(names)` when no name holds the separator. */
  lemma {:induction false} SplitJoin(names: seq<string>, sep: char)
    requires names != []
    requires forall k :: 0 <= k < |names| ==> sep !in names[k]
    ensures SplitOn(Join([sep], names), sep) == names
    decreases |names|
  {
    if |names| == 1 {
      SplitOnWhole(names[0], sep);
    } else {
      SplitJoin(names[1..], sep);
      SplitOnFirst(names[0], sep, Join([sep], names[1..]));
      assert [names[0]] + names[1..] == names;
    }
  }

  /** `s[:n]` for any integer `n`: a negative `n` counts from the end. */
  function PyPrefix(s: string, n: int): (r: string)
    ensures |r| <= |s| && r == s[..|r|]
    ensures n >= 0 ==> |r| == if n <= |s| then n else |s|
    ensures n < 0 ==> |r| == if |s| + n >= 0 then |s| + n else 0
  {
    if n >= 0 then (if n <= |s| then s[..n] else s)
    else (if |s| + n >= 0 then s[..|s| + n] else [])
  }

  function DigitChar(d: nat): (c: char)
    requires d < 10
    ensures '0' <= c <= '9' && c as int - '0' as int == d
  {
    (48 + d) as char
  }

  /** `str(n)` for a natural number: its decimal digits, no leading zero. */
  function NatToString(n: nat): (r: string)
    ensures |r| >= 1 && forall i :: 0 <= i < |r| ==> '0' <= r[i] <= '9'
    ensures n > 0 ==> r[0] != '0'
  {
    if n < 10 then [DigitChar(n)] else NatToString(n / 10) + [DigitChar(n % 10)]
  }

  /** `str(i)` for a Python int. */
  function IntToString(i: int): string {
    if i < 0 then "-" + NatToString(-i) else NatToString(i)
  }
}

=== FILE: weak_labels.dfy ===
/**
 * Keyword labelling of case texts for the two training scripts: every
 * category of the keyword dictionary some of whose words occur in the
 * text, in the dictionary's order, or `기타` when there is none.
 *
 * `precedent/src/train_sbert.py` compares with every white-space character
 * removed from the text and the words; `precedent/src/train_multilabel_baseline.py`
 * compares them as they are. Both lowercase. The dictionary is the list of
 * its items in iteration order, its keys distinct as a dict's are.
 */
module WeakLabels {
  import opened PyStr

  /** The label of a text no category matched. */
  const OTHER: string := "기타"

  /** `kw.items()`: each category with its words. */
  type Keywords = seq<(string, seq<string>)>

  /** The form a text or a word is compared in: `re.sub(r"\s+", "", s).lower()`
      when `squash`, `s.lower()` otherwise. */
  function Norm(s: string, squash: bool): string {
    if squash then Lower(RemoveSpace(s)) else Lower(s)
  }

  /** Some word of the category occurs in the normalised text `t`. */
  predicate AnyWord(words: seq<string>, t: string, squash: bool) {
    exists j :: 0 <= j < |words| && Contains(t, Norm(words[j], squash))
  }

  /** The matched categories, in dictionary order. */
  function Hits(kw: Keywords, t: string, squash: bool): (r: seq<string>)
    ensures |r| <= |kw|
  {
    if kw == [] then []
    else Hits(kw[..|kw| - 1], t, squash) + (if AnyWord(kw[|kw| - 1].1, t, squash) then [kw[|kw| - 1].0] else [])
  }

  /** `labs or ["기타"]`: the labels of a text. */
  function Labelled(kw: Keywords, text: string, squash: bool): (r: seq<string>)
    ensures r != []
  {
    var h := Hits(kw, Norm(text, squash), squash);
    if h == [] then [OTHER] else h
  }

  /** Where each matched category sits in the dictionary: strictly
      increasing positions, every matched category among them. */
  ghost function HitPositions(kw: Keywords, t: string, squash: bool): (r: seq<nat>)
    ensures |r| == |Hits(kw, t, squash)|
    ensures forall a :: 0 <= a < |r| ==>
      r[a] < |kw| && kw[r[a]].0 == Hits(kw, t, squash)[a] && AnyWord(kw[r[a]].1, t, squash)
    ensures forall a, b :: 0 <= a < b < |r| ==> r[a] < r[b]
  {
    if kw == [] then []
    else
      var n := |kw| - 1;
      var front := kw[..n];
      var p := HitPositions(front, t, squash);
      assert forall i :: 0 <= i < n ==> front[i] == kw[i];
      assert Hits(kw, t, squash) == Hits(front, t, squash) + (if AnyWord(kw[n].1, t, squash) then [kw[n].0] else []);
      p + (if AnyWord(kw[n].1, t, squash) then [n] else [])
  }

  /** Every matched category is listed. */
  lemma {:induction false} HitsComplete(kw: Keywords, t: string, squash: bool, i: nat)
    requires i < |kw| && AnyWord(kw[i].1, t, squash)
    ensures kw[i].0 in Hits(kw, t, squash)
  {
    var n := |kw| - 1;
    if i < n {
      var front := kw[..n];
      assert front[i] == kw[i];
      HitsComplete(front, t, squash, i);
    }
  }

  /** A category is among the matched ones exactly when one of its entries
      has a word in the text. */
  lemma HitsMember(kw: Keywords, t: string, squash: bool, k: string)
    ensures k in Hits(kw, t, squash) <==> exists i :: 0 <= i < |kw| && kw[i].0 == k && AnyWord(kw[i].1, t, squash)
  {
    var r := HitPositions(kw, t, squash);
    var h := Hits(kw, t, squash);
    if k in h {
      var a :| 0 <= a < |h| && h[a] == k;
      assert kw[r[a]].0 == k;
    }
    if exists i :: 0 <= i < |kw| && kw[i].0 == k && AnyWord(kw[i].1, t, squash) {
      var i :| 0 <= i < |kw| && kw[i].0 == k && AnyWord(kw[i].1, t, squash);
      HitsComplete(kw, t, squash, i);
    }
  }

  /** The keys of a dict are distinct. */
  predicate DistinctKeys(kw: Keywords) {
    forall i, j :: 0 <= i < j < |kw| ==> kw[i].0 != kw[j].0
  }

  /** No category is listed twice. */
  lemma HitsDistinct(kw: Keywords, t: string, squash: bool)
    requires DistinctKeys(kw)
    ensures forall a, b :: 0 <= a < b < |Hits(kw, t, squash)| ==> Hits(kw, t, squash)[a] != Hits(kw, t, squash)[b]
  {
    var r := HitPositions(kw, t, squash);
    forall a, b | 0 <= a < b < |Hits(kw, t, squash)|
      ensures Hits(kw, t, squash)[a] != Hits(kw, t, squash)[b]
    {
      assert r[a] < r[b];
    }
  }

  /** The labels: a category is listed exactly when one of its words
      occurs, `기타` also when nothing matched. */
  lemma LabelledMember(kw: Keywords, text: string, squash: bool, k: string)
    ensures var t := Norm(text, squash);
      k in Labelled(kw, text, squash) <==>
        (exists i :: 0 <= i < |kw| && kw[i].0 == k && AnyWord(kw[i].1, t, squash))
        || (k == OTHER && forall i :: 0 <= i < |kw| ==> !AnyWord(kw[i].1, t, squash))
  {
    var t := Norm(text, squash);
    HitsMember(kw, t, squash, k);
    if Hits(kw, t, squash) == [] {
      forall i | 0 <= i < |kw| ensures !AnyWord(kw[i].1, t, squash) {
        HitsMember(kw, t, squash, kw[i].0);
      }
    } else {
      var k0 := Hits(kw, t, squash)[0];
      HitsMember(kw, t, squash, k0);
    }
  }

  /** The labels are `["기타"]` when nothing matched, and, unless `기타`
      is itself a category, only then. */
  lemma LabelledOther(kw: Keywords, text: string, squash: bool)
    ensures var t := Norm(text, squash);
      (forall i :: 0 <= i < |kw| ==> !AnyWord(kw[i].1, t, squash)) ==> Labelled(kw, text, squash) == [OTHER]
    ensures var t := Norm(text, squash);
      (forall i :: 0 <= i < |kw| ==> kw[i].0 != OTHER) && Labelled(kw, text, squash) == [OTHER] ==>
        forall i :: 0 <= i < |kw| ==> !AnyWord(kw[i].1, t, squash)
  {
    var t := Norm(text, squash);
    var h := Hits(kw, t, squash);
    if h != [] {
      HitsMember(kw, t, squash, h[0]);
    } else {
      forall i | 0 <= i < |kw| ensures !AnyWord(kw[i].1, t, squash) {
        HitsMember(kw, t, squash, kw[i].0);
      }
    }
  }

  /** With spaces removed, a white-space character inserted anywhere in
      the text changes no label. */
  lemma SquashedIgnoresTextSpace(kw: Keywords, x: string, c: char, y: string)
    requires IsSpace(c)
    ensures Labelled(kw, x + [c] + y, true) == Labelled(kw, x + y, true)
  {
    RemoveSpaceInsert(x, c, y);
  }

  /** Two dictionaries with the same categories whose words compare alike
      match alike. */
  lemma {:induction false} HitsSameNorms(kw1: Keywords, kw2: Keywords, t: string, squash: bool)
    requires |kw1| == |kw2|
    requires forall i :: 0 <= i < |kw1| ==> kw1[i].0 == kw2[i].0 && |kw1[i].1| == |kw2[i].1|
    requires forall i, j :: 0 <= i < |kw1| && 0 <= j < |kw1[i].1| ==> Norm(kw1[i].1[j], squash) == Norm(kw2[i].1[j], squash)
    ensures Hits(kw1, t, squash) == Hits(kw2, t, squash)
  {
    if kw1 != [] {
      var n := |kw1| - 1;
      HitsSameNorms(kw1[..n], kw2[..n], t, squash);
      assert AnyWord(kw1[n].1, t, squash) ==> AnyWord(kw2[n].1, t, squash);
      assert AnyWord(kw2[n].1, t, squash) ==> AnyWord(kw1[n].1, t, squash);
    }
  }

  /** With spaces removed, a white-space character inserted into one word
      changes no label. */
  lemma SquashedIgnoresWordSpace(kw: Keywords, text: string, i: nat, j: nat, x: string, c: char, y: string)
    requires i < |kw| && j < |kw[i].1| && kw[i].1[j] == x + [c] + y && IsSpace(c)
    ensures Labelled(kw[i := (kw[i].0, kw[i].1[j := x + y])], text, true) == Labelled(kw, text, true)
  {
    var kw2 := kw[i := (kw[i].0, kw[i].1[j := x + y])];
    RemoveSpaceInsert(x, c, y);
    HitsSameNorms(kw2, kw, Norm(text, true), true);
  }

  /** Without removal, a space is significant: `"ab"` is not found in
      `"a b"`, while the squashed comparison finds it. */
  lemma BaselineSeesSpace()
    ensures Labelled([("x", ["ab"])], "a b", false) == [OTHER]
    ensures Labelled([("x", ["ab"])], "a b", true) == ["x"]
  {
    SpacedWordMissed();
    SquashedWordFound();
  }

  lemma SpacedWordMissed()
    ensures !AnyWord(["ab"], Norm("a b", false), false)
  {
    var words := ["ab"];
    var t := Norm("a b", false);
    assert t == "a b";
    assert "a b"[..2][1] == ' ';
    assert " b"[..2][0] == ' ';
    assert !Contains("a b", "ab");
    forall j | 0 <= j < |words| ensures !Contains(t, Norm(words[j], false)) {
      assert Norm(words[j], false) == "ab";
    }
  }

  lemma SquashedWordFound()
    ensures AnyWord(["ab"], Norm("a b", true), true)
  {
    assert RemoveSpace("a b") == "ab";
    assert RemoveSpace("ab") == "ab";
    var words := ["ab"];
    assert Norm("a b", true) == "ab" == Norm(words[0], true);
    assert StartsWith("ab", "ab");
    assert Contains(Norm("a b", true), Norm(words[0], true));
  }

  /** `weak_labels` of `train_sbert.py`: spaces removed from the text and
      each word, the first matching word of a category ending its scan. */
  method WeakLabelsSquashed(text: string, kw: Keywords) returns (labs: seq<string>)
    ensures labs == Labelled(kw, text, true)
  {
    var t := Lower(RemoveSpace(text));
    labs := [];
    var i := 0;
    while i < |kw|
      invariant 0 <= i <= |kw|
      invariant labs == Hits(kw[..i], t, true)
    {
      var k := kw[i].0;
      var words := kw[i].1;
      ghost var before := labs;
      var j := 0;
      while j < |words|
        invariant 0 <= j <= |words| && labs == before
        invariant forall m :: 0 <= m < j ==> !Contains(t, Norm(words[m], true))
      {
        if Contains(t, Lower(RemoveSpace(words[j]))) {
          assert Contains(t, Norm(words[j], true));
          labs := labs + [k];
          break;
        }
        j := j + 1;
      }
      assert labs == before + (if AnyWord(words, t, true) then [k] else []);
      assert kw[..i + 1][..i] == kw[..i];
      i := i + 1;
    }
    assert kw[..|kw|] == kw;
    if labs == [] {
      labs := [OTHER];
    }
  }

  /** `weak_labels` of `train_multilabel_baseline.py`: lowercased text and
      words, compared as they are. */
  method WeakLabelsPlain(text: string, kw: Keywords) returns (labs: seq<string>)
    ensures labs == Labelled(kw, text, false)
  {
    var t := Lower(text);
    labs := [];
    var i := 0;
    while i < |kw|
      invariant 0 <= i <= |kw|
      invariant labs == Hits(kw[..i], t, false)
    {
      assert kw[..i + 1][..i] == kw[..i];
      if AnyWord(kw[i].1, t, false) {
        labs := labs + [kw[i].0];
      }
      i := i + 1;
    }
    assert kw[..|kw|] == kw;
    if labs == [] {
      labs := [OTHER];
    }
  }
}
